=== FILE: README.md ===
# VizRepoAssist capture pipeline in Dafny

This project models the part of VizRepoAssist that takes screenshots of a
Next.js application at a commit and keeps them in a local store. It
covers these components:

- Route discovery (`RouteDiscovery`). It walks `app/`, or `pages/` when
  `app/` yields nothing, turns directories and page files into routes,
  and filters them by glob patterns.
- The screenshot store (`StorageManager`). It covers the `.vizrepo`
  layout, session creation, screenshot file names, cleanup of old
  sessions, and the session listing.
- The capture engine (`ScreenshotCapture`). It launches the browser,
  captures one viewport at a time, and captures desktop and mobile in
  turn.
- The git queries (`GitManager`). These are commit, branch, porcelain
  status, staged changes, the hooks directory, and in-progress
  operations.
- The hook installer (`HookInstaller`). It installs, uninstalls, reports
  status of and validates the pre-commit hook, and sets up `.vizrepo`.
  The installer and the store describe the same `.vizrepo` directory in
  two shapes, a file system and a store disk. `HookStore` relates them:
  the store reads back what the installer wrote.
- The orchestrator's capture run (`captureScreenshots`), its session
  listing and its cleanup command.
- The command-line parser (`parseArgs`).

Everything the original observes from outside is a parameter, an
"oracle". That covers git's answers, the file system, the HTTP probe of
the dev server, Puppeteer, the clocks and the random fallback token:

- A git command is a `Result<string, Thrown>`: its output, or the
  exception `execSync` threw.
- A Puppeteer step is an `Outcome`: `Done`, or `Threw(e)`.
- A file system is a map from paths to files plus a set of directories.
  The store sees only its directories and its `index.json`. The index
  file is missing, unparsable, JSON without a `sessions` array (such
  as `{}`), or a stored index.
- A clock reading is a string or a number passed in.
- Turning a timestamp into a time is a function `time: string -> int`.

JavaScript semantics are written out where they matter:

- `||` defaults replace every falsy value, while destructuring defaults
  replace only `undefined`.
- `split('=')` keeps only the second piece.
- `slice` clamps its bounds.
- A `finally` that throws replaces the result.
- `Array.prototype.sort` is stable.
- `String(error)` follows `Error.prototype.toString`.

Modules follow the source files:

| module | file |
|---|---|
| `Discovery` | `discovery.dfy` |
| `Storage` | `storage.dfy` |
| `Capture` | `capture.dfy` |
| `Git` | `git.dfy` |
| `Hooks` | `hooks.dfy` |
| `HookStore` | `hookstore.dfy` |
| `Orchestrator` | `orchestrator.dfy` |
| `Cli` | `cli.dfy` |

`Wrappers`, `Text`, `Seqs` and `Sorting` hold the shared pieces:

- `Option` and `Result`;
- JavaScript `trim`, `split` and number formatting;
- subsequences and filters;
- a stable insertion sort by an integer key.

## Model

| member | source | states |
|---|---|---|
| Discovery.PageFileRoute | src/discovery.ts:148-168 | A pages-router file gives no route exactly when it lacks a `.ts/.tsx/.js/.jsx` extension or starts with a reserved name (`_app`, `_document`, `_error`, `404`, `500`). An `index` file maps to the prefix, or `/` at the top. Any other file maps to prefix + `/` + base name. |
| Discovery.PageFileRouteOfBase | src/discovery.ts:148-168 | For every page extension and unreserved base, the route is the one built from the base name with the extension stripped. |
| Discovery.BuildUrl | src/discovery.ts:230-233 | The URL ends with the route path. What precedes the path is the base URL with at most one trailing `/` removed. |
| Discovery.WalkProduces | src/discovery.ts:93-143 | A route is in the recursive scan of a list of entries exactly when the scan's reference produces it. The reference says some entry reachable through non-skipped, readable directories emits that route at its path. |
| Discovery.VisitMatchesReference | src/discovery.ts:102-138 | The same equivalence for a single entry: its own route (app page directory or pages file), plus everything below a directory that is not skipped. |
| Discovery.AppWalkBelowPrefix | src/discovery.ts:109-123 | Every app-router route found under a prefix has a path that starts with prefix + `/`. |
| Discovery.AppVisitBelowPrefix | src/discovery.ts:109-123 | The same bound for the scan of one entry. |
| Discovery.AppRootRoute | src/discovery.ts:47-70 | The app scan contains the root route `/` exactly when `app/` is a directory holding `page.tsx` or `page.js`: no subdirectory can produce `/`. |
| Discovery.LiteralPatternMatchesOnlyItself | src/discovery.ts:217-225 | A pattern without `*`, `?` or `.` matches a path exactly when the two are equal. |
| Discovery.StarMatchesAnyLine | src/discovery.ts:217-225 | The pattern `*` matches exactly the paths without a line terminator, because `.*` does not cross lines. |
| Discovery.PrefixPatternMatches | src/discovery.ts:217-225 | `lit*` matches exactly the paths that start with `lit` and have no line terminator after it. |
| Discovery.FilterRoutes | src/discovery.ts:190-212 | The result is a subsequence of the input. It holds exactly the routes matching no exclude pattern and, when includes are given, some include pattern. |
| Discovery.DiscoverRoutes | src/discovery.ts:27-42 | The result is a filtered subsequence of the app routes when there are any, and of the pages routes otherwise. Every route in it survives the filters, and every route of the chosen scan that survives them is in it. |
| Discovery.AppSampleRoutes | src/discovery.ts:27-143 | For a sample tree (root page, `about/page.tsx`, skipped `api/`, `blog/posts/page.js`), discovery yields `/`, `/about` and `/blog/posts` in that order, with their full URLs. |
| Discovery.PagesSampleRoutes | tests/discovery.test.ts:118-125 | For a pages-router tree (`index.tsx`, `about.tsx`, `blog/index.js`, `blog/posts.js`, `_app.tsx`, `_document.tsx`, `404.tsx`, `api/users.ts`), discovery yields `/`, `/about`, `/blog` and `/blog/posts` in listing order. Reserved files and `api/` give nothing. |
| Discovery.ExcludeAdminSample | src/discovery.ts:190-225 | For any route list, excluding `/admin*` drops every `/admin` route and keeps every `/`, `/about` and `/blog` route. |
| Storage.Initialize | src/storage.ts:49-66 | It creates the base and screenshots directories, plus the parents `mkdir -p` makes for the base directory, and no others. An empty index stamped `now` is written only when no index file exists. |
| Storage.InitializeIdempotent | src/storage.ts:49-66 | Initialising twice is the same as initialising once, whatever the second clock reading. |
| Storage.LoadMetadata | src/storage.ts:238-248 | A stored index is read back as is. A missing or unparsable index reads as one with no sessions stamped `now`. JSON without `sessions` gives no usable index. |
| Storage.Timestamp | src/storage.ts:74 | The session timestamp has the clock string's length. Every `:` and `.` becomes `-`, and every other character stays where it was. |
| Storage.CreateCaptureSession | src/storage.ts:71-101 | The directories added are exactly those `mkdir -p` makes: base and screenshots, every directory on the path to the session directory (a `/` in the branch adds one), and `desktop`/`mobile` below it. The session is appended to the index, or starts a new index when there was none. On JSON without `sessions` the directories are still made and the `push` throws a TypeError. |
| Storage.NewSession | src/storage.ts:74-96 | The session's timestamp is `Timestamp(now)` and its id is commit, timestamp and branch joined by `_`. The commit is the trimmed hash or the random token, and the branch is the trimmed name or `unknown`. Its paths are `desktop` and `mobile` in the session directory. |
| Storage.SlashedBranchMakesParent | src/storage.ts:78-82 | A `/` in the branch name makes the session id a nested path. Creating the session also creates the directory named by the id up to that `/`, which is not the session directory. |
| Storage.CreateAppendsOnly | src/storage.ts:229-233 | Creating a session adds exactly one index entry, at the end, and leaves every earlier entry in place. |
| Storage.RouteToFileName | src/storage.ts:185-195 | The file name is never empty and uses only `[a-zA-Z0-9_-]`. |
| Storage.SafeNameUnchanged | src/storage.ts:185-195 | A name that is already safe and non-empty is its own file name. |
| Storage.RouteToFileNameIdempotent | src/storage.ts:185-195 | Sanitising a file name again changes nothing. |
| Storage.SafeRouteFileName | src/storage.ts:185-195 | For `/` + `w`, where `w` uses safe characters and `/` and has no trailing `/`, the name is `w` with `/` turned into `_`, or `home` when `w` is empty. |
| Storage.RootRouteFileName | src/storage.ts:187-193 | The root route `/` is stored as `home`. |
| Storage.PlainSegmentFileName | src/storage.ts:185-195 | A one-segment route of safe characters is stored under the segment itself. |
| Storage.DynamicSegmentFileName | src/storage.ts:185-195 | A dynamic segment `/a/[id]/b` loses its brackets and becomes `a_id_b`. |
| Storage.NestedRouteCollision | src/storage.ts:185-195 | `/a/b` and `/a_b` get the same file name `a_b`, so their screenshots overwrite each other. |
| Storage.HomeRouteCollision | src/storage.ts:185-195 | `/` and `/home` get the same file name. |
| Storage.ScreenshotPath | src/storage.ts:106-119 | The path is the chosen viewport's session directory, `/`, then the screenshot file name. |
| Storage.ScreenshotFileNameRoundTrip | src/storage.ts:113-114 | The file name `<name>_<w>x<h>.jpg` reads back to the sanitised route name and the exact width and height. |
| Storage.ShotNameRoundTrip | src/storage.ts:114 | Any name followed by `_<w>x<h>.jpg` reads back to that name and size. |
| Storage.DimensionsRoundTrip | src/storage.ts:114 | `<w>x<h>` in decimal reads back to `(w, h)`. |
| Storage.EvictionCount | src/storage.ts:138-141 | `slice(0, n - max)` selects `n - max` sessions, clamped to `n` when `max` is negative. |
| Storage.Evicted | src/storage.ts:131-141 | The evicted sessions are that many index entries, in time order. None of them is later than any entry left over, counting repeated sessions (same id, made in the same millisecond) one by one, nor than any session whose id stays. Among sessions with equal times, the evicted ones are the first in index order, as a stable sort makes them. |
| Storage.UniformTimesEvictFirst | src/storage.ts:131-141 | When all sessions have the same time, the evicted ones are exactly the first `n - max` index entries. |
| Storage.RemoveTrees | src/storage.ts:143-148 | Removal deletes every evicted session directory with everything under it, and no other directory. |
| Storage.Prune | src/storage.ts:151-156 | The remaining index is the subsequence of sessions whose id was not evicted. |
| Storage.Cleanup | src/storage.ts:124-161 | On JSON without `sessions` the `length` read throws a TypeError. At or below the limit nothing changes. Above it, the evicted ids lose their directory trees and index entries, all other sessions stay in index order, no other directory is removed, and `lastCleanup` becomes `now`. |
| Storage.CleanupLeavesBranchParent | src/storage.ts:143-148 | Removing an evicted session whose id holds a `/` deletes the session directory but leaves the parent directory its creation made, unless another evicted id covers it. |
| Storage.CleanupUniformTimesKeepsTail | src/storage.ts:124-161 | With unique ids and all times equal, cleanup keeps exactly the last `maxCommits` index entries, in order. |
| Storage.KeptCount | src/storage.ts:151-156 | Pruning the evicted ids keeps at most `n - evicted` sessions, and exactly that many when ids are unique. |
| Storage.CleanupBound | src/storage.ts:124-161 | After a cleanup that does not throw, the index holds at most `maxCommits` sessions. |
| Storage.CleanupKeepsExactlyMax | src/storage.ts:124-161 | With unique ids and an index over the limit, cleanup leaves exactly `maxCommits` sessions. |
| Storage.CleanupIdempotent | src/storage.ts:124-161 | A second cleanup changes nothing. |
| Storage.GetSessions | src/storage.ts:166-172 | The listing is a permutation of the index, newest first. Sessions with equal times keep their index order. On JSON without `sessions` the `sort` throws a TypeError. |
| Storage.UniformTimesKeepIndexOrder | src/storage.ts:166-172 | When all timestamps denote the same instant, the listing is the index order. |
| Sorting.SortByKey | src/storage.ts:132-135 | The sort is ordered by key, a permutation of its input, and stable: each run of equal keys keeps its input order. |
| Capture.Viewports | src/capture.ts:29-32 | Desktop is 1920×1200 and mobile is 390×844. |
| Capture.ScaleFactor | src/capture.ts:89 | The device scale factor is 2 exactly for the mobile viewport, and 1 exactly for desktop. |
| Capture.OrDefault | src/capture.ts:95-102 | `x \|\| d` keeps a given non-zero number and uses the default for an absent value or zero. |
| Capture.FullPage | src/capture.ts:103 | A screenshot is full-page unless the option is exactly `false`. |
| Capture.Init | src/capture.ts:37-60 | A running browser is kept. Otherwise the launch either starts one or propagates its failure. The call reports success exactly when a browser is running afterwards. |
| Capture.InitIdempotent | src/capture.ts:38-40 | After a successful init, a second init does nothing and cannot fail. |
| Capture.Close | src/capture.ts:65-70 | Closing a running browser stops it unless `close` throws. Closing when none is running does nothing. |
| Capture.CloseUninitialises | src/capture.ts:65-70 | After a successful close the engine is uninitialised, and a second close is a no-op. |
| Capture.PageSteps | src/capture.ts:86-104 | The page steps succeed exactly when viewport, navigation and screenshot all succeed, with the scale factor, timeout, quality and full-page values derived from the options. |
| Capture.Failed | src/capture.ts:111-118 | A failed capture reports no path, the requested viewport, and an error starting with `Screenshot capture failed: `. |
| Capture.CaptureShot | src/capture.ts:75-124 | The capture throws exactly when the launch fails, or when a page was opened and `page.close` in `finally` throws. It succeeds exactly when every step and the close succeed. Every opened page is closed. |
| Capture.DefaultsAreFalsy | src/capture.ts:95-103 | Timeout 0 behaves as an absent timeout, quality 0 as an absent quality, and an absent `fullPage` as `true`. |
| Capture.FailedCaptureKeepsBrowser | src/capture.ts:75-124 | A capture on a running browser never relaunches it and leaves it running, even when the capture fails. |
| Capture.CaptureMultiViewport | src/capture.ts:129-155 | Desktop is captured and then mobile, and the two results are returned in that order. An exception from either capture propagates. |
| Capture.MultiViewportAlwaysTwo | src/capture.ts:129-155 | With a running browser and pages that close cleanly, both results come back, desktop then mobile. Each succeeds exactly when its page opened and its steps succeeded. |
| Git.GetCurrentCommitHash | src/git.ts:46-55 | The trimmed output of `git rev-parse --short HEAD`, or the error `Failed to get commit hash: …`. |
| Git.GetCurrentBranch | src/git.ts:60-69 | The trimmed branch name, or the error `Failed to get branch name: …`. |
| Git.SafeGetCommitHash | src/git.ts:214-221 | The trimmed hash, or the fallback token when git fails. |
| Git.SafeGetBranch | src/git.ts:226-232 | The trimmed branch, or `unknown` when git fails. |
| Git.HasStagedChanges | src/git.ts:149-159 | True exactly when `git diff --cached --name-only` succeeds and prints a non-whitespace character. |
| Git.FilesWhere | src/git.ts:103-124 | The files matching a line rule are empty exactly when no line matches it. |
| Git.ParseStatusLines | src/git.ts:97-125 | The single loop over porcelain lines yields the three independent filters: staged (index column not space or `?`), modified (work-tree column `M`) and untracked (`??`). |
| Git.GetStatus | src/git.ts:74-144 | Outside a repository the result is the empty status. Inside, it carries the trimmed branch and commit and the three lists. `hasChanges` holds exactly when some list is non-empty. A failing git call gives an error starting with `Failed to get git status: `. |
| Git.NoChangesIffNoLine | src/git.ts:101-130 | A non-blank porcelain output yields no change exactly when none of its lines is staged, modified or untracked. |
| Git.StagedAndUntrackedDisjoint | src/git.ts:109-122 | No line is both staged and untracked, while `MM` lines count as both staged and modified. |
| Git.PorcelainSample | src/git.ts:103-124 | ` M`, `??` and `A ` lines land in modified, untracked and staged respectively. |
| Git.ChangesOfLines | src/git.ts:95-125 | For output that is a `\n`-join of lines, the lists are the filters of exactly those lines. |
| Git.GetHooksDirectory | src/git.ts:164-180 | The result is the trimmed git dir, absolute or joined to the project root, followed by `/hooks`. A git failure gives the error `Failed to get hooks directory: …`. |
| Git.HooksDirectoryAbsolute | src/git.ts:164-180 | With an absolute project root the hooks directory is absolute and ends in `/hooks`. |
| Git.HooksDirectorySamples | src/git.ts:166-176 | `.git` plus a newline under `/p` gives `/p/.git/hooks`, and `/abs/.git` gives `/abs/.git/hooks`. |
| Git.ProbeMarkers | src/git.ts:250-263 | The probe loop returns true exactly when one of `MERGE_HEAD`, `REBASE_HEAD`, `CHERRY_PICK_HEAD` or `BISECT_LOG` exists in the git directory. |
| Git.IsInGitOperation | src/git.ts:237-267 | False when the git directory cannot be resolved. Otherwise it is true exactly when a marker exists in it. |
| Hooks.Install | src/hook-installer.ts:30-106 | Outside a repository nothing changes and the install fails. Inside, the hooks directory exists afterwards. An existing hook without `force` is left untouched, and the call succeeds exactly when that hook is ours. Otherwise (after the optional backup) it succeeds exactly when the template exists, and then the hook is the template's content with mode 0755. The backup path is reported exactly when the copy succeeded after backing up an existing hook. |
| Hooks.KeepExisting | src/hook-installer.ts:52-69 | An existing hook without `force` reports success exactly when it carries the marker, and makes no backup. |
| Hooks.CopyTemplate | src/hook-installer.ts:71-98 | The backup precedes the template check. Success holds exactly when the template exists. The backup path is reported exactly when that holds, `backup` is set and a hook existed. A missing template reports none, though the backup copy was made. |
| Hooks.BackedUp | src/hook-installer.ts:73-77 | With `backup` and an existing hook, a copy appears at `<hook>.backup.<ms>`. Otherwise the files are unchanged. |
| Hooks.Uninstall | src/hook-installer.ts:111-156 | Only our hook is deleted. A foreign hook stays and the call fails. A missing hook is a success that changes nothing. Outside a repository the call fails and changes nothing. |
| Hooks.GetHookStatus | src/hook-installer.ts:180-214 | `installed` says a hook exists and `isVizRepoHook` says it is ours. `executable` reflects any execute bit (`mode & 0o111`). |
| Hooks.Validate | src/hook-installer.ts:219-269 | It is valid exactly when there are no issues. Outside a repository the only issue is "Not a git repository". Inside, it is valid exactly when git works, our hook is installed and executable, and the hooks directory exists and is writable. |
| Hooks.HookIssues | src/hook-installer.ts:238-248 | The hook contributes no issue exactly when it is installed, ours and executable. |
| Hooks.InitializeVizRepoDirectory | src/hook-installer.ts:274-305 | It creates `.vizrepo`, `screenshots` and `config`. An existing `index.json` is never rewritten, and a missing one gets the empty index. |
| Hooks.InstallNeverClobbers | src/hook-installer.ts:52-69 | Without `force`, installing never changes or removes an existing file. |
| Hooks.UninstallOnlyRemovesOurs | src/hook-installer.ts:123-142 | Uninstalling removes no file other than our own hook. |
| Hooks.InstallResultsInTemplate | src/hook-installer.ts:79-98 | A fresh or forced install with a template leaves an executable copy of it. The hook then counts as installed exactly when the template carries the marker. |
| Hooks.ForcedInstallBacksUp | src/hook-installer.ts:73-85 | A forced install with backup copies the old hook to the backup path. The path is reported only when the template exists. |
| Hooks.InstallIdempotent | src/hook-installer.ts:52-62 | A second install finds our hook, succeeds and changes nothing. |
| Hooks.InstallUninstallRoundTrip | src/hook-installer.ts:30-156 | Installing into a repository without a hook and then uninstalling restores the original files. |
| Hooks.InstalledHookValidates | src/hook-installer.ts:219-269 | A fresh install of a marked template into a writable, working repository validates with no issues. |
| Hooks.InitializeDirectoryIdempotent | src/hook-installer.ts:274-305 | Setting up `.vizrepo` twice equals doing it once. |
| HookStore.ReadEmptyIndex | src/hook-installer.ts:286-292 | Text read as an installer-written empty index is exactly that index's JSON for the clock reading it yields. |
| HookStore.ReadEmptyIndexRoundTrip | src/hook-installer.ts:286-292 | The empty index the installer writes reads back to its clock reading. |
| HookStore.StoreView | src/storage.ts:238-248 | The store sees the installer's directories unchanged. With no `index.json` its index is missing, and the installer's empty index JSON reads as an empty stored index with that clock reading. |
| HookStore.DefaultLayout | src/storage.ts:31-44 | With the default options the store's base directory is `<root>/.vizrepo` and its screenshots directory `<root>/.vizrepo/screenshots`, the directories the installer makes. |
| HookStore.InitializedStoreLoads | src/hook-installer.ts:274-305 | After the installer sets up `.vizrepo`, a store with the default options finds its directories. It reads an existing index as before, or else loads the empty index stamped by the installer, and its own initialisation then changes nothing. |
| Orchestrator.GateReport | src/orchestrator.ts:104-130 | Each early exit (not a repository, git operation in progress, dev server down while `skipIfNoServer`) fails with no session and no error list. |
| Orchestrator.OpenSession | src/orchestrator.ts:132-134 | After initialise and create, the index is stored and its last entry is the new session. On JSON without `sessions` the creation throws and the index is left as it was. |
| Orchestrator.FailureLines | src/orchestrator.ts:192-201 | There is one line per failed result, in result order. Each line is `<route> (<viewport>): <error>`, with an absent error printed as `undefined`. There are none exactly when every result succeeded. |
| Orchestrator.CaptureRoute | src/orchestrator.ts:169-215 | A route yields between one and two outcomes (success plus error lines), every error line names the route, and no page is left open. |
| Orchestrator.CaptureRouteMatchesReference | src/orchestrator.ts:186-204 | With a running browser, a route counts as captured exactly when neither viewport's page close throws and at least one viewport's page opened, ran all steps and closed cleanly. |
| Orchestrator.RunRoutes | src/orchestrator.ts:164-216 | The captured count is at most the number of routes. Every route contributes a success or an error. Pages stay balanced. |
| Orchestrator.CaptureRoutes | src/orchestrator.ts:164-216 | The loop computes exactly the tally of the route-by-route fold. |
| Orchestrator.CountSucceeding | src/orchestrator.ts:203-204 | The reference count of routes that succeed is at most the number of routes. |
| Orchestrator.CountSucceedingZero | src/orchestrator.ts:203-204 | The reference count is zero exactly when no route succeeds. |
| Orchestrator.CapturedMatchesReference | src/orchestrator.ts:164-216 | With a running browser, the loop's captured count equals the reference count. |
| Orchestrator.SomeRouteCaptured | src/orchestrator.ts:164-216 | With a running browser, some route is captured exactly when some route succeeds by the reference. |
| Orchestrator.Abort | src/orchestrator.ts:236-249 | The catch-all reports failure with the exception as its single error and no session. It closes the browser, ignoring a failure of that close. |
| Orchestrator.Finish | src/orchestrator.ts:224-235 | Success holds exactly when some route was captured. The report names the session and the count, and lists the route errors exactly when there are any. |
| Orchestrator.Conclude | src/orchestrator.ts:218-235 | After the loop, success holds exactly when cleanup does not throw, the browser closes cleanly (or was not running) and some route was captured. |
| Orchestrator.CaptureAll | src/orchestrator.ts:161-235 | From the launch on: captured counts are bounded by the routes, a success names the session, and pages stay balanced. |
| Orchestrator.CaptureAllSucceedsIff | src/orchestrator.ts:161-249 | Once routes exist, the run succeeds exactly when the browser is or gets running, cleanup and close do not throw, and some route succeeds by the reference. |
| Orchestrator.Proceed | src/orchestrator.ts:132-235 | Past the gates a session always exists in a stored index. A success names it and counts at least one route. |
| Orchestrator.CaptureScreenshots | src/orchestrator.ts:89-250 | A gated run changes neither the store nor the browser. An ungated run always stores the index. A success names a session and at least one captured route, counted within the discovered routes. Every error list is non-empty. |
| Orchestrator.SuccessIffSomeRouteCaptured | src/orchestrator.ts:89-250 | The whole run succeeds exactly when it passes the gates, discovers routes, has a running browser, cleanup and close do not throw, and some route succeeds by the reference. |
| Orchestrator.SessionRecordedFirst | src/orchestrator.ts:132-157 | Without routes the run fails, but still names the new session, records it in the index, and never touches the browser. |
| Orchestrator.WrongShapeIndexAborts | src/orchestrator.ts:132-134 | When the index is JSON without `sessions`, the run ends in the catch-all. It reports the TypeError from `push` as its single error, names no session, leaves the index as it was and opens no page. |
| Orchestrator.LaunchFailureAborts | src/orchestrator.ts:161-249 | A failed browser launch ends in the catch-all: failure, no session id, the launch error as the single error. No page is opened and no browser is left running. |
| Orchestrator.SliceEnd | src/orchestrator.ts:320 | `slice(0, limit)` keeps `limit` items when in range, all items when larger, and `len + limit` (at least 0) when negative. |
| Orchestrator.ListSessions | src/orchestrator.ts:317-324 | The listing is the first `limit` (default 10) sessions of the newest-first listing. It is sorted newest first and drawn from the index. When the listing throws (JSON without `sessions`) it is empty. |
| Orchestrator.ListSessionsAll | src/orchestrator.ts:317-324 | A limit at least the index size lists every session. |
| Orchestrator.CleanupCommand | src/orchestrator.ts:329-342 | The command succeeds exactly when the store's cleanup does not throw, and then the store is the cleaned one. Otherwise the store is unchanged and the message starts with `Cleanup failed: `. On JSON without `sessions` the message carries the TypeError. |
| Orchestrator.CleanupCommandIdempotent | src/orchestrator.ts:329-342 | Running the cleanup command twice equals running it once. |
| Cli.Words | src/cli.ts:24 | The words are `argv` without the interpreter and script, and empty when there are fewer than two. |
| Cli.CommandOf | src/cli.ts:25 | The command is the first word, or `help` when that is missing or empty. |
| Cli.ParseArgs | src/cli.ts:23-60 | The index loop with its look-ahead computes the command, positionals and options of the left-to-right token fold. |
| Cli.ParseToken | src/cli.ts:29-57 | One iteration reads one token, or two when `--key` takes the next as its value, and keeps the fold invariant. |
| Cli.ConsumeValue | src/cli.ts:37-45 | `--key v`, where `v` is non-empty and does not start with `-`, sets `key` to `v` and consumes both tokens. |
| Cli.ApplyFlags | src/cli.ts:49-53 | `-abc` sets each listed letter as a flag on top of the existing options. |
| Cli.SetFlagsSpec | src/cli.ts:49-53 | After a flag group, each one-letter key of the group is `true`, and every other key keeps its value. |
| Cli.LongFlag | src/cli.ts:33-48 | `--key` sets the flag and waits for a possible value. |
| Cli.TakesValue | src/cli.ts:39-45 | A waiting key takes a following plain token as its string value. |
| Cli.PlainToken | src/cli.ts:54-56 | A plain token becomes a positional argument. |
| Cli.ArgsArePlainTokens | src/cli.ts:29-57 | The positionals are a subsequence of the tokens and none of them starts with `-` or is empty. |
| Cli.KeysNonEmpty | src/cli.ts:34-35 | No option key is empty. |
| Cli.LastAssignmentWins | src/cli.ts:34-38 | A later `--key=value` overrides whatever `key` held, and changes nothing else. |
| Cli.FlagGroup | src/cli.ts:49-53 | After `-cs` the option keys are exactly the earlier keys plus the one-letter keys of `cs`. |
| Cli.CommandSamples | tests/cli.test.ts:50-58 | `init` parses to command `init` with nothing else, and a missing or empty command is `help`. |
| Cli.PositionalSample | tests/cli.test.ts:60-67 | `hook install` gives the positional `install`. |
| Cli.FlagsSample | tests/cli.test.ts:69-79 | `--no-hook --force` sets both flags. |
| Cli.ValueSample | tests/cli.test.ts:81-90 | `--url http://localhost:4000` sets `url` to that string with no positionals. |

## Left out

- I/O is not modelled: fs, `execSync`, `fetch` and Puppeteer are oracles (see above). Timeouts, `AbortSignal`, async scheduling and console logging are not modelled.
- `testServerAvailability` (src/orchestrator.ts:255-265) is the oracle `serverUp`. It stands for a `HEAD` request that answered `ok` within 5 s.
- `Date`, `new Date(ts).getTime()` and `toISOString` are clock strings and an abstract `time` function to integers. `NaN` is covered only when every timestamp fails to parse (`UniformTimesKeepIndexOrder`). With only some failing, the JavaScript comparator is inconsistent and the order is engine-defined.
- Storage.CreateCaptureSession: one clock reading `now` stands for the separate `new Date()` readings of one call (src/storage.ts:59, 74 and 245): the stamp `initialize` writes, the session timestamp and `loadMetadata`'s fallback stamp. The model does not cover these readings differing within a call. `Storage.Cleanup` takes its own reading.
- `Math.random().toString(36).substring(2, 8)` is the parameter `token`.
- Paths are joined with `/`. `path.join` normalisation (`..`, duplicate separators) is not modelled. A session id holding `/` is treated as a nested path, as `path.join` does. A `..` in a branch name is not resolved. `__dirname` for the hook template is the parameter `templatePath`.
- Strings are sequences of code points. The pattern regular expression has no `u` flag (src/discovery.ts:217-225), so its `.` matches one UTF-16 code unit. A character outside the Basic Multilingual Plane is two units in JavaScript, so `?` does not match it there, and `.` in a pattern does not either. In the model it is one character, and both match it.
- `matchesPattern` builds a regular expression. Only `*`, `?` and `.` are treated as regex syntax. Any other metacharacter in a pattern is read literally.
- File-system failures are not modelled: a failing `mkdir`, `writeFile`, `rm` or `copyFile`, and permission errors other than an unreadable directory during discovery. The store throws only on an index that is JSON without a `sessions` array. Then `push`, `length` and `sort` throw a TypeError, and `listSessions` returns nothing.
- Other wrong JSON shapes are read as one of the four index states. That covers `null`, a `sessions` that is not an array, and session records with missing or non-string fields. The TypeError's message follows V8's wording.
- Hooks.Install: a hook is present when the hook path is a file. The source's `existsSync` (src/hook-installer.ts:52, 123, 166, 190) is also true for a directory at that path. Such a directory is not modelled, so installing, uninstalling and the status treat it as no hook.
- A directory at the path of `index.json` is treated as a missing index. The store's `fileExists` is false for it, and the write that would follow is not modelled.
- The project root's own ancestors are taken to exist already, so `mkdir -p` creates only what lies below the project root.
- Cleanup leaves behind the parent directory that a `/` in a branch name made. This is the code's behaviour and it is modelled as written (`Storage.CleanupLeavesBranchParent`). Whether the authors meant it is not claimed.
- Routes come out in directory-listing order, which is an oracle. The discovery tests sort the routes before comparing them. `Discovery.PagesSampleRoutes` fixes one listing order.
- Orchestrator.Conclude: when `cleanup` throws, the store is kept as it was before cleanup. A partial cleanup is not modelled.
- Orchestrator.CleanupCommand: a failed cleanup leaves the store unchanged. In the source, a throwing `rmSync` or `writeFileSync` (src/storage.ts:143-160) can leave some session directories removed while the index still lists them. That partial state is not modelled.
- Option keys such as `__proto__` are not special-cased. The options record is a plain map.
- `captureMultiViewport` spreads a `Partial<CaptureOptions>` over each capture's options. The model passes only quality, full-page and timeout (`Tuning`), which is all the orchestrator passes. A caller overriding `url`, `outputPath` or `viewport` through the spread is not modelled.
- The time `Date.now()` for a hook backup is the parameter `nowMs`. A backup path that equals the hook path is excluded in `Hooks.ForcedInstallBacksUp`.
- `initializeVizRepoDirectory` failures (src/hook-installer.ts:299-304) are not modelled: the file system never throws.
- Other `GitManager` members (`isGitRepository` is an oracle answer):
  - `getRepositoryInfo` (src/git.ts:185-209) is not modelled; the orchestrator's run does not use it.
  - `validateGitInstallation` (src/git.ts:272-282) is the oracle `gitWorks` of `Hooks.Validate`.
- The store's own commit and branch getters (src/storage.ts:200-224) behave as `Git.SafeGetCommitHash` and `Git.SafeGetBranch`, which are used in their place.
- `getLatestSession` (src/storage.ts:177-180) is not modelled. It is the first element of `Storage.GetSessions`.
- `initialize`, `installHook` and `getStatus` of the orchestrator (src/orchestrator.ts:39-84, 270-312) are not modelled. They only combine the modelled installer and git calls.
- The rest of src/cli.ts is not modelled: command dispatch, handlers, help and version output. The MCP server (src/mcp-server.ts) is not part of this model.

=== FILE: capture.dfy ===
/**
 * `ScreenshotCapture`: a browser handle that is launched on demand, and
 * captures that open one page each, drive it through viewport, navigation
 * and screenshot, and close it again.
 *
 * Puppeteer is an oracle: the launch, and for each capture the answers of
 * `newPage`, `setViewport`, `goto`, `screenshot` and `page.close`. The
 * answers of the three page steps are functions of the settings the
 * capture hands them, so that option resolution is observable.
 */
module Capture {
  import opened Wrappers
  import opened Text

  datatype ViewportName = Desktop | Mobile

  datatype Viewport = Viewport(width: nat, height: nat, name: ViewportName)

  /** `VIEWPORTS.desktop`. */
  const DesktopViewport: Viewport := Viewport(1920, 1200, Desktop)

  /** `VIEWPORTS.mobile`. */
  const MobileViewport: Viewport := Viewport(390, 844, Mobile)

  /** `VIEWPORTS[name]`: the fixed viewport for each name, carrying that name. */
  function Viewports(name: ViewportName): (v: Viewport)
    ensures v.name == name
    ensures name == Desktop ==> v.width == 1920 && v.height == 1200
    ensures name == Mobile ==> v.width == 390 && v.height == 844
  {
    match name
    case Desktop => DesktopViewport
    case Mobile => MobileViewport
  }

  /** The default navigation timeout, in milliseconds. */
  const DefaultTimeout: int := 30000

  /** The default JPEG quality. */
  const DefaultQuality: int := 80

  /** The prefix of the exception `init` throws when the browser cannot be launched. */
  const LaunchFailedPrefix: string := "Failed to launch browser: "

  /** The prefix of the error a failed capture reports. */
  const CaptureFailedPrefix: string := "Screenshot capture failed: "

  /** `CaptureOptions`; absent optional fields are `None`. */
  datatype CaptureOptions = CaptureOptions(
    url: string,
    outputPath: string,
    viewport: Viewport,
    quality: Option<int>,
    fullPage: Option<bool>,
    timeout: Option<int>)

  /** `CaptureResult`. */
  datatype CaptureResult = CaptureResult(
    success: bool,
    path: Option<string>,
    error: Option<string>,
    viewport: Viewport)

  /**
   * The engine's state: whether a browser is held, how many launches
   * succeeded, and how many pages were opened and had `close` called on
   * them.
   */
  datatype Engine = Engine(running: bool, launches: nat, pagesOpened: nat, pageCloses: nat)

  /** A newly constructed engine. */
  const Fresh: Engine := Engine(false, 0, 0, 0)

  /** `isInitialized`. */
  predicate IsInitialized(e: Engine) {
    e.running
  }

  /** The Puppeteer answers for the page of one capture. */
  datatype PageOracle = PageOracle(
    newPage: Outcome,
    setViewport: (nat, nat, nat) -> Outcome,   // width, height, device scale factor
    goto: (string, int) -> Outcome,             // url, timeout
    screenshot: (string, int, bool) -> Outcome, // path, quality, full page
    close: Outcome)

  // ---------------------------------------------------------------------
  // Option resolution

  /** The device scale factor: 2 for the mobile viewport, 1 otherwise. */
  function ScaleFactor(v: Viewport): (f: nat)
    ensures f == 2 <==> v.name.Mobile?
    ensures f == 1 <==> v.name.Desktop?
  {
    if v.name.Mobile? then 2 else 1
  }

  /** JavaScript `v || d` on an optional number: an absent value and `0` both give `d`. */
  function OrDefault(v: Option<int>, d: int): (r: int)
    ensures v.Some? && v.value != 0 ==> r == v.value
    ensures v.None? || v.value == 0 ==> r == d
  {
    if v.Some? && v.value != 0 then v.value else d
  }

  /** `fullPage !== false`. */
  function FullPage(v: Option<bool>): (r: bool)
    ensures !r <==> v == Some(false)
  {
    v != Some(false)
  }

  /** The navigation timeout a capture uses. */
  function Timeout(o: CaptureOptions): int {
    OrDefault(o.timeout, DefaultTimeout)
  }

  /** The JPEG quality a capture uses. */
  function Quality(o: CaptureOptions): int {
    OrDefault(o.quality, DefaultQuality)
  }

  /** Resolving a resolved value again changes nothing, since neither default is `0`. */
  lemma OrDefaultIdempotent(v: Option<int>, d: int)
    requires d != 0
    ensures OrDefault(Some(OrDefault(v, d)), d) == OrDefault(v, d)
  {
  }

  // ---------------------------------------------------------------------
  // Lifecycle

  /**
   * `init`: nothing to do when a browser is held; otherwise launch, and on
   * a launch failure throw `Failed to launch browser: <error>` and keep
   * no browser.
   */
  function Init(e: Engine, launch: Outcome): (res: (Outcome, Engine))
    ensures e.running ==> res == (Done, e)
    ensures !e.running && launch.Done? ==>
      res == (Done, e.(running := true, launches := e.launches + 1))
    ensures !e.running && launch.Threw? ==>
      && res.1 == e
      && res.0 == Threw(NewError(LaunchFailedPrefix + Describe(launch.error)))
    ensures res.0.Done? <==> res.1.running
  {
    if e.running then (Done, e)
    else
      match launch
      case Done => (Done, e.(running := true, launches := e.launches + 1))
      case Threw(err) => (Threw(NewError(LaunchFailedPrefix + Describe(err))), e)
  }

  /** A second `init` after a successful one launches nothing, whatever the launcher would answer. */
  lemma InitIdempotent(e: Engine, launch: Outcome, again: Outcome)
    requires Init(e, launch).0.Done?
    ensures Init(Init(e, launch).1, again) == (Done, Init(e, launch).1)
  {
  }

  /**
   * `close`: when a browser is held, close it and forget it; if closing
   * throws, the exception propagates and the handle is kept. Without a
   * browser it does nothing.
   */
  function Close(e: Engine, closing: Outcome): (res: (Outcome, Engine))
    ensures !e.running ==> res == (Done, e)
    ensures e.running && closing.Done? ==> res == (Done, e.(running := false))
    ensures e.running && closing.Threw? ==> res == (closing, e)
  {
    if !e.running then (Done, e)
    else if closing.Done? then (Done, e.(running := false))
    else (closing, e)
  }

  /** After a completed `close` the engine reports itself uninitialised, and closing again is a no-op. */
  lemma CloseUninitialises(e: Engine, closing: Outcome, again: Outcome)
    requires Close(e, closing).0.Done?
    ensures !IsInitialized(Close(e, closing).1)
    ensures Close(Close(e, closing).1, again) == (Done, Close(e, closing).1)
  {
  }

  // ---------------------------------------------------------------------
  // Capturing

  /** The three page steps in order; the first that throws ends the sequence. */
  function PageSteps(o: CaptureOptions, page: PageOracle): (r: Outcome)
    ensures r.Done? <==>
      && page.setViewport(o.viewport.width, o.viewport.height, ScaleFactor(o.viewport)).Done?
      && page.goto(o.url, Timeout(o)).Done?
      && page.screenshot(o.outputPath, Quality(o), FullPage(o.fullPage)).Done?
  {
    match page.setViewport(o.viewport.width, o.viewport.height, ScaleFactor(o.viewport))
    case Threw(err) => Threw(err)
    case Done =>
      match page.goto(o.url, Timeout(o))
      case Threw(err) => Threw(err)
      case Done => page.screenshot(o.outputPath, Quality(o), FullPage(o.fullPage))
  }

  /** The result reported when a page step or `newPage` threw `err`. */
  function Failed(o: CaptureOptions, err: Thrown): (r: CaptureResult)
    ensures !r.success && r.path.None? && r.viewport == o.viewport
    ensures r.error.Some? && StartsWith(r.error.value, CaptureFailedPrefix)
  {
    var msg := CaptureFailedPrefix + MessageOf(err);
    assert msg[..|CaptureFailedPrefix|] == CaptureFailedPrefix;
    CaptureResult(false, None, Some(msg), o.viewport)
  }

  /**
   * `capture`: initialise when needed (a launch failure propagates), open
   * a page, run the page steps, and close the page in `finally`. A step
   * that throws becomes a failed result; a throwing `page.close` replaces
   * whatever the capture would have returned.
   */
  function CaptureShot(e: Engine, o: CaptureOptions, launch: Outcome, page: PageOracle): (res: (Result<CaptureResult, Thrown>, Engine))
    ensures res.0.Ok? ==> res.0.value.viewport == o.viewport
    ensures res.0.Ok? && res.0.value.success ==> res.0.value.path == Some(o.outputPath) && res.0.value.error.None?
    ensures res.0.Ok? && !res.0.value.success ==>
      res.0.value.path.None? && res.0.value.error.Some? &&
      StartsWith(res.0.value.error.value, CaptureFailedPrefix)
    ensures res.0.Err? <==> (!e.running && launch.Threw?) || ((e.running || launch.Done?) && page.newPage.Done? && page.close.Threw?)
    ensures res.0.Ok? && res.0.value.success <==>
      (e.running || launch.Done?) && page.newPage.Done? && PageSteps(o, page).Done? && page.close.Done?
    ensures res.1.pagesOpened - res.1.pageCloses == e.pagesOpened - e.pageCloses
    ensures res.1.pagesOpened <= e.pagesOpened + 1
    ensures res.1.running <==> e.running || launch.Done?
    ensures res.1.launches == if e.running || launch.Threw? then e.launches else e.launches + 1
  {
    var (started, e1) := Init(e, launch);
    if started.Threw? then (Err(started.error), e1)
    else
      match page.newPage
      case Threw(err) => (Ok(Failed(o, err)), e1)
      case Done =>
        var e2 := e1.(pagesOpened := e1.pagesOpened + 1);
        var steps := PageSteps(o, page);
        var result := if steps.Done? then CaptureResult(true, Some(o.outputPath), None, o.viewport) else Failed(o, steps.error);
        var e3 := e2.(pageCloses := e2.pageCloses + 1);
        match page.close
        case Done => (Ok(result), e3)
        case Threw(err) => (Err(err), e3)
  }

  /** A zero or absent timeout and quality, and an absent full-page flag, all mean the defaults. */
  lemma DefaultsAreFalsy(e: Engine, o: CaptureOptions, launch: Outcome, page: PageOracle)
    ensures CaptureShot(e, o.(timeout := Some(0)), launch, page) == CaptureShot(e, o.(timeout := None), launch, page)
    ensures CaptureShot(e, o.(quality := Some(0)), launch, page) == CaptureShot(e, o.(quality := None), launch, page)
    ensures CaptureShot(e, o.(fullPage := None), launch, page) == CaptureShot(e, o.(fullPage := Some(true)), launch, page)
  {
    var o1, o2 := o.(timeout := Some(0)), o.(timeout := None);
    assert PageSteps(o1, page) == PageSteps(o2, page);
    var o3, o4 := o.(quality := Some(0)), o.(quality := None);
    assert PageSteps(o3, page) == PageSteps(o4, page);
    var o5, o6 := o.(fullPage := None), o.(fullPage := Some(true));
    assert PageSteps(o5, page) == PageSteps(o6, page);
  }

  /** A failed capture leaves the browser running: only `close` shuts it. */
  lemma FailedCaptureKeepsBrowser(e: Engine, o: CaptureOptions, launch: Outcome, page: PageOracle)
    requires IsInitialized(e)
    ensures IsInitialized(CaptureShot(e, o, launch, page).1)
    ensures CaptureShot(e, o, launch, page).1.launches == e.launches
  {
  }

  /** The settings `captureMultiViewport` passes on to both captures. */
  datatype Tuning = Tuning(quality: Option<int>, fullPage: Option<bool>, timeout: Option<int>)

  /** The options of one capture of `captureMultiViewport`. */
  function MultiOptions(url: string, path: string, name: ViewportName, t: Tuning): CaptureOptions {
    CaptureOptions(url, path, Viewports(name), t.quality, t.fullPage, t.timeout)
  }

  /**
   * `captureMultiViewport`: capture the desktop viewport, then the mobile
   * one, and return both results in that order. Only an exception thrown
   * by a capture (a failed launch or a failed page close) stops it.
   */
  function CaptureMultiViewport(e: Engine, url: string, desktopPath: string, mobilePath: string, t: Tuning,
                                launch: Outcome, desktopPage: PageOracle, mobilePage: PageOracle)
    : (res: (Result<seq<CaptureResult>, Thrown>, Engine))
    ensures res.0.Ok? <==>
      && CaptureShot(e, MultiOptions(url, desktopPath, Desktop, t), launch, desktopPage).0.Ok?
      && CaptureShot(CaptureShot(e, MultiOptions(url, desktopPath, Desktop, t), launch, desktopPage).1,
                 MultiOptions(url, mobilePath, Mobile, t), launch, mobilePage).0.Ok?
    ensures res.0.Ok? ==>
      && |res.0.value| == 2
      && res.0.value[0] == CaptureShot(e, MultiOptions(url, desktopPath, Desktop, t), launch, desktopPage).0.value
      && res.0.value[1] == CaptureShot(CaptureShot(e, MultiOptions(url, desktopPath, Desktop, t), launch, desktopPage).1,
                                   MultiOptions(url, mobilePath, Mobile, t), launch, mobilePage).0.value
      && res.0.value[1].viewport == MobileViewport
      && res.0.value[0].viewport == DesktopViewport
    ensures res.1.pagesOpened - res.1.pageCloses == e.pagesOpened - e.pageCloses
    ensures res.1.launches <= e.launches + 1
    ensures e.running ==> res.1.running && res.1.launches == e.launches
  {
    var (d, e1) := CaptureShot(e, MultiOptions(url, desktopPath, Desktop, t), launch, desktopPage);
    if d.Err? then (Err(d.error), e1)
    else
      var (m, e2) := CaptureShot(e1, MultiOptions(url, mobilePath, Mobile, t), launch, mobilePage);
      if m.Err? then (Err(m.error), e2)
      else (Ok([d.value, m.value]), e2)
  }

  /**
   * With a running browser and pages that close cleanly, both viewports
   * are always attempted and both results come back, failures included.
   */
  lemma MultiViewportAlwaysTwo(e: Engine, url: string, desktopPath: string, mobilePath: string, t: Tuning,
                               launch: Outcome, desktopPage: PageOracle, mobilePage: PageOracle)
    requires IsInitialized(e)
    requires desktopPage.close.Done? && mobilePage.close.Done?
    ensures var (r, _) := CaptureMultiViewport(e, url, desktopPath, mobilePath, t, launch, desktopPage, mobilePage);
      && r.Ok? && |r.value| == 2
      && r.value[0].viewport == DesktopViewport && r.value[1].viewport == MobileViewport
      && (r.value[0].success <==> desktopPage.newPage.Done? && PageSteps(MultiOptions(url, desktopPath, Desktop, t), desktopPage).Done?)
      && (r.value[1].success <==> mobilePage.newPage.Done? && PageSteps(MultiOptions(url, mobilePath, Mobile, t), mobilePage).Done?)
  {
  }
}

=== FILE: cli.dfy ===
/**
 * `VizRepoCli.parseArgs`: the command line split into a command, the
 * positional arguments and the options.
 *
 * The tokens after the command are read left to right. `--key=value`
 * sets a string, `--key` takes the next token as its value when that
 * token is non-empty and does not start with `-`, and is a flag
 * otherwise; `-abc` sets the flags `a`, `b` and `c`; anything else is a
 * positional argument. `Interp` states this as a fold over the tokens
 * that remembers a `--key` still waiting for its value; `ParseArgs` is
 * the source's index loop with its look-ahead, proved equal to the fold.
 */
module Cli {
  import opened Wrappers
  import opened Text
  import Seqs

  /** An option's value: `string | boolean`, where only `true` is ever stored. */
  datatype Value = Str(s: string) | Flag

  /** `CliArgs`. */
  datatype Parsed = Parsed(command: string, args: seq<string>, options: map<string, Value>)

  /** `argv.slice(2)`: the words after the interpreter and the script. */
  function Words(argv: seq<string>): (w: seq<string>)
    ensures |argv| >= 2 ==> argv == argv[..2] + w
    ensures |argv| < 2 ==> w == []
  {
    if |argv| >= 2 then argv[2..] else []
  }

  /** `args[0] || 'help'`: a missing or empty command means `help`. */
  function CommandOf(words: seq<string>): (c: string)
    ensures c != ""
    ensures c == "help" || (|words| > 0 && c == words[0])
    ensures |words| > 0 && words[0] != "" ==> c == words[0]
  {
    if |words| > 0 && words[0] != "" then words[0] else "help"
  }

  /** The tokens the loop reads: everything after the command. */
  function Rest(words: seq<string>): seq<string> {
    if |words| > 0 then words[1..] else []
  }

  /** A token `--key` may take as its value. */
  predicate Consumable(t: string) {
    t != "" && !StartsWith(t, "-")
  }

  /** Every character of `cs` set as a one-letter flag on top of `o`. */
  function SetFlags(o: map<string, Value>, cs: string): map<string, Value> {
    if |cs| == 0 then o else SetFlags(o, cs[..|cs| - 1])[[cs[|cs| - 1]] := Flag]
  }

  /** The fold's state: what is parsed so far and a `--key` still waiting for a value. */
  datatype State = State(args: seq<string>, options: map<string, Value>, pending: Option<string>)

  const Start := State([], map[], None)

  /** A non-empty token read with no `--key` waiting for it. */
  function Fresh(st: State, t: string): State {
    if StartsWith(t, "--") then
      var pieces := Split(t[2..], '=');
      var key := pieces[0];
      if key == "" then st.(pending := None)
      else if |pieces| >= 2 then State(st.args, st.options[key := Str(pieces[1])], None)
      else State(st.args, st.options[key := Flag], Some(key))
    else if StartsWith(t, "-") then State(st.args, SetFlags(st.options, t[1..]), None)
    else State(st.args + [t], st.options, None)
  }

  /** One token: an empty one is skipped, a waiting `--key` takes a plain token as its value. */
  function Step(st: State, t: string): State {
    if t == "" then st.(pending := None)
    else if st.pending.Some? && Consumable(t) then State(st.args, st.options[st.pending.value := Str(t)], None)
    else Fresh(st, t)
  }

  /** The reference reading of a token list. */
  function Interp(toks: seq<string>): State {
    if |toks| == 0 then Start else Step(Interp(toks[..|toks| - 1]), toks[|toks| - 1])
  }

  /** Reading one more token is one more step of the fold. */
  lemma InterpSnoc(toks: seq<string>, t: string)
    ensures Interp(toks + [t]) == Step(Interp(toks), t)
  {
    assert (toks + [t])[..|toks|] == toks;
  }

  /** `parseArgs`. */
  method ParseArgs(argv: seq<string>) returns (p: Parsed)
    ensures p.command == CommandOf(Words(argv))
    ensures p.args == Interp(Rest(Words(argv))).args
    ensures p.options == Interp(Rest(Words(argv))).options
  {
    var words := Words(argv);
    var toks := Rest(words);
    var remaining: seq<string> := [];
    var options: map<string, Value> := map[];
    var i := 0;
    while i < |toks|
      invariant Reached(toks, i, remaining, options)
      decreases |toks| - i
    {
      i, remaining, options := ParseToken(toks, i, remaining, options);
    }
    assert toks[..i] == toks;
    p := Parsed(CommandOf(words), remaining, options);
  }

  /** The loop invariant of `ParseArgs`: the first `i` tokens are read, and a waiting key cannot take the next one. */
  predicate Reached(toks: seq<string>, i: nat, remaining: seq<string>, options: map<string, Value>) {
    && i <= |toks|
    && remaining == Interp(toks[..i]).args && options == Interp(toks[..i]).options
    && (Interp(toks[..i]).pending.Some? ==> i == |toks| || !Consumable(toks[i]))
  }

  /** One iteration of the loop in `parseArgs`: reads one token, or two when `--key` takes a value. */
  method ParseToken(toks: seq<string>, i: nat, remaining: seq<string>, options: map<string, Value>)
    returns (i': nat, remaining': seq<string>, options': map<string, Value>)
    requires i < |toks| && Reached(toks, i, remaining, options)
    ensures i < i' && Reached(toks, i', remaining', options')
  {
    var arg := toks[i];
    ghost var st := Interp(toks[..i]);
    assert toks[..i + 1] == toks[..i] + [arg];
    InterpSnoc(toks[..i], arg);
    i', remaining', options' := i + 1, remaining, options;
    if arg == "" {
    } else if StartsWith(arg, "--") {
      var pieces := Split(arg[2..], '=');
      var key := pieces[0];
      if key == "" {
      } else if |pieces| >= 2 {
        options' := options[key := Str(pieces[1])];
      } else if i + 1 < |toks| && toks[i + 1] != "" && !StartsWith(toks[i + 1], "-") {
        ConsumeValue(toks, i, key);
        options' := options[key := Str(toks[i + 1])];
        i' := i + 2;
      } else {
        options' := options[key := Flag];
      }
    } else if StartsWith(arg, "-") {
      options' := ApplyFlags(options, arg[1..]);
    } else {
      remaining' := remaining + [arg];
    }
  }

  /** `--key` followed by a plain token stores that token under `key`. */
  lemma ConsumeValue(toks: seq<string>, i: nat, key: string)
    requires i + 1 < |toks| && StartsWith(toks[i], "--") && Consumable(toks[i + 1])
    requires Split(toks[i][2..], '=') == [key] && key != ""
    ensures Interp(toks[..i + 2]).options == Interp(toks[..i]).options[key := Str(toks[i + 1])]
    ensures Interp(toks[..i + 2]).args == Interp(toks[..i]).args
    ensures Interp(toks[..i + 2]).pending.None?
  {
    var st := Interp(toks[..i]);
    assert toks[..i + 1] == toks[..i] + [toks[i]];
    assert toks[..i + 2] == toks[..i + 1] + [toks[i + 1]];
    InterpSnoc(toks[..i], toks[i]);
    InterpSnoc(toks[..i + 1], toks[i + 1]);
    assert Interp(toks[..i + 1]) == State(st.args, st.options[key := Flag], Some(key));
    assert st.options[key := Flag][key := Str(toks[i + 1])] == st.options[key := Str(toks[i + 1])];
  }

  /** The inner loop over a `-xyz` group. */
  method ApplyFlags(options: map<string, Value>, flags: string) returns (r: map<string, Value>)
    ensures r == SetFlags(options, flags)
  {
    r := options;
    var j := 0;
    while j < |flags|
      invariant 0 <= j <= |flags|
      invariant r == SetFlags(options, flags[..j])
    {
      assert flags[..j + 1][..j] == flags[..j];
      r := r[[flags[j]] := Flag];
      j := j + 1;
    }
    assert flags[..j] == flags;
  }

  // ---------------------------------------------------------------------
  // Properties

  /** A `-xyz` group adds exactly the one-letter keys it spells, each as a flag, and keeps the rest. */
  lemma {:induction false} SetFlagsSpec(o: map<string, Value>, cs: string)
    ensures forall k :: k in SetFlags(o, cs) <==> k in o || (|k| == 1 && k[0] in cs)
    ensures forall k :: k in SetFlags(o, cs) ==> SetFlags(o, cs)[k] == (if |k| == 1 && k[0] in cs then Flag else o[k])
    decreases |cs|
  {
    if |cs| > 0 {
      var init, c := cs[..|cs| - 1], cs[|cs| - 1];
      SetFlagsSpec(o, init);
      assert cs == init + [c];
      var r := SetFlags(o, cs);
      forall k ensures k in r <==> k in o || (|k| == 1 && k[0] in cs) {
        if |k| == 1 && k[0] == c {
          assert k == [c];
        }
      }
      forall k | k in r ensures r[k] == (if |k| == 1 && k[0] in cs then Flag else o[k]) {
        if |k| == 1 && k[0] == c {
          assert k == [c];
        }
      }
    }
  }

  /** `--key` with no `=` sets `key` as a flag and leaves it waiting for a value. */
  lemma LongFlag(st: State, key: string)
    requires key != "" && '=' !in key
    ensures Step(st, "--" + key) == State(st.args, st.options[key := Flag], Some(key))
  {
    var t := "--" + key;
    assert StartsWith(t, "--") && !Consumable(t);
    assert t[2..] == key;
    BeforeAbsent(key, '=');
  }

  /** A plain token after a waiting `--key` becomes that key's value. */
  lemma TakesValue(st: State, key: string, v: string)
    requires st.pending == Some(key) && v != "" && v[0] != '-'
    ensures Step(st, v) == State(st.args, st.options[key := Str(v)], None)
  {
    assert Consumable(v) by { assert v[..1] != "-"; }
  }

  /** A token that is neither empty nor an option becomes a positional argument. */
  lemma PlainToken(st: State, t: string)
    requires Consumable(t) && st.pending.None?
    ensures Step(st, t) == State(st.args + [t], st.options, None)
  {
    assert !StartsWith(t, "--") by { assert t[..1] != "-"; }
  }

  /** The positional arguments are the plain tokens, kept in their order. */
  lemma {:induction false} ArgsArePlainTokens(toks: seq<string>)
    ensures Seqs.Subseq(Interp(toks).args, toks)
    ensures forall k :: 0 <= k < |Interp(toks).args| ==> Consumable(Interp(toks).args[k])
    decreases |toks|
  {
    if |toks| > 0 {
      var init := toks[..|toks| - 1];
      var t := toks[|toks| - 1];
      ArgsArePlainTokens(init);
      assert toks == init + [t];
      Seqs.SubseqSnoc(Interp(init).args, init, t);
    }
  }

  /** No option is ever stored under the empty key. */
  lemma {:induction false} KeysNonEmpty(toks: seq<string>)
    ensures forall k :: k in Interp(toks).options ==> k != ""
    ensures Interp(toks).pending.Some? ==> Interp(toks).pending.value in Interp(toks).options
    decreases |toks|
  {
    if |toks| > 0 {
      var t := toks[|toks| - 1];
      KeysNonEmpty(toks[..|toks| - 1]);
      if |t| > 0 {
        SetFlagsSpec(Interp(toks[..|toks| - 1]).options, t[1..]);
      }
    }
  }

  /** A later `--key=value` overrides whatever was said about `key` before. */
  lemma LastAssignmentWins(toks: seq<string>, key: string, value: string)
    requires key != "" && '=' !in key && '=' !in value
    ensures Interp(toks + ["--" + key + "=" + value]).options == Interp(toks).options[key := Str(value)]
    ensures Interp(toks + ["--" + key + "=" + value]).args == Interp(toks).args
  {
    var t := "--" + key + "=" + value;
    var all := toks + [t];
    assert all[..|all| - 1] == toks;
    assert t[2..] == key + ['='] + value;
    SplitJoin([key, value], '=');
    assert Join([key, value], '=') == key + ['='] + value;
    assert Split(t[2..], '=') == [key, value];
  }

  /** A `-xyz` group sets exactly the one-letter flags it spells. */
  lemma FlagGroup(toks: seq<string>, cs: string)
    requires |cs| > 0 && cs[0] != '-'
    ensures var o := Interp(toks + ["-" + cs]).options;
      forall k :: k in o <==> k in Interp(toks).options || (|k| == 1 && k[0] in cs)
  {
    var t := "-" + cs;
    var all := toks + [t];
    assert all[..|all| - 1] == toks;
    assert t[1..] == cs;
    SetFlagsSpec(Interp(toks).options, cs);
    assert !StartsWith(t, "--") by { assert t[1] == cs[0]; }
  }

  /** `vizrepo init` and the empty command line. */
  lemma CommandSamples()
    ensures CommandOf(["init"]) == "init" && Interp([]) == Start
    ensures CommandOf([]) == "help" && CommandOf([""]) == "help"
  {
  }

  /** The fold over one and over two tokens. */
  lemma ShortLists(a: string, b: string)
    ensures Interp([a]) == Step(Start, a)
    ensures Interp([a, b]) == Step(Step(Start, a), b)
  {
    InterpSnoc([], a);
    assert [] + [a] == [a];
    InterpSnoc([a], b);
    assert [a] + [b] == [a, b];
  }

  /** A single plain token is the one positional argument. */
  lemma OnePositional(t: string)
    requires Consumable(t)
    ensures Interp([t]).args == [t] && Interp([t]).options == map[]
  {
    InterpSnoc([], t);
    assert [] + [t] == [t];
    PlainToken(Start, t);
  }

  /** `vizrepo hook install`: one positional argument, no options. */
  lemma PositionalSample()
    ensures Interp(["install"]).args == ["install"] && Interp(["install"]).options == map[]
  {
    assert Consumable("install") by { assert "install"[0] == 'i'; }
    OnePositional("install");
  }

  /** Two long flags in a row: each becomes a flag of its own. */
  lemma TwoFlags(a: string, b: string)
    requires a != "" && '=' !in a && b != "" && '=' !in b
    ensures Interp(["--" + a, "--" + b]).options == map[a := Flag, b := Flag]
  {
    ShortLists("--" + a, "--" + b);
    LongFlag(Start, a);
    LongFlag(Step(Start, "--" + a), b);
  }

  /** `vizrepo init --no-hook --force`: two flags. */
  lemma FlagsSample()
    ensures Interp(["--no-hook", "--force"]).options == map["no-hook" := Flag, "force" := Flag]
  {
    assert "--no-hook" == "--" + "no-hook";
    assert "--force" == "--" + "force";
    TwoFlags("no-hook", "force");
  }

  /** `vizrepo capture --url http://localhost:4000`: a key takes the next token. */
  lemma ValueSample()
    ensures Interp(["--url", "http://localhost:4000"]).options == map["url" := Str("http://localhost:4000")]
    ensures Interp(["--url", "http://localhost:4000"]).args == []
  {
    var url := "http://localhost:4000";
    ShortLists("--url", url);
    assert "--url" == "--" + "url";
    LongFlag(Start, "url");
    TakesValue(Step(Start, "--url"), "url", url);
    assert map["url" := Flag]["url" := Str(url)] == map["url" := Str(url)];
  }
}

=== FILE: discovery.dfy ===
/**
 * Route discovery for a Next.js project (src/discovery.ts).
 *
 * The project directory is an immutable tree of named entries in
 * `readdir` order. Discovery scans `app/` (App Router) and, only when
 * that yields nothing, `pages/` (Pages Router); it then filters the
 * routes through exclude and include glob patterns.
 */
module Discovery {
  import opened Wrappers
  import opened Text
  import opened Seqs

  /**
   * A directory entry. `readable` is false when listing the directory
   * fails; looking up a named child (the `page.tsx` probe) still works,
   * since `stat` needs only search permission on the parent.
   */
  datatype Entry = File(name: string) | Dir(name: string, readable: bool, children: seq<Entry>)

  datatype Router = AppRouter | PagesRouter

  /** `DiscoveredRoute`: the route path, its full URL and the file or directory it came from. */
  datatype Route = Route(path: string, fullUrl: string, filePath: string)

  /** `RouteDiscoveryOptions`; an absent include or exclude list is the empty list. */
  datatype Options = Options(projectRoot: string, baseUrl: string, includes: seq<string>, excludes: seq<string>)

  /** Names a real file system can produce: non-empty, no separator, not `.` or `..`. */
  predicate ValidName(n: string) {
    |n| > 0 && '/' !in n && n != "." && n != ".."
  }

  predicate WellFormed(e: Entry)
    decreases e
  {
    ValidName(e.name) && (e.Dir? ==> forall k :: 0 <= k < |e.children| ==> WellFormed(e.children[k]))
  }

  /** The first child of `e` called `n`, if `e` is a directory holding one. */
  function Child(e: Entry, n: string): (r: Option<Entry>)
    ensures r.Some? ==> r.value.name == n && e.Dir? && r.value in e.children
  {
    if e.File? then None else FirstNamed(e.children, n)
  }

  function FirstNamed(es: seq<Entry>, n: string): (r: Option<Entry>)
    ensures r.Some? ==> r.value.name == n && r.value in es
    ensures r.None? ==> forall k :: 0 <= k < |es| ==> es[k].name != n
  {
    if |es| == 0 then None else if es[0].name == n then Some(es[0]) else FirstNamed(es[1..], n)
  }

  /** `fileExists(dir/n)`: a regular file called `n` sits in directory `e`. */
  predicate HasFile(e: Entry, n: string) {
    var c := Child(e, n); c.Some? && c.value.File?
  }

  /** App Router page marker: `page.tsx` or `page.js` in the directory. */
  predicate HasPageFile(e: Entry) {
    HasFile(e, "page.tsx") || HasFile(e, "page.js")
  }

  const SkipPrefixes: seq<string> := ["api", "_", "(", "node_modules", ".next", ".git"]

  /** `shouldSkipDirectory`: the name starts with one of the skip prefixes. */
  predicate SkipDirectory(n: string) {
    exists k :: 0 <= k < |SkipPrefixes| && StartsWith(n, SkipPrefixes[k])
  }

  const ReservedPrefixes: seq<string> := ["_app", "_document", "_error", "404", "500"]

  predicate IsReservedPage(n: string) {
    exists k :: 0 <= k < |ReservedPrefixes| && StartsWith(n, ReservedPrefixes[k])
  }

  /** The file name matches `/\.(tsx?|jsx?)$/`. */
  predicate HasPageExtension(n: string) {
    EndsWith(n, ".ts") || EndsWith(n, ".tsx") || EndsWith(n, ".js") || EndsWith(n, ".jsx")
  }

  /** `n.replace(/\.(tsx?|jsx?)$/, '')`: the name without its source extension. */
  function StripExtension(n: string): (base: string)
    requires HasPageExtension(n)
    ensures StartsWith(n, base)
    ensures EndsWith(n, ".tsx") || EndsWith(n, ".jsx") ==> |base| == |n| - 4
    ensures !(EndsWith(n, ".tsx") || EndsWith(n, ".jsx")) ==> |base| == |n| - 3
  {
    if EndsWith(n, ".tsx") || EndsWith(n, ".jsx") then n[..|n| - 4] else n[..|n| - 3]
  }

  /**
   * `getRouteFromPageFile`: the route a Pages Router file defines, given
   * the route prefix of its directory, or `None` for non-page files.
   */
  function PageFileRoute(fileName: string, prefix: string): (r: Option<string>)
    ensures r.None? <==> !HasPageExtension(fileName) || IsReservedPage(fileName)
    ensures r.Some? && StripExtension(fileName) == "index" ==> r.value == (if prefix == "" then "/" else prefix)
    ensures r.Some? && StripExtension(fileName) != "index" ==> r.value == prefix + "/" + StripExtension(fileName)
  {
    if !HasPageExtension(fileName) then None
    else if IsReservedPage(fileName) then None
    else
      var base := StripExtension(fileName);
      if base == "index" then Some(if prefix == "" then "/" else prefix) else Some(prefix + "/" + base)
  }

  /** Appending a source extension to a non-reserved base name maps back to that base name. */
  lemma PageFileRouteOfBase(base: string, ext: string, prefix: string)
    requires ext in [".ts", ".tsx", ".js", ".jsx"]
    requires !IsReservedPage(base + ext)
    ensures PageFileRoute(base + ext, prefix)
         == Some(if base == "index" then (if prefix == "" then "/" else prefix) else prefix + "/" + base)
  {
    var n := base + ext;
    assert n[|n| - |ext|..] == ext;
    assert n[..|base|] == base;
    if ext == ".ts" || ext == ".js" {
      assert !EndsWith(n, ".tsx") && !EndsWith(n, ".jsx") by {
        assert n[|n| - 1] == 's';
      }
    }
  }

  /** `buildUrl`: at most one trailing `/` dropped from the base URL, then the route path appended. */
  function BuildUrl(baseUrl: string, routePath: string): (url: string)
    ensures |url| >= |routePath| && url[|url| - |routePath|..] == routePath
    ensures url[..|url| - |routePath|] + (if EndsWith(baseUrl, "/") then "/" else "") == baseUrl
  {
    var stem := if EndsWith(baseUrl, "/") then baseUrl[..|baseUrl| - 1] else baseUrl;
    assert EndsWith(baseUrl, "/") ==> stem + "/" == baseUrl;
    var url := stem + routePath;
    assert url[..|url| - |routePath|] == stem;
    url
  }

  function OptionToSeq<T>(o: Option<T>): seq<T> {
    if o.Some? then [o.value] else []
  }

  /**
   * The route an entry contributes by itself, given the directory path
   * and route prefix of the directory that lists it: in the App Router a
   * non-skipped directory holding a page file, in the Pages Router a
   * page file.
   */
  function Emit(mode: Router, x: Entry, dir: string, prefix: string, baseUrl: string): Option<Route> {
    match mode
    case AppRouter =>
      if x.Dir? && !SkipDirectory(x.name) && HasPageFile(x) then
        var p := prefix + "/" + x.name;
        Some(Route(p, BuildUrl(baseUrl, p), dir + "/" + x.name))
      else None
    case PagesRouter =>
      if x.File? then
        match PageFileRoute(x.name, prefix)
        case Some(p) => Some(Route(p, BuildUrl(baseUrl, p), dir + "/" + x.name))
        case None => None
      else None
  }

  /** The scan descends into a directory entry only when it is not skipped and can be listed. */
  predicate Descends(x: Entry) {
    x.Dir? && !SkipDirectory(x.name) && x.readable
  }

  /**
   * `scanDirectoryRecursive` over the listing `es` of directory `dir`
   * (route prefix `prefix`): the routes of each entry in listing order.
   */
  function Walk(mode: Router, es: seq<Entry>, dir: string, prefix: string, baseUrl: string): seq<Route>
    decreases es
  {
    if |es| == 0 then [] else Visit(mode, es[0], dir, prefix, baseUrl) + Walk(mode, es[1..], dir, prefix, baseUrl)
  }

  /** One listed entry: its own route, then the routes of its subtree. */
  function Visit(mode: Router, x: Entry, dir: string, prefix: string, baseUrl: string): seq<Route>
    decreases x
  {
    OptionToSeq(Emit(mode, x, dir, prefix, baseUrl))
    + (if Descends(x) then Walk(mode, x.children, dir + "/" + x.name, prefix + "/" + x.name, baseUrl) else [])
  }

  /** `"/" + names[0] + "/" + names[1] + ...` */
  function JoinPath(names: seq<string>): string {
    if |names| == 0 then "" else "/" + names[0] + JoinPath(names[1..])
  }

  /**
   * Following `names` from entry `x` leads to `e`: `names[0]` is `x`'s
   * name and every entry passed through on the way is a directory the
   * scan descends into.
   */
  ghost predicate ReachesFrom(x: Entry, names: seq<string>, e: Entry)
    decreases x
  {
    |names| >= 1 && names[0] == x.name
    && ((|names| == 1 && x == e)
        || (|names| > 1 && Descends(x)
            && exists j :: 0 <= j < |x.children| && ReachesFrom(x.children[j], names[1..], e)))
  }

  /** Entry `e`, found at `names` below directory `dir`, contributes route `r` itself. */
  ghost predicate EmitsAt(mode: Router, e: Entry, names: seq<string>, dir: string, prefix: string, baseUrl: string, r: Route) {
    |names| >= 1
    && Emit(mode, e, dir + JoinPath(names[..|names| - 1]), prefix + JoinPath(names[..|names| - 1]), baseUrl) == Some(r)
  }

  /** Some entry at or below `x` contributes `r`. */
  ghost predicate VisitProduces(mode: Router, x: Entry, dir: string, prefix: string, baseUrl: string, r: Route) {
    exists names, e :: ReachesFrom(x, names, e) && EmitsAt(mode, e, names, dir, prefix, baseUrl, r)
  }

  /**
   * Reference description of a scan, independent of traversal order:
   * route `r` is found iff some entry lying at a path below the listing
   * `es` contributes `r` in its own directory.
   */
  ghost predicate Produces(mode: Router, es: seq<Entry>, dir: string, prefix: string, baseUrl: string, r: Route) {
    exists i :: 0 <= i < |es| && VisitProduces(mode, es[i], dir, prefix, baseUrl, r)
  }

  lemma JoinPathCons(n: string, rest: seq<string>)
    ensures JoinPath([n] + rest) == "/" + n + JoinPath(rest)
  {
    assert ([n] + rest)[1..] == rest;
  }

  /** Looking one directory deeper moves that directory's name from the path into `dir` and `prefix`. */
  lemma EmitsAtCons(mode: Router, e: Entry, n: string, names: seq<string>, dir: string, prefix: string, baseUrl: string, r: Route)
    requires |names| >= 1
    ensures EmitsAt(mode, e, [n] + names, dir, prefix, baseUrl, r)
        <==> EmitsAt(mode, e, names, dir + "/" + n, prefix + "/" + n, baseUrl, r)
  {
    var full := [n] + names;
    var inner := names[..|names| - 1];
    assert full[..|full| - 1] == [n] + inner;
    JoinPathCons(n, inner);
    assert dir + JoinPath(full[..|full| - 1]) == dir + "/" + n + JoinPath(inner);
    assert prefix + JoinPath(full[..|full| - 1]) == prefix + "/" + n + JoinPath(inner);
  }

  /** The recursive scan finds exactly the routes its reference description promises. */
  lemma {:induction false} WalkProduces(mode: Router, es: seq<Entry>, dir: string, prefix: string, baseUrl: string, r: Route)
    ensures r in Walk(mode, es, dir, prefix, baseUrl) <==> Produces(mode, es, dir, prefix, baseUrl, r)
    decreases es
  {
    if |es| > 0 {
      VisitMatchesReference(mode, es[0], dir, prefix, baseUrl, r);
      WalkProduces(mode, es[1..], dir, prefix, baseUrl, r);
      if Produces(mode, es[1..], dir, prefix, baseUrl, r) {
        var i :| 0 <= i < |es[1..]| && VisitProduces(mode, es[1..][i], dir, prefix, baseUrl, r);
        assert es[1..][i] == es[i + 1];
      }
      if Produces(mode, es, dir, prefix, baseUrl, r) {
        var i :| 0 <= i < |es| && VisitProduces(mode, es[i], dir, prefix, baseUrl, r);
        if i > 0 {
          assert es[1..][i - 1] == es[i];
        }
      }
    }
  }

  lemma {:induction false} VisitMatchesReference(mode: Router, x: Entry, dir: string, prefix: string, baseUrl: string, r: Route)
    ensures r in Visit(mode, x, dir, prefix, baseUrl) <==> VisitProduces(mode, x, dir, prefix, baseUrl, r)
    decreases x
  {
    if Descends(x) {
      WalkProduces(mode, x.children, dir + "/" + x.name, prefix + "/" + x.name, baseUrl, r);
    }
    VisitSound(mode, x, dir, prefix, baseUrl, r);
    VisitComplete(mode, x, dir, prefix, baseUrl, r);
  }

  /** The route an entry emits itself is found at the one-name path to that entry. */
  lemma OwnRouteProduced(mode: Router, x: Entry, dir: string, prefix: string, baseUrl: string, r: Route)
    requires Emit(mode, x, dir, prefix, baseUrl) == Some(r)
    ensures VisitProduces(mode, x, dir, prefix, baseUrl, r)
  {
    assert ReachesFrom(x, [x.name], x);
    assert [x.name][..0] == [] && JoinPath([]) == "";
    assert dir + "" == dir && prefix + "" == prefix;
    assert EmitsAt(mode, x, [x.name], dir, prefix, baseUrl, r);
  }

  /** The soundness half of `VisitMatchesReference`, given the claim for the subtree's listing. */
  lemma VisitSound(mode: Router, x: Entry, dir: string, prefix: string, baseUrl: string, r: Route)
    requires Descends(x) ==>
      (r in Walk(mode, x.children, dir + "/" + x.name, prefix + "/" + x.name, baseUrl)
       <==> Produces(mode, x.children, dir + "/" + x.name, prefix + "/" + x.name, baseUrl, r))
    ensures r in Visit(mode, x, dir, prefix, baseUrl) ==> VisitProduces(mode, x, dir, prefix, baseUrl, r)
  {
    var dir', prefix' := dir + "/" + x.name, prefix + "/" + x.name;
    if Emit(mode, x, dir, prefix, baseUrl) == Some(r) {
      OwnRouteProduced(mode, x, dir, prefix, baseUrl, r);
    } else if Descends(x) && r in Walk(mode, x.children, dir', prefix', baseUrl) {
      SubtreeRouteProduced(mode, x, dir, prefix, baseUrl, r);
    }
  }

  /** A route produced in the listing of a directory the scan descends into is produced by that directory. */
  lemma SubtreeRouteProduced(mode: Router, x: Entry, dir: string, prefix: string, baseUrl: string, r: Route)
    requires Descends(x) && Produces(mode, x.children, dir + "/" + x.name, prefix + "/" + x.name, baseUrl, r)
    ensures VisitProduces(mode, x, dir, prefix, baseUrl, r)
  {
    var j :| 0 <= j < |x.children| && VisitProduces(mode, x.children[j], dir + "/" + x.name, prefix + "/" + x.name, baseUrl, r);
    var names, e :| ReachesFrom(x.children[j], names, e)
                    && EmitsAt(mode, e, names, dir + "/" + x.name, prefix + "/" + x.name, baseUrl, r);
    ChildPathProduces(mode, x, j, names, e, dir, prefix, baseUrl, r);
  }

  /** A path from a descended directory's child that emits `r` extends to one from the directory. */
  lemma ChildPathProduces(mode: Router, x: Entry, j: int, names: seq<string>, e: Entry,
                          dir: string, prefix: string, baseUrl: string, r: Route)
    requires Descends(x) && 0 <= j < |x.children| && ReachesFrom(x.children[j], names, e)
    requires EmitsAt(mode, e, names, dir + "/" + x.name, prefix + "/" + x.name, baseUrl, r)
    ensures VisitProduces(mode, x, dir, prefix, baseUrl, r)
  {
    ReachesThrough(x, j, names, e);
    EmitsAtCons(mode, e, x.name, names, dir, prefix, baseUrl, r);
    var full := [x.name] + names;
    assert ReachesFrom(x, full, e) && EmitsAt(mode, e, full, dir, prefix, baseUrl, r);
  }

  /** A path below one of a descended directory's children extends to a path from the directory. */
  lemma ReachesThrough(x: Entry, j: int, names: seq<string>, e: Entry)
    requires Descends(x) && 0 <= j < |x.children| && ReachesFrom(x.children[j], names, e)
    ensures |names| >= 1 && ReachesFrom(x, [x.name] + names, e)
  {
    var full := [x.name] + names;
    assert full[1..] == names;
  }

  /** The completeness half of `VisitMatchesReference`, given the claim for the subtree's listing. */
  lemma VisitComplete(mode: Router, x: Entry, dir: string, prefix: string, baseUrl: string, r: Route)
    requires Descends(x) ==>
      (r in Walk(mode, x.children, dir + "/" + x.name, prefix + "/" + x.name, baseUrl)
       <==> Produces(mode, x.children, dir + "/" + x.name, prefix + "/" + x.name, baseUrl, r))
    ensures VisitProduces(mode, x, dir, prefix, baseUrl, r) ==> r in Visit(mode, x, dir, prefix, baseUrl)
  {
    if VisitProduces(mode, x, dir, prefix, baseUrl, r) {
      var names, e :| ReachesFrom(x, names, e) && EmitsAt(mode, e, names, dir, prefix, baseUrl, r);
      if |names| == 1 {
        ProducedAtOwnPath(mode, x, names, e, dir, prefix, baseUrl, r);
      } else {
        ProducedBelow(mode, x, names, e, dir, prefix, baseUrl, r);
      }
    }
  }

  /** A route found at a one-name path is the entry's own. */
  lemma ProducedAtOwnPath(mode: Router, x: Entry, names: seq<string>, e: Entry, dir: string, prefix: string,
                          baseUrl: string, r: Route)
    requires ReachesFrom(x, names, e) && EmitsAt(mode, e, names, dir, prefix, baseUrl, r) && |names| == 1
    ensures Emit(mode, x, dir, prefix, baseUrl) == Some(r)
  {
    assert names[..0] == [] && JoinPath([]) == "";
    assert dir + "" == dir && prefix + "" == prefix;
  }

  /** A route found at a longer path is found in the listing of the directory the scan descends into. */
  lemma ProducedBelow(mode: Router, x: Entry, names: seq<string>, e: Entry, dir: string, prefix: string,
                      baseUrl: string, r: Route)
    requires ReachesFrom(x, names, e) && EmitsAt(mode, e, names, dir, prefix, baseUrl, r) && |names| > 1
    ensures Descends(x) && Produces(mode, x.children, dir + "/" + x.name, prefix + "/" + x.name, baseUrl, r)
  {
    var tail := names[1..];
    var j :| 0 <= j < |x.children| && ReachesFrom(x.children[j], tail, e);
    assert names == [x.name] + tail;
    EmitsAtCons(mode, e, x.name, tail, dir, prefix, baseUrl, r);
    assert EmitsAt(mode, e, tail, dir + "/" + x.name, prefix + "/" + x.name, baseUrl, r);
    assert VisitProduces(mode, x.children[j], dir + "/" + x.name, prefix + "/" + x.name, baseUrl, r);
  }


  function Paths(rs: seq<Route>): (ps: seq<string>)
    ensures |ps| == |rs| && forall k :: 0 <= k < |rs| ==> ps[k] == rs[k].path
  {
    if |rs| == 0 then [] else [rs[0].path] + Paths(rs[1..])
  }

  /** Every route an App Router walk finds lies strictly below its prefix. */
  lemma {:induction false} AppWalkBelowPrefix(es: seq<Entry>, dir: string, prefix: string, baseUrl: string)
    requires forall k :: 0 <= k < |es| ==> WellFormed(es[k])
    ensures forall r :: r in Walk(AppRouter, es, dir, prefix, baseUrl) ==>
      |r.path| > |prefix| + 1 && StartsWith(r.path, prefix + "/")
    decreases es
  {
    if |es| > 0 {
      AppVisitBelowPrefix(es[0], dir, prefix, baseUrl);
      AppWalkBelowPrefix(es[1..], dir, prefix, baseUrl);
    }
  }

  lemma {:induction false} AppVisitBelowPrefix(x: Entry, dir: string, prefix: string, baseUrl: string)
    requires WellFormed(x)
    ensures forall r :: r in Visit(AppRouter, x, dir, prefix, baseUrl) ==>
      |r.path| > |prefix| + 1 && StartsWith(r.path, prefix + "/")
    decreases x
  {
    var prefix' := prefix + "/" + x.name;
    assert StartsWith(prefix', prefix + "/");
    if Descends(x) {
      AppWalkBelowPrefix(x.children, dir + "/" + x.name, prefix', baseUrl);
      forall r | r in Walk(AppRouter, x.children, dir + "/" + x.name, prefix', baseUrl)
        ensures StartsWith(r.path, prefix + "/")
      {
        assert r.path[..|prefix + "/"|] == prefix'[..|prefix + "/"|];
      }
    }
  }

  function AppDir(o: Options): string {
    o.projectRoot + "/app"
  }

  function PagesDir(o: Options): string {
    o.projectRoot + "/pages"
  }

  /** `scanAppDirectory`: the root route when `app/` holds a page file, then the walk below `app/`. */
  function ScanApp(root: Entry, o: Options): seq<Route> {
    var app := Child(root, "app");
    if app.Some? && app.value.Dir? then
      (if HasPageFile(app.value) then [Route("/", BuildUrl(o.baseUrl, "/"), AppDir(o))] else [])
      + (if app.value.readable then Walk(AppRouter, app.value.children, AppDir(o), "", o.baseUrl) else [])
    else []
  }

  /** `scanPagesDirectory`: the Pages Router walk below `pages/`. */
  function ScanPages(root: Entry, o: Options): seq<Route> {
    var pages := Child(root, "pages");
    if pages.Some? && pages.value.Dir? && pages.value.readable then
      Walk(PagesRouter, pages.value.children, PagesDir(o), "", o.baseUrl)
    else []
  }

  /** In the App Router the route `/` is found iff `app/` holds `page.tsx` or `page.js`. */
  lemma AppRootRoute(root: Entry, o: Options)
    requires WellFormed(root)
    ensures "/" in Paths(ScanApp(root, o))
        <==> (Child(root, "app").Some? && Child(root, "app").value.Dir? && HasPageFile(Child(root, "app").value))
  {
    var app := Child(root, "app");
    if app.Some? && app.value.Dir? {
      assert WellFormed(app.value);
      var head := if HasPageFile(app.value) then [Route("/", BuildUrl(o.baseUrl, "/"), AppDir(o))] else [];
      var tail := if app.value.readable then Walk(AppRouter, app.value.children, AppDir(o), "", o.baseUrl) else [];
      AppWalkBelowPrefix(app.value.children, AppDir(o), "", o.baseUrl);
      assert forall r :: r in tail ==> r.path != "/";
      assert ScanApp(root, o) == head + tail;
      if "/" in Paths(head + tail) {
        var k :| 0 <= k < |head + tail| && Paths(head + tail)[k] == "/";
        if k >= |head| {
          assert false;
        }
      }
      if HasPageFile(app.value) {
        assert Paths(head + tail)[0] == "/";
      }
    }
  }

  predicate IsLineTerminator(c: char) {
    c == '\n' || c == '\r' || c == '\U{2028}' || c == '\U{2029}'
  }

  /** Characters with a meaning in a JavaScript regular expression. */
  predicate IsRegexSyntax(c: char) {
    c in "\\^$.|?*+()[]{}"
  }

  /**
   * `matchesPattern`: whole-string match of `path` against the regular
   * expression the pattern becomes once `*` is rewritten to `.*` and `?`
   * to `.`. A `.` (written or produced) matches one character other than
   * a line terminator; every other pattern character matches itself.
   */
  predicate Matches(pattern: string, path: string)
    decreases |pattern| + |path|
  {
    if |pattern| == 0 then |path| == 0
    else if pattern[0] == '*' then
      Matches(pattern[1..], path) || (|path| > 0 && !IsLineTerminator(path[0]) && Matches(pattern, path[1..]))
    else if pattern[0] == '?' || pattern[0] == '.' then
      |path| > 0 && !IsLineTerminator(path[0]) && Matches(pattern[1..], path[1..])
    else
      |path| > 0 && path[0] == pattern[0] && Matches(pattern[1..], path[1..])
  }

  predicate NoLineTerminator(s: string) {
    forall k :: 0 <= k < |s| ==> !IsLineTerminator(s[k])
  }

  /** A pattern free of regular-expression syntax matches exactly itself. */
  lemma {:induction false} LiteralPatternMatchesOnlyItself(pattern: string, path: string)
    requires forall k :: 0 <= k < |pattern| ==> !IsRegexSyntax(pattern[k])
    ensures Matches(pattern, path) <==> path == pattern
    decreases |pattern|
  {
    if |pattern| > 0 && |path| > 0 {
      LiteralPatternMatchesOnlyItself(pattern[1..], path[1..]);
      if path[0] == pattern[0] && path[1..] == pattern[1..] {
        assert path == [path[0]] + path[1..];
        assert pattern == [pattern[0]] + pattern[1..];
      }
    }
  }

  /** `*` alone matches every path free of line terminators. */
  lemma {:induction false} StarMatchesAnyLine(path: string)
    ensures Matches("*", path) <==> NoLineTerminator(path)
    decreases |path|
  {
    assert "*"[1..] == "";
    if |path| > 0 {
      StarMatchesAnyLine(path[1..]);
    }
  }

  /** A literal followed by `*` matches exactly the single-line paths that start with that literal. */
  lemma {:induction false} PrefixPatternMatches(lit: string, path: string)
    requires forall k :: 0 <= k < |lit| ==> !IsRegexSyntax(lit[k])
    ensures Matches(lit + "*", path) <==> StartsWith(path, lit) && NoLineTerminator(path[|lit|..])
    decreases |lit|
  {
    if |lit| == 0 {
      assert lit + "*" == "*";
      StarMatchesAnyLine(path);
    } else {
      assert (lit + "*")[1..] == lit[1..] + "*";
      if |path| > 0 {
        PrefixPatternMatches(lit[1..], path[1..]);
        if StartsWith(path, lit) {
          assert path[1..][..|lit| - 1] == lit[1..];
          assert path[1..][|lit| - 1..] == path[|lit|..];
        }
        if path[0] == lit[0] && StartsWith(path[1..], lit[1..]) {
          assert path[..|lit|] == [path[0]] + path[1..][..|lit| - 1];
          assert path[1..][|lit| - 1..] == path[|lit|..];
        }
      }
    }
  }

  /** Some pattern in `patterns` matches `path`. */
  predicate AnyMatches(patterns: seq<string>, path: string) {
    exists k :: 0 <= k < |patterns| && Matches(patterns[k], path)
  }

  /** A route survives filtering: no exclude pattern matches, and the include list is empty or one of it matches. */
  predicate Survives(path: string, includes: seq<string>, excludes: seq<string>) {
    !AnyMatches(excludes, path) && (|includes| == 0 || AnyMatches(includes, path))
  }

  /**
   * `filterRoutes`: an exclude pass, then an include pass. The result is
   * the order-preserving subsequence of the surviving routes.
   */
  function FilterRoutes(rs: seq<Route>, includes: seq<string>, excludes: seq<string>): (out: seq<Route>)
    ensures Subseq(out, rs)
    ensures forall k :: 0 <= k < |out| ==> out[k] in rs && Survives(out[k].path, includes, excludes)
    ensures forall k :: 0 <= k < |rs| && Survives(rs[k].path, includes, excludes) ==> rs[k] in out
  {
    var kept := if |excludes| > 0 then
                  var k := Filter(rs, (r: Route) => !AnyMatches(excludes, r.path));
                  FilterSubseq(rs, (r: Route) => !AnyMatches(excludes, r.path)); k
                else (SubseqRefl(rs); rs);
    var out := if |includes| > 0 then
                 var k := Filter(kept, (r: Route) => AnyMatches(includes, r.path));
                 FilterSubseq(kept, (r: Route) => AnyMatches(includes, r.path)); k
               else (SubseqRefl(kept); kept);
    SubseqTrans(out, kept, rs);
    out
  }

  /** The scan `discoverRoutes` keeps: the App Router's when it finds anything, the Pages Router's otherwise. */
  function ChosenScan(root: Entry, o: Options): (rs: seq<Route>)
    ensures |ScanApp(root, o)| > 0 ==> rs == ScanApp(root, o)
    ensures |ScanApp(root, o)| == 0 ==> rs == ScanPages(root, o)
  {
    var app := ScanApp(root, o);
    if |app| > 0 then app else ScanPages(root, o)
  }

  /**
   * `discoverRoutes`: the App Router routes when there are any, otherwise
   * the Pages Router routes (never both), filtered. Exactly the surviving
   * routes of that scan are kept, in scan order.
   */
  function DiscoverRoutes(root: Entry, o: Options): (out: seq<Route>)
    ensures |ScanApp(root, o)| > 0 ==> Subseq(out, ScanApp(root, o))
    ensures |ScanApp(root, o)| == 0 ==> Subseq(out, ScanPages(root, o))
    ensures forall k :: 0 <= k < |out| ==> Survives(out[k].path, o.includes, o.excludes)
    ensures forall k :: 0 <= k < |ChosenScan(root, o)| && Survives(ChosenScan(root, o)[k].path, o.includes, o.excludes) ==>
      ChosenScan(root, o)[k] in out
  {
    FilterRoutes(ChosenScan(root, o), o.includes, o.excludes)
  }

  /** An App Router project: a root page, a nested page and an API directory. */
  const AppSample: Entry :=
    Dir("proj", true, [Dir("app", true, [AboutDir, ApiDir, BlogDir, File("page.tsx")])])

  const AboutDir: Entry := Dir("about", true, [File("page.tsx")])
  const ApiDir: Entry := Dir("api", true, [File("route.ts")])
  const PostsDir: Entry := Dir("posts", true, [File("page.js")])
  const BlogDir: Entry := Dir("blog", true, [PostsDir])

  const SampleBase := "http://localhost:3000"

  const AboutRoute: Route := Route("/about", "http://localhost:3000/about", "/w/app/about")
  const PostsRoute: Route := Route("/blog/posts", "http://localhost:3000/blog/posts", "/w/app/blog/posts")

  lemma SampleNamesNotSkipped()
    ensures SkipDirectory("api")
    ensures !SkipDirectory("about") && !SkipDirectory("blog") && !SkipDirectory("posts")
  {
    assert StartsWith("api", SkipPrefixes[0]);
    forall k | 0 <= k < |SkipPrefixes|
      ensures !StartsWith("about", SkipPrefixes[k]) && !StartsWith("blog", SkipPrefixes[k])
           && !StartsWith("posts", SkipPrefixes[k])
    {
      if k == 0 {
        assert "about"[..3][1] == 'b';
      } else {
        assert SkipPrefixes[k][0] in "_(n.";
      }
    }
  }

  lemma SampleUrls()
    ensures BuildUrl(SampleBase, "/") == "http://localhost:3000/"
    ensures BuildUrl(SampleBase, "/about") == "http://localhost:3000/about"
    ensures BuildUrl(SampleBase, "/blog/posts") == "http://localhost:3000/blog/posts"
  {
    assert !EndsWith(SampleBase, "/");
  }

  lemma AppSampleLeaves()
    ensures Walk(AppRouter, AboutDir.children, "/w/app/about", "/about", SampleBase) == []
    ensures Walk(AppRouter, PostsDir.children, "/w/app/blog/posts", "/blog/posts", SampleBase) == []
    ensures Walk(AppRouter, [File("page.tsx")], "/w/app", "", SampleBase) == []
  {
    assert Visit(AppRouter, File("page.tsx"), "/w/app/about", "/about", SampleBase) == [];
    assert Visit(AppRouter, File("page.js"), "/w/app/blog/posts", "/blog/posts", SampleBase) == [];
    assert Visit(AppRouter, File("page.tsx"), "/w/app", "", SampleBase) == [];
  }

  lemma SamplePaths()
    ensures "" + "/" + "about" == "/about"
    ensures "/w/app" + "/" + "about" == "/w/app/about"
    ensures "/blog" + "/" + "posts" == "/blog/posts"
    ensures "/w/app/blog" + "/" + "posts" == "/w/app/blog/posts"
  {
  }

  lemma AboutEmits()
    ensures Emit(AppRouter, AboutDir, "/w/app", "", SampleBase) == Some(AboutRoute)
  {
    SampleNamesNotSkipped();
    SampleUrls();
    SamplePaths();
    assert HasFile(AboutDir, "page.tsx");
  }

  lemma PostsEmits()
    ensures Emit(AppRouter, PostsDir, "/w/app/blog", "/blog", SampleBase) == Some(PostsRoute)
  {
    SampleNamesNotSkipped();
    SampleUrls();
    SamplePaths();
    assert HasFile(PostsDir, "page.js");
  }

  lemma AppSampleEmits()
    ensures Emit(AppRouter, AboutDir, "/w/app", "", SampleBase) == Some(AboutRoute)
    ensures Emit(AppRouter, PostsDir, "/w/app/blog", "/blog", SampleBase) == Some(PostsRoute)
    ensures Emit(AppRouter, BlogDir, "/w/app", "", SampleBase) == None
  {
    AboutEmits();
    PostsEmits();
  }

  lemma AppSampleAbout()
    ensures Visit(AppRouter, AboutDir, "/w/app", "", SampleBase) == [AboutRoute]
  {
    AppSampleEmits();
    SampleNamesNotSkipped();
    AppSampleLeaves();
    assert "/w/app" + "/" + "about" == "/w/app/about";
    assert "" + "/" + "about" == "/about";
    assert Descends(AboutDir);
  }

  lemma AppSampleApi()
    ensures Visit(AppRouter, ApiDir, "/w/app", "", SampleBase) == []
  {
    SampleNamesNotSkipped();
  }

  lemma AppSamplePosts()
    ensures Walk(AppRouter, BlogDir.children, "/w/app/blog", "/blog", SampleBase) == [PostsRoute]
  {
    AppSampleEmits();
    SampleNamesNotSkipped();
    AppSampleLeaves();
    assert "/blog" + "/" + "posts" == "/blog/posts";
    assert "/w/app/blog" + "/" + "posts" == "/w/app/blog/posts";
    assert Descends(PostsDir);
    assert Visit(AppRouter, PostsDir, "/w/app/blog", "/blog", SampleBase) == [PostsRoute];
  }

  /** A directory that emits no route of its own contributes exactly the routes of its subtree. */
  lemma VisitSubtreeOnly(mode: Router, x: Entry, dir: string, prefix: string, baseUrl: string)
    requires Emit(mode, x, dir, prefix, baseUrl).None? && Descends(x)
    ensures Visit(mode, x, dir, prefix, baseUrl) == Walk(mode, x.children, dir + "/" + x.name, prefix + "/" + x.name, baseUrl)
  {
  }

  lemma BlogPaths()
    ensures "/w/app" + "/" + BlogDir.name == "/w/app/blog"
    ensures "" + "/" + BlogDir.name == "/blog"
  {
    assert BlogDir.name == "blog";
  }

  lemma AppSampleBlog()
    ensures Visit(AppRouter, BlogDir, "/w/app", "", SampleBase) == [PostsRoute]
  {
    AppSampleEmits();
    SampleNamesNotSkipped();
    assert Descends(BlogDir);
    VisitSubtreeOnly(AppRouter, BlogDir, "/w/app", "", SampleBase);
    BlogPaths();
    AppSamplePosts();
  }

  lemma AppSampleWalk()
    ensures Walk(AppRouter, AppSample.children[0].children, "/w/app", "", SampleBase) == [AboutRoute, PostsRoute]
  {
    var es := AppSample.children[0].children;
    AppSampleLeaves();
    AppSampleAbout();
    AppSampleApi();
    AppSampleBlog();
    var rPosts := PostsRoute;
    assert es[3..] == [File("page.tsx")];
    assert Walk(AppRouter, es[2..], "/w/app", "", SampleBase)
        == Visit(AppRouter, es[2], "/w/app", "", SampleBase) + Walk(AppRouter, es[3..], "/w/app", "", SampleBase);
    assert Walk(AppRouter, es[2..], "/w/app", "", SampleBase) == [rPosts];
    assert Walk(AppRouter, es[1..], "/w/app", "", SampleBase)
        == Visit(AppRouter, es[1], "/w/app", "", SampleBase) + Walk(AppRouter, es[2..], "/w/app", "", SampleBase);
    assert Walk(AppRouter, es[1..], "/w/app", "", SampleBase) == [rPosts];
  }

  lemma AppSampleRootPage()
    ensures Child(AppSample, "app") == Some(AppSample.children[0])
    ensures HasPageFile(AppSample.children[0])
  {
    var es := AppSample.children[0].children;
    assert es[0].name != "page.tsx" && es[1].name != "page.tsx" && es[2].name != "page.tsx";
    assert FirstNamed(es[3..], "page.tsx") == Some(File("page.tsx"));
    assert FirstNamed(es[2..], "page.tsx") == FirstNamed(es[3..], "page.tsx");
    assert FirstNamed(es[1..], "page.tsx") == FirstNamed(es[2..], "page.tsx");
  }

  lemma AppSampleScan()
    ensures ScanApp(AppSample, Options("/w", SampleBase, [], [])) ==
      [Route("/", "http://localhost:3000/", "/w/app"), AboutRoute, PostsRoute]
  {
    var o := Options("/w", SampleBase, [], []);
    assert AppDir(o) == "/w/app";
    AppSampleRootPage();
    SampleUrls();
    AppSampleWalk();
    var app := AppSample.children[0];
    assert ScanApp(AppSample, o)
        == [Route("/", BuildUrl(o.baseUrl, "/"), AppDir(o))] + Walk(AppRouter, app.children, AppDir(o), "", o.baseUrl);
  }

  /** Discovery on the App Router sample: the root page, `/about` and `/blog/posts`, and nothing under `api`. */
  lemma AppSampleRoutes()
    ensures DiscoverRoutes(AppSample, Options("/w", SampleBase, [], [])) == [
      Route("/", "http://localhost:3000/", "/w/app"),
      Route("/about", "http://localhost:3000/about", "/w/app/about"),
      Route("/blog/posts", "http://localhost:3000/blog/posts", "/w/app/blog/posts")]
  {
    AppSampleScan();
  }

  /** A Pages Router project, laid out as in the discovery tests: index pages, a nested directory, reserved files and an API directory. */
  const PagesSample: Entry := Dir("proj", true, [Dir("pages", true, PagesListing)])

  const PagesListing: seq<Entry> :=
    [File("index.tsx"), File("about.tsx"), PagesBlogDir, File("_app.tsx"), File("_document.tsx"), File("404.tsx"), PagesApiDir]

  const PagesBlogDir: Entry := Dir("blog", true, [File("index.js"), File("posts.js")])
  const PagesApiDir: Entry := Dir("api", true, [File("users.ts")])

  lemma PathsConcat(a: seq<Route>, b: seq<Route>)
    ensures Paths(a + b) == Paths(a) + Paths(b)
  {
  }

  /** The paths of a walk are those of its first entry followed by those of the rest. */
  lemma WalkPaths(mode: Router, es: seq<Entry>, dir: string, prefix: string, baseUrl: string)
    requires |es| > 0
    ensures Paths(Walk(mode, es, dir, prefix, baseUrl))
         == Paths(Visit(mode, es[0], dir, prefix, baseUrl)) + Paths(Walk(mode, es[1..], dir, prefix, baseUrl))
  {
    PathsConcat(Visit(mode, es[0], dir, prefix, baseUrl), Walk(mode, es[1..], dir, prefix, baseUrl));
  }

  /** A non-reserved page file in the Pages Router contributes exactly the route its base name defines. */
  lemma PageFilePaths(base: string, ext: string, dir: string, prefix: string, baseUrl: string)
    requires ext in [".ts", ".tsx", ".js", ".jsx"]
    requires !IsReservedPage(base + ext)
    ensures Paths(Visit(PagesRouter, File(base + ext), dir, prefix, baseUrl))
         == [if base == "index" then (if prefix == "" then "/" else prefix) else prefix + "/" + base]
  {
    PageFileRouteOfBase(base, ext, prefix);
  }

  /** A reserved file contributes no route. */
  lemma ReservedFileVisit(n: string, dir: string, prefix: string, baseUrl: string)
    requires IsReservedPage(n)
    ensures Visit(PagesRouter, File(n), dir, prefix, baseUrl) == []
  {
  }

  /** A name that starts with none of `_`, `4` and `5` is not a reserved page. */
  lemma NotReservedByFirstChar(n: string)
    requires |n| > 0 && n[0] != '_' && n[0] != '4' && n[0] != '5'
    ensures !IsReservedPage(n)
  {
    forall k | 0 <= k < |ReservedPrefixes| ensures !StartsWith(n, ReservedPrefixes[k]) {
      assert ReservedPrefixes[k][0] in "_45";
    }
  }

  lemma PagesSampleReserved()
    ensures IsReservedPage("_app.tsx") && IsReservedPage("_document.tsx") && IsReservedPage("404.tsx")
  {
    assert StartsWith("_app.tsx", ReservedPrefixes[0]);
    assert StartsWith("_document.tsx", ReservedPrefixes[1]);
    assert StartsWith("404.tsx", ReservedPrefixes[3]);
  }

  lemma PagesSampleNames()
    ensures "index" + ".tsx" == "index.tsx" && "about" + ".tsx" == "about.tsx"
    ensures "index" + ".js" == "index.js" && "posts" + ".js" == "posts.js"
    ensures !IsReservedPage("index.tsx") && !IsReservedPage("about.tsx")
    ensures !IsReservedPage("index.js") && !IsReservedPage("posts.js")
  {
    NotReservedByFirstChar("index.tsx");
    NotReservedByFirstChar("about.tsx");
    NotReservedByFirstChar("index.js");
    NotReservedByFirstChar("posts.js");
  }

  lemma PagesBlogIndex()
    ensures Paths(Visit(PagesRouter, File("index.js"), "/w/pages/blog", "/blog", SampleBase)) == ["/blog"]
  {
    PagesSampleNames();
    PageFilePaths("index", ".js", "/w/pages/blog", "/blog", SampleBase);
  }

  lemma PagesBlogPosts()
    ensures Paths(Visit(PagesRouter, File("posts.js"), "/w/pages/blog", "/blog", SampleBase)) == ["/blog/posts"]
  {
    PagesSampleNames();
    PageFilePaths("posts", ".js", "/w/pages/blog", "/blog", SampleBase);
    assert "posts" != "index";
    SamplePaths();
  }

  lemma PagesBlogWalk()
    ensures Paths(Walk(PagesRouter, PagesBlogDir.children, "/w/pages/blog", "/blog", SampleBase)) == ["/blog", "/blog/posts"]
  {
    var es := PagesBlogDir.children;
    PagesBlogIndex();
    PagesBlogPosts();
    WalkPaths(PagesRouter, es, "/w/pages/blog", "/blog", SampleBase);
    WalkPaths(PagesRouter, es[1..], "/w/pages/blog", "/blog", SampleBase);
    assert es[1..][0] == File("posts.js") && es[1..][1..] == [];
  }

  /** `index.js` and `posts.js` under `blog` give `/blog` and `/blog/posts`. */
  lemma PagesSampleBlog()
    ensures Paths(Visit(PagesRouter, PagesBlogDir, "/w/pages", "", SampleBase)) == ["/blog", "/blog/posts"]
  {
    SampleNamesNotSkipped();
    assert Descends(PagesBlogDir);
    assert "/w/pages" + "/" + PagesBlogDir.name == "/w/pages/blog";
    assert "" + "/" + PagesBlogDir.name == "/blog";
    PagesBlogWalk();
    assert Visit(PagesRouter, PagesBlogDir, "/w/pages", "", SampleBase)
        == Walk(PagesRouter, PagesBlogDir.children, "/w/pages/blog", "/blog", SampleBase);
  }

  /** The reserved files and the API directory contribute nothing. */
  lemma PagesSampleIgnored()
    ensures Walk(PagesRouter, PagesListing[3..], "/w/pages", "", SampleBase) == []
  {
    PagesSampleReserved();
    SampleNamesNotSkipped();
    var es := PagesListing[3..];
    ReservedFileVisit("_app.tsx", "/w/pages", "", SampleBase);
    ReservedFileVisit("_document.tsx", "/w/pages", "", SampleBase);
    ReservedFileVisit("404.tsx", "/w/pages", "", SampleBase);
    assert Visit(PagesRouter, PagesApiDir, "/w/pages", "", SampleBase) == [];
    assert es[1..][1..][1..][0] == PagesApiDir && es[1..][1..][1..][1..] == [];
    assert Walk(PagesRouter, es[1..][1..][1..], "/w/pages", "", SampleBase) == [];
    assert Walk(PagesRouter, es[1..][1..], "/w/pages", "", SampleBase) == [];
    assert Walk(PagesRouter, es[1..], "/w/pages", "", SampleBase) == [];
  }

  lemma PagesTopIndex()
    ensures Paths(Visit(PagesRouter, File("index.tsx"), "/w/pages", "", SampleBase)) == ["/"]
  {
    PagesSampleNames();
    PageFilePaths("index", ".tsx", "/w/pages", "", SampleBase);
  }

  lemma PagesTopAbout()
    ensures Paths(Visit(PagesRouter, File("about.tsx"), "/w/pages", "", SampleBase)) == ["/about"]
  {
    PagesSampleNames();
    PageFilePaths("about", ".tsx", "/w/pages", "", SampleBase);
    assert "about" != "index";
    assert "" + "/" + "about" == "/about";
  }

  lemma PagesFromBlog()
    ensures Paths(Walk(PagesRouter, PagesListing[2..], "/w/pages", "", SampleBase)) == ["/blog", "/blog/posts"]
  {
    var es := PagesListing[2..];
    PagesSampleBlog();
    PagesSampleIgnored();
    assert es[0] == PagesBlogDir && es[1..] == PagesListing[3..];
    WalkPaths(PagesRouter, es, "/w/pages", "", SampleBase);
  }

  lemma PagesFromAbout()
    ensures Paths(Walk(PagesRouter, PagesListing[1..], "/w/pages", "", SampleBase)) == ["/about", "/blog", "/blog/posts"]
  {
    var es := PagesListing[1..];
    PagesTopAbout();
    PagesFromBlog();
    assert es[0] == File("about.tsx") && es[1..] == PagesListing[2..];
    WalkPaths(PagesRouter, es, "/w/pages", "", SampleBase);
  }

  lemma PagesSampleWalk()
    ensures Paths(Walk(PagesRouter, PagesListing, "/w/pages", "", SampleBase)) == ["/", "/about", "/blog", "/blog/posts"]
  {
    PagesTopIndex();
    PagesFromAbout();
    assert PagesListing[0] == File("index.tsx");
    WalkPaths(PagesRouter, PagesListing, "/w/pages", "", SampleBase);
  }

  /** Discovery on the Pages Router sample finds `/`, `/about`, `/blog` and `/blog/posts`, in listing order. */
  lemma PagesSampleRoutes()
    ensures Paths(DiscoverRoutes(PagesSample, Options("/w", SampleBase, [], []))) == ["/", "/about", "/blog", "/blog/posts"]
  {
    var o := Options("/w", SampleBase, [], []);
    assert Child(PagesSample, "app").None?;
    assert Child(PagesSample, "pages") == Some(PagesSample.children[0]);
    assert PagesDir(o) == "/w/pages";
    PagesSampleWalk();
  }

  /** A base URL with a trailing slash yields the root URL unchanged. */
  lemma TrailingSlashBaseUrl()
    ensures BuildUrl("https://example.com:8080/", "/") == "https://example.com:8080/"
  {
    assert EndsWith("https://example.com:8080/", "/");
  }

  lemma AdminPattern()
    ensures Matches("/admin*", "/admin")
    ensures !Matches("/admin*", "/") && !Matches("/admin*", "/about") && !Matches("/admin*", "/blog")
  {
  }

  /** Excluding `/admin*` drops `/admin` and keeps `/`, `/about` and `/blog`. */
  lemma ExcludeAdminSample(rs: seq<Route>)
    ensures forall k :: 0 <= k < |FilterRoutes(rs, [], ["/admin*"])| ==> FilterRoutes(rs, [], ["/admin*"])[k].path != "/admin"
    ensures forall k :: 0 <= k < |rs| && rs[k].path in ["/", "/about", "/blog"] ==> rs[k] in FilterRoutes(rs, [], ["/admin*"])
  {
    AdminPattern();
    assert AnyMatches(["/admin*"], "/admin") by {
      assert Matches(["/admin*"][0], "/admin");
    }
    var out := FilterRoutes(rs, [], ["/admin*"]);
    forall k | 0 <= k < |out| ensures out[k].path != "/admin" {
      assert !AnyMatches(["/admin*"], out[k].path);
    }
    forall k | 0 <= k < |rs| && rs[k].path in ["/", "/about", "/blog"] ensures rs[k] in out {
      assert Survives(rs[k].path, [], ["/admin*"]);
    }
  }
}

=== FILE: git.dfy ===
/**
 * `GitManager`: the answers of the git command line, read and combined.
 *
 * Every `execSync` call is an oracle: `Ok(stdout)` when the command
 * succeeds and `Err(e)` with the thrown error otherwise. The file-system
 * probe `existsSync` is membership in a set of existing paths.
 */
module Git {
  import opened Wrappers
  import opened Text
  import opened Seqs

  /** The outputs of the git commands the manager runs, fixed for one run. */
  datatype Answers = Answers(
    gitDir: Result<string, Thrown>,       // git rev-parse --git-dir
    shortHead: Result<string, Thrown>,    // git rev-parse --short HEAD
    branch: Result<string, Thrown>,       // git rev-parse --abbrev-ref HEAD
    porcelain: Result<string, Thrown>,    // git status --porcelain
    cachedNames: Result<string, Thrown>)  // git diff --cached --name-only

  /** `isGitRepository`: `git rev-parse --git-dir` succeeds. */
  predicate IsGitRepository(a: Answers) {
    a.gitDir.Ok?
  }

  /** `getCurrentCommitHash`: the trimmed output, or an error naming the step. */
  function GetCurrentCommitHash(out: Result<string, Thrown>): (r: Result<string, Thrown>)
    ensures r.Ok? <==> out.Ok?
    ensures out.Ok? ==> r.value == Trim(out.value)
    ensures out.Err? ==> r.error == NewError("Failed to get commit hash: " + Describe(out.error))
  {
    match out
    case Ok(v) => Ok(Trim(v))
    case Err(e) => Err(NewError("Failed to get commit hash: " + Describe(e)))
  }

  /** `getCurrentBranch`: the trimmed output, or an error naming the step. */
  function GetCurrentBranch(out: Result<string, Thrown>): (r: Result<string, Thrown>)
    ensures r.Ok? <==> out.Ok?
    ensures out.Ok? ==> r.value == Trim(out.value)
    ensures out.Err? ==> r.error == NewError("Failed to get branch name: " + Describe(out.error))
  {
    match out
    case Ok(v) => Ok(Trim(v))
    case Err(e) => Err(NewError("Failed to get branch name: " + Describe(e)))
  }

  /**
   * `safeGetCommitHash`: the commit hash, or `token` (the six random
   * base-36 digits of the original) when git fails.
   */
  function SafeGetCommitHash(out: Result<string, Thrown>, token: string): (r: string)
    ensures out.Ok? ==> r == Trim(out.value)
    ensures out.Err? ==> r == token
  {
    match GetCurrentCommitHash(out)
    case Ok(h) => h
    case Err(_) => token
  }

  /** `safeGetBranch`: the branch name, or `unknown` when git fails. */
  function SafeGetBranch(out: Result<string, Thrown>): (r: string)
    ensures out.Ok? ==> r == Trim(out.value)
    ensures out.Err? ==> r == "unknown"
  {
    match GetCurrentBranch(out)
    case Ok(b) => b
    case Err(_) => "unknown"
  }

  /** `hasStagedChanges`: the trimmed list of staged names is not empty; false when git fails. */
  function HasStagedChanges(out: Result<string, Thrown>): (r: bool)
    ensures r <==> out.Ok? && exists k :: 0 <= k < |out.value| && !IsJsWhitespace(out.value[k])
  {
    if out.Err? then false
    else
      var t := Trim(out.value);
      if t == "" then
        assert forall k :: 0 <= k < |out.value| ==> IsJsWhitespace(out.value[k]) by {
          BlankIffTrimEmpty(out.value);
        }
        false
      else
        NonBlankWhenTrimmed(out.value);
        true
  }

  /** A string trims to the empty string exactly when it is all whitespace. */
  lemma BlankIffTrimEmpty(s: string)
    requires Trim(s) == ""
    ensures forall k :: 0 <= k < |s| ==> IsJsWhitespace(s[k])
  {
    var t := TrimEnd(s);
    assert TrimStart(t) == "";
    assert |t| == 0;
  }

  lemma NonBlankWhenTrimmed(s: string)
    requires Trim(s) != ""
    ensures exists k :: 0 <= k < |s| && !IsJsWhitespace(s[k])
  {
    var t := Trim(s);
    var i :| 0 <= i <= |s| - |t| && OccursAt(s, t, i);
    assert s[i] == t[0];
  }

  // ---------------------------------------------------------------------
  // git status --porcelain

  /** A status line long enough to carry two status columns, a space and a name. */
  predicate IsEntry(line: string) {
    |line| >= 3
  }

  /** `line.slice(3)`: the path part of a status line. */
  function FileName(line: string): string
    requires IsEntry(line)
  {
    line[3..]
  }

  /** The index column records a change: anything but ` ` and `?`. */
  predicate IsStaged(line: string) {
    IsEntry(line) && line[0] != ' ' && line[0] != '?'
  }

  /** The work-tree column reads `M`. */
  predicate IsModified(line: string) {
    IsEntry(line) && line[1] == 'M'
  }

  /** Both columns read `?`. */
  predicate IsUntracked(line: string) {
    IsEntry(line) && line[0] == '?' && line[1] == '?'
  }

  /** The names on the lines satisfying `p`, in line order. */
  function FilesWhere(lines: seq<string>, p: string -> bool): (r: seq<string>)
    requires forall l :: p(l) ==> IsEntry(l)
    ensures |r| <= |lines|
    ensures r == [] <==> forall k :: 0 <= k < |lines| ==> !p(lines[k])
  {
    if |lines| == 0 then []
    else
      var last := lines[|lines| - 1];
      FilesWhere(lines[..|lines| - 1], p) + (if p(last) then [FileName(last)] else [])
  }

  /** The three lists of a status report. */
  datatype Changes = Changes(staged: seq<string>, modified: seq<string>, untracked: seq<string>)

  /**
   * The loop of `getStatus` over the porcelain lines: one pass that
   * pushes each line's name onto every list whose rule it meets. It
   * yields the three independent filters.
   */
  method ParseStatusLines(lines: seq<string>) returns (c: Changes)
    ensures c.staged == FilesWhere(lines, IsStaged)
    ensures c.modified == FilesWhere(lines, IsModified)
    ensures c.untracked == FilesWhere(lines, IsUntracked)
  {
    var staged: seq<string> := [];
    var modified: seq<string> := [];
    var untracked: seq<string> := [];
    var i := 0;
    while i < |lines|
      invariant 0 <= i <= |lines|
      invariant staged == FilesWhere(lines[..i], IsStaged)
      invariant modified == FilesWhere(lines[..i], IsModified)
      invariant untracked == FilesWhere(lines[..i], IsUntracked)
    {
      var line := lines[i];
      assert lines[..i + 1][..i] == lines[..i];
      if |line| >= 3 {
        var name := line[3..];
        if line[0] != ' ' && line[0] != '?' {
          staged := staged + [name];
        }
        if line[1] == 'M' {
          modified := modified + [name];
        }
        if line[0] == '?' && line[1] == '?' {
          untracked := untracked + [name];
        }
      }
      i := i + 1;
    }
    assert lines[..i] == lines;
    c := Changes(staged, modified, untracked);
  }

  /** The lists for a whole porcelain output: trailing whitespace dropped, then one line per `\n`. */
  function ChangesOf(output: string): (c: Changes)
    ensures TrimEnd(output) == "" ==> c == Changes([], [], [])
  {
    var text := TrimEnd(output);
    if text == "" then Changes([], [], [])
    else
      var lines := Split(text, '\n');
      Changes(FilesWhere(lines, IsStaged), FilesWhere(lines, IsModified), FilesWhere(lines, IsUntracked))
  }

  /** `GitStatus`. */
  datatype Status = Status(
    isRepository: bool,
    hasChanges: bool,
    changes: Changes,
    currentBranch: string,
    currentCommit: string)

  /**
   * `getStatus`: the empty report outside a repository; otherwise branch,
   * commit and the parsed porcelain lists, or an error when one of those
   * three commands fails.
   */
  function GetStatus(a: Answers): (r: Result<Status, Thrown>)
    ensures !IsGitRepository(a) ==> r == Ok(Status(false, false, Changes([], [], []), "", ""))
    ensures IsGitRepository(a) ==>
      (r.Ok? <==> a.branch.Ok? && a.shortHead.Ok? && a.porcelain.Ok?)
    ensures r.Ok? && IsGitRepository(a) ==>
      && r.value.isRepository
      && r.value.currentBranch == Trim(a.branch.value)
      && r.value.currentCommit == Trim(a.shortHead.value)
      && r.value.changes == ChangesOf(a.porcelain.value)
    ensures r.Ok? ==> (r.value.hasChanges <==>
      r.value.changes.staged != [] || r.value.changes.modified != [] || r.value.changes.untracked != [])
    ensures r.Err? ==> StartsWith(MessageOf(r.error), "Failed to get git status: ")
  {
    if !IsGitRepository(a) then Ok(Status(false, false, Changes([], [], []), "", ""))
    else
      match (GetCurrentBranch(a.branch), GetCurrentCommitHash(a.shortHead), a.porcelain)
      case (Err(e), _, _) => StatusFailure(e)
      case (Ok(_), Err(e), _) => StatusFailure(e)
      case (Ok(_), Ok(_), Err(e)) => StatusFailure(e)
      case (Ok(branch), Ok(commit), Ok(out)) =>
        var c := ChangesOf(out);
        Ok(Status(true, c.staged != [] || c.modified != [] || c.untracked != [], c, branch, commit))
  }

  function StatusFailure(e: Thrown): (r: Result<Status, Thrown>)
    ensures r.Err? && StartsWith(MessageOf(r.error), "Failed to get git status: ")
  {
    Err(NewError("Failed to get git status: " + Describe(e)))
  }

  /**
   * A porcelain output yields no change at all exactly when none of its
   * lines is staged, modified or untracked; with `GetStatus` this is the
   * `hasChanges` rule stated over the lines.
   */
  lemma NoChangesIffNoLine(output: string)
    requires TrimEnd(output) != ""
    ensures ChangesOf(output) == Changes([], [], []) <==>
      NoChangedLine(Split(TrimEnd(output), '\n'))
  {
    var lines := Split(TrimEnd(output), '\n');
    var c := ChangesOf(output);
    assert c.staged == FilesWhere(lines, IsStaged);
    assert c.modified == FilesWhere(lines, IsModified);
    assert c.untracked == FilesWhere(lines, IsUntracked);
    NoLineWhere(lines);
  }

  /** No line of `lines` is staged, modified or untracked. */
  predicate NoChangedLine(lines: seq<string>) {
    forall k :: 0 <= k < |lines| ==> !IsStaged(lines[k]) && !IsModified(lines[k]) && !IsUntracked(lines[k])
  }

  lemma NoLineWhere(lines: seq<string>)
    ensures (FilesWhere(lines, IsStaged) == [] && FilesWhere(lines, IsModified) == [] && FilesWhere(lines, IsUntracked) == []) <==>
      NoChangedLine(lines)
  {
    if FilesWhere(lines, IsStaged) != [] {
      var k :| 0 <= k < |lines| && IsStaged(lines[k]);
    } else if FilesWhere(lines, IsModified) != [] {
      var k :| 0 <= k < |lines| && IsModified(lines[k]);
    } else if FilesWhere(lines, IsUntracked) != [] {
      var k :| 0 <= k < |lines| && IsUntracked(lines[k]);
    }
  }

  /** A line is never both staged and untracked; it may be both staged and modified. */
  lemma StagedAndUntrackedDisjoint(lines: seq<string>)
    ensures forall k :: 0 <= k < |lines| ==> !(IsStaged(lines[k]) && IsUntracked(lines[k]))
    ensures FilesWhere(["MM both.txt"], IsStaged) == ["both.txt"]
    ensures FilesWhere(["MM both.txt"], IsModified) == ["both.txt"]
  {
    var l := "MM both.txt";
    assert IsStaged(l) && IsModified(l);
    assert FileName(l) == "both.txt";
    assert ["MM both.txt"][..0] == [];
  }

  /**
   * The three-line sample: one work-tree modification, one untracked
   * file and one staged addition.
   */
  lemma PorcelainSample()
    ensures var lines := [" M modified.txt", "?? untracked.txt", "A  staged.txt"];
      && FilesWhere(lines, IsStaged) == ["staged.txt"]
      && FilesWhere(lines, IsModified) == ["modified.txt"]
      && FilesWhere(lines, IsUntracked) == ["untracked.txt"]
  {
    var l0, l1, l2 := " M modified.txt", "?? untracked.txt", "A  staged.txt";
    var lines := [l0, l1, l2];
    assert lines[..2] == [l0, l1] && lines[..2][..1] == [l0] && lines[..2][..1][..0] == [];
    assert !IsStaged(l0) && IsModified(l0) && !IsUntracked(l0);
    assert !IsStaged(l1) && !IsModified(l1) && IsUntracked(l1);
    assert IsStaged(l2) && !IsModified(l2) && !IsUntracked(l2);
    assert FileName(l0) == "modified.txt";
    assert FileName(l1) == "untracked.txt";
    assert FileName(l2) == "staged.txt";
  }

  /** Porcelain output joined from `\n`-free lines is read back line by line. */
  lemma ChangesOfLines(lines: seq<string>)
    requires |lines| >= 1
    requires forall k :: 0 <= k < |lines| ==> '\n' !in lines[k]
    requires TrimEnd(Join(lines, '\n')) == Join(lines, '\n') && Join(lines, '\n') != ""
    ensures ChangesOf(Join(lines, '\n')) ==
      Changes(FilesWhere(lines, IsStaged), FilesWhere(lines, IsModified), FilesWhere(lines, IsUntracked))
  {
    SplitJoin(lines, '\n');
  }

  // ---------------------------------------------------------------------
  // Hooks directory and operation markers

  /** `path.isAbsolute` on POSIX. */
  predicate IsAbsolute(p: string) {
    StartsWith(p, "/")
  }

  /** The git directory as an absolute path: kept when absolute, else under the project root. */
  function FullGitDir(projectRoot: string, gitDir: string): (r: string)
    ensures IsAbsolute(gitDir) ==> r == gitDir
    ensures !IsAbsolute(gitDir) ==> r == projectRoot + "/" + gitDir
  {
    if IsAbsolute(gitDir) then gitDir else projectRoot + "/" + gitDir
  }

  /** `getHooksDirectory`: `<full git dir>/hooks`, or an error when git fails. */
  function GetHooksDirectory(projectRoot: string, gitDirOut: Result<string, Thrown>): (r: Result<string, Thrown>)
    ensures r.Ok? <==> gitDirOut.Ok?
    ensures r.Ok? ==> r.value == FullGitDir(projectRoot, Trim(gitDirOut.value)) + "/hooks"
    ensures r.Err? ==> r.error == NewError("Failed to get hooks directory: " + Describe(gitDirOut.error))
  {
    match gitDirOut
    case Ok(v) => Ok(FullGitDir(projectRoot, Trim(v)) + "/hooks")
    case Err(e) => Err(NewError("Failed to get hooks directory: " + Describe(e)))
  }

  /** An absolute project root gives an absolute hooks directory, whatever git answers. */
  lemma HooksDirectoryAbsolute(projectRoot: string, gitDirOut: Result<string, Thrown>)
    requires IsAbsolute(projectRoot) && gitDirOut.Ok?
    ensures IsAbsolute(GetHooksDirectory(projectRoot, gitDirOut).value)
    ensures EndsWith(GetHooksDirectory(projectRoot, gitDirOut).value, "/hooks")
  {
    FullHooksDirAbsolute(projectRoot, Trim(gitDirOut.value));
  }

  lemma FullHooksDirAbsolute(projectRoot: string, g: string)
    requires IsAbsolute(projectRoot)
    ensures IsAbsolute(FullGitDir(projectRoot, g) + "/hooks")
    ensures EndsWith(FullGitDir(projectRoot, g) + "/hooks", "/hooks")
  {
    var full := FullGitDir(projectRoot, g);
    var r := full + "/hooks";
    assert r[|r| - 6..] == "/hooks";
    if IsAbsolute(g) {
      assert r[..1] == g[..1];
    } else {
      assert r[..1] == projectRoot[..1];
    }
  }

  /**
   * The two documented layouts: a relative `.git` (as printed, with its
   * line feed) under the project root, and an absolute git directory.
   */
  lemma HooksDirectorySamples()
    ensures GetHooksDirectory("/p", Ok(".git\n")) == Ok("/p/.git/hooks")
    ensures GetHooksDirectory("/p", Ok("/abs/.git")) == Ok("/abs/.git/hooks")
  {
    RelativeHooksDirectory();
    AbsoluteHooksDirectory();
  }

  lemma RelativeHooksDirectory()
    ensures GetHooksDirectory("/p", Ok(".git\n")) == Ok("/p/.git/hooks")
  {
    RelativeGitDirTrim();
    assert !IsAbsolute(".git");
    assert FullGitDir("/p", ".git") + "/hooks" == "/p/.git/hooks";
  }

  lemma AbsoluteHooksDirectory()
    ensures GetHooksDirectory("/p", Ok("/abs/.git")) == Ok("/abs/.git/hooks")
  {
    TrimClean("/abs/.git");
    assert IsAbsolute("/abs/.git");
    assert FullGitDir("/p", "/abs/.git") + "/hooks" == "/abs/.git/hooks";
  }

  lemma RelativeGitDirTrim()
    ensures Trim(".git\n") == ".git"
  {
    assert TrimEnd(".git") == ".git";
    assert TrimEnd(".git\n") == ".git" by {
      TrimEndNewline(".git");
      assert ".git" + "\n" == ".git\n";
    }
    assert TrimStart(".git") == ".git" by {
      TrimClean(".git");
    }
  }

  /** The files whose presence in the git directory marks an operation in progress, in checking order. */
  const OperationFiles: seq<string> := ["MERGE_HEAD", "REBASE_HEAD", "CHERRY_PICK_HEAD", "BISECT_LOG"]

  /** Some operation marker exists in the git directory `full`. */
  predicate MarkerPresent(full: string, existing: set<string>) {
    exists k :: 0 <= k < |OperationFiles| && full + "/" + OperationFiles[k] in existing
  }

  /** The git directory resolves and holds an operation marker. */
  predicate InGitOperation(projectRoot: string, gitDirOut: Result<string, Thrown>, existing: set<string>) {
    gitDirOut.Ok? && MarkerPresent(FullGitDir(projectRoot, Trim(gitDirOut.value)), existing)
  }

  /** The marker loop of `isInGitOperation`: probe in order and stop at the first one present. */
  method ProbeMarkers(full: string, existing: set<string>) returns (r: bool)
    ensures r <==> MarkerPresent(full, existing)
  {
    var i := 0;
    while i < |OperationFiles|
      invariant 0 <= i <= |OperationFiles|
      invariant forall k :: 0 <= k < i ==> full + "/" + OperationFiles[k] !in existing
    {
      if full + "/" + OperationFiles[i] in existing {
        return true;
      }
      i := i + 1;
    }
    return false;
  }

  /** `isInGitOperation`: false when the git directory cannot be resolved, else the marker probe. */
  method IsInGitOperation(projectRoot: string, gitDirOut: Result<string, Thrown>, existing: set<string>)
    returns (r: bool)
    ensures r <==> InGitOperation(projectRoot, gitDirOut, existing)
  {
    if gitDirOut.Err? {
      return false;
    }
    var full := FullGitDir(projectRoot, Trim(gitDirOut.value));
    r := ProbeMarkers(full, existing);
  }
}

=== FILE: hooks.dfy ===
/**
 * `HookInstaller`: installs, inspects and removes the tool's git
 * pre-commit hook, and sets up the `.vizrepo` directory.
 *
 * The file system is a map from paths to files (content and permission
 * bits) plus a set of directories; `existsSync` is membership in either.
 * The git answer, the location of the bundled hook template and the clock
 * are parameters.
 */
module Hooks {
  import opened Wrappers
  import opened Text
  import Git

  /** A regular file: its text and its `st_mode` permission bits. */
  datatype File = File(content: string, mode: bv32)

  datatype Fs = Fs(files: map<string, File>, dirs: set<string>)

  /** `fs.existsSync(p)`. */
  predicate Exists(fs: Fs, p: string) {
    p in fs.files || p in fs.dirs
  }

  /** The text that identifies the tool's own hook. */
  const Marker: string := "VizRepoAssist Pre-commit Hook"

  /** `0o755`, the mode an installed hook gets. */
  const HookMode: bv32 := 0x1ED

  /** `0o111`, the execute bits for owner, group and others. */
  const ExecuteBits: bv32 := 0x49

  /** `0o644`, the mode of a file written under the usual umask `022`. */
  const NewFileMode: bv32 := 0x1A4

  // The messages of the installer's results and the issues of its validation.
  const InstallNotRepoMessage: string := "Not a git repository. Initialize git first with: git init"
  const AlreadyInstalledMessage: string := "VizRepoAssist pre-commit hook is already installed."
  const ForeignHookMessage: string := "A pre-commit hook already exists. Use --force to overwrite or remove it manually."
  const TemplateMissingMessage: string := "Hook template not found at: "
  const InstalledMessage: string := "VizRepoAssist pre-commit hook installed successfully!"
  const UninstallNotRepoMessage: string := "Not a git repository."
  const NoHookMessage: string := "No pre-commit hook found to remove."
  const ForeignHookKeptMessage: string := "Pre-commit hook exists but is not a VizRepoAssist hook. Remove manually if needed."
  const RemovedMessage: string := "VizRepoAssist pre-commit hook removed successfully."
  const NotRepoIssue: string := "Not a git repository"
  const NoGitIssue: string := "Git is not installed or not working"
  const NoHooksDirIssue: string := "Git hooks directory does not exist"
  const HooksNotWritableIssue: string := "Cannot write to git hooks directory (permission issue)"
  const NotInstalledIssue: string := "Pre-commit hook is not installed"
  const ForeignHookIssue: string := "Pre-commit hook exists but is not a VizRepoAssist hook"
  const NotExecutableIssue: string := "Pre-commit hook is not executable"

  predicate IsOurs(f: File) {
    Contains(f.content, Marker)
  }

  predicate IsExecutable(f: File) {
    f.mode & ExecuteBits != 0
  }

  /** Where the installer runs: the project root, the git answer and the bundled template's path. */
  datatype Env = Env(projectRoot: string, gitDir: Result<string, Thrown>, templatePath: string)

  predicate IsRepository(env: Env) {
    env.gitDir.Ok?
  }

  /** The hooks directory of a repository. */
  function HooksDir(env: Env): string
    requires IsRepository(env)
  {
    Git.GetHooksDirectory(env.projectRoot, env.gitDir).value
  }

  function HookPath(env: Env): string
    requires IsRepository(env)
  {
    HooksDir(env) + "/pre-commit"
  }

  /** `HookInstallResult`. */
  datatype InstallResult = InstallResult(success: bool, message: string, backupPath: Option<string>, hookPath: Option<string>)

  /** The path of the backup `installPreCommitHook` makes at clock reading `nowMs`. */
  function BackupPath(hookPath: string, nowMs: nat): string {
    hookPath + ".backup." + NatToString(nowMs)
  }

  /**
   * `installPreCommitHook`. Outside a repository: fail and touch nothing.
   * Otherwise create the hooks directory if needed; leave an existing hook
   * alone unless `force` (reporting success when it is already ours);
   * back the old hook up when `backup`; then copy the template over the
   * hook and make it executable, or fail when there is no template.
   */
  function Install(env: Env, fs: Fs, force: bool, backup: bool, nowMs: nat): (res: (InstallResult, Fs))
    ensures !IsRepository(env) ==> !res.0.success && res.1 == fs
    ensures IsRepository(env) ==> res.1.dirs == fs.dirs + {HooksDir(env)}
    ensures IsRepository(env) && HookPath(env) in fs.files && !force ==>
      && res.1.files == fs.files
      && (res.0.success <==> IsOurs(fs.files[HookPath(env)]))
    ensures IsRepository(env) && !(HookPath(env) in fs.files && !force) ==>
      && (res.0.success <==> env.templatePath in fs.files)
      && (res.0.success ==>
            res.1.files == BackedUp(env, fs, backup, nowMs)[HookPath(env) := File(fs.files[env.templatePath].content, HookMode)])
      && (!res.0.success ==> res.1.files == BackedUp(env, fs, backup, nowMs))
    ensures res.0.backupPath.Some? ==>
      && IsRepository(env) && backup && HookPath(env) in fs.files
      && res.0.backupPath.value == BackupPath(HookPath(env), nowMs)
    ensures IsRepository(env) && !(HookPath(env) in fs.files && !force) ==>
      res.0.backupPath == (if res.0.success && backup && HookPath(env) in fs.files
                           then Some(BackupPath(HookPath(env), nowMs)) else None)
  {
    if !IsRepository(env) then
      (InstallResult(false, InstallNotRepoMessage, None, None), fs)
    else
      var fs1 := fs.(dirs := fs.dirs + {HooksDir(env)});
      if HookPath(env) in fs.files && !force then (KeepExisting(env, fs), fs1)
      else CopyTemplate(env, fs1, backup, nowMs)
  }

  /** The answer when a hook is already present and `force` is off. */
  function KeepExisting(env: Env, fs: Fs): (r: InstallResult)
    requires IsRepository(env) && HookPath(env) in fs.files
    ensures r.success <==> IsOurs(fs.files[HookPath(env)])
    ensures r.backupPath.None?
  {
    if IsOurs(fs.files[HookPath(env)]) then
      InstallResult(true, AlreadyInstalledMessage, None, Some(HookPath(env)))
    else
      InstallResult(false, ForeignHookMessage, None, Some(HookPath(env)))
  }

  /** The backup and copy steps of `installPreCommitHook`. */
  function CopyTemplate(env: Env, fs: Fs, backup: bool, nowMs: nat): (res: (InstallResult, Fs))
    requires IsRepository(env)
    ensures res.1.dirs == fs.dirs
    ensures res.0.success <==> env.templatePath in fs.files
    ensures res.0.success ==>
      res.1.files == BackedUp(env, fs, backup, nowMs)[HookPath(env) := File(fs.files[env.templatePath].content, HookMode)]
    ensures !res.0.success ==> res.1.files == BackedUp(env, fs, backup, nowMs)
    ensures res.0.backupPath.Some? ==>
      backup && HookPath(env) in fs.files && res.0.backupPath.value == BackupPath(HookPath(env), nowMs)
    ensures res.0.backupPath == (if res.0.success && backup && HookPath(env) in fs.files
                                 then Some(BackupPath(HookPath(env), nowMs)) else None)
  {
    var hookPath := HookPath(env);
    var backupPath := if backup && hookPath in fs.files then Some(BackupPath(hookPath, nowMs)) else None;
    var files := BackedUp(env, fs, backup, nowMs);
    if env.templatePath !in fs.files then
      (InstallResult(false, TemplateMissingMessage + env.templatePath, None, None), fs.(files := files))
    else
      (InstallResult(true, InstalledMessage, backupPath, Some(hookPath)),
       fs.(files := files[hookPath := File(fs.files[env.templatePath].content, HookMode)]))
  }

  /** The files after the backup step: the old hook copied to its backup path when asked for and present. */
  function BackedUp(env: Env, fs: Fs, backup: bool, nowMs: nat): (files: map<string, File>)
    requires IsRepository(env)
    ensures backup && HookPath(env) in fs.files ==>
      files == fs.files[BackupPath(HookPath(env), nowMs) := fs.files[HookPath(env)]]
    ensures !(backup && HookPath(env) in fs.files) ==> files == fs.files
  {
    if backup && HookPath(env) in fs.files then fs.files[BackupPath(HookPath(env), nowMs) := fs.files[HookPath(env)]]
    else fs.files
  }

  /**
   * `uninstallPreCommitHook`: outside a repository fail; with no hook
   * succeed without change; refuse to delete a hook that is not ours;
   * delete ours.
   */
  function Uninstall(env: Env, fs: Fs): (res: (InstallResult, Fs))
    ensures res.1.dirs == fs.dirs
    ensures !IsRepository(env) ==> !res.0.success && res.1 == fs
    ensures IsRepository(env) && HookPath(env) !in fs.files ==> res.0.success && res.1 == fs
    ensures IsRepository(env) && HookPath(env) in fs.files ==>
      (res.0.success <==> IsOurs(fs.files[HookPath(env)]))
    ensures IsRepository(env) && HookPath(env) in fs.files && IsOurs(fs.files[HookPath(env)]) ==>
      res.1.files == fs.files - {HookPath(env)}
    ensures IsRepository(env) && HookPath(env) in fs.files && !IsOurs(fs.files[HookPath(env)]) ==>
      res.1 == fs
  {
    if !IsRepository(env) then (InstallResult(false, UninstallNotRepoMessage, None, None), fs)
    else
      var hookPath := HookPath(env);
      if hookPath !in fs.files then (InstallResult(true, NoHookMessage, None, None), fs)
      else if !IsOurs(fs.files[hookPath]) then
        (InstallResult(false, ForeignHookKeptMessage, None, Some(hookPath)), fs)
      else
        (InstallResult(true, RemovedMessage, None, Some(hookPath)),
         fs.(files := fs.files - {hookPath}))
  }

  /** `isHookInstalled`: the hook exists and is ours; false when the hooks directory cannot be found. */
  predicate IsHookInstalled(env: Env, fs: Fs) {
    IsRepository(env) && HookPath(env) in fs.files && IsOurs(fs.files[HookPath(env)])
  }

  /** The result of `getHookStatus`. */
  datatype HookStatus = HookStatus(installed: bool, isVizRepoHook: bool, hookPath: Option<string>, executable: Option<bool>)

  /** `getHookStatus`: whether a hook exists, whether it is ours, and whether any execute bit is set. */
  function GetHookStatus(env: Env, fs: Fs): (s: HookStatus)
    ensures s.installed <==> IsRepository(env) && HookPath(env) in fs.files
    ensures s.isVizRepoHook <==> IsHookInstalled(env, fs)
    ensures s.installed ==> s.executable == Some(IsExecutable(fs.files[HookPath(env)]))
    ensures !s.installed ==> s.hookPath.None? && s.executable.None?
  {
    if !IsRepository(env) || HookPath(env) !in fs.files then HookStatus(false, false, None, None)
    else
      var f := fs.files[HookPath(env)];
      HookStatus(true, IsOurs(f), Some(HookPath(env)), Some(f.mode & ExecuteBits != 0))
  }

  /**
   * `validateHookInstallation`. `gitWorks` is the answer of `git --version`
   * and `hooksWritable` whether a probe file can be written in the hooks
   * directory.
   */
  function Validate(env: Env, fs: Fs, gitWorks: bool, hooksWritable: bool): (res: (bool, seq<string>))
    ensures res.0 <==> res.1 == []
    ensures !IsRepository(env) ==> res.1 == [NotRepoIssue]
    ensures IsRepository(env) ==>
      (res.0 <==> gitWorks && IsHookInstalled(env, fs) && IsExecutable(fs.files[HookPath(env)])
                  && Exists(fs, HooksDir(env)) && hooksWritable)
  {
    if !IsRepository(env) then (false, [NotRepoIssue])
    else
      var status := GetHookStatus(env, fs);
      var issues :=
        (if !gitWorks then [NoGitIssue] else [])
        + HookIssues(status)
        + (if !Exists(fs, HooksDir(env)) then [NoHooksDirIssue]
           else if !hooksWritable then [HooksNotWritableIssue] else []);
      (issues == [], issues)
  }

  /** The complaints `validateHookInstallation` derives from the hook's status. */
  function HookIssues(status: HookStatus): (issues: seq<string>)
    ensures issues == [] <==> status.installed && status.isVizRepoHook && status.executable == Some(true)
  {
    if !status.installed then [NotInstalledIssue]
    else
      (if !status.isVizRepoHook then [ForeignHookIssue] else [])
      + (if status.executable != Some(true) then [NotExecutableIssue] else [])
  }

  /** The JSON text `JSON.stringify({ sessions: [], lastCleanup: now }, null, 2)`. */
  function EmptyIndexJson(now: string): string {
    IndexHead + now + IndexTail
  }

  const IndexHead: string := "{\n  \"sessions\": [],\n  \"lastCleanup\": \""
  const IndexTail: string := "\"\n}"

  function IndexPath(projectRoot: string): string {
    projectRoot + "/.vizrepo/index.json"
  }

  /**
   * `initializeVizRepoDirectory`: create `.vizrepo` with `screenshots` and
   * `config`, and write an empty index only when none exists.
   */
  function InitializeVizRepoDirectory(projectRoot: string, fs: Fs, now: string): (fs': Fs)
    ensures fs'.dirs == fs.dirs + {projectRoot + "/.vizrepo", projectRoot + "/.vizrepo/screenshots", projectRoot + "/.vizrepo/config"}
    ensures Exists(fs, IndexPath(projectRoot)) ==> fs'.files == fs.files
    ensures !Exists(fs, IndexPath(projectRoot)) ==>
      fs'.files == fs.files[IndexPath(projectRoot) := File(EmptyIndexJson(now), NewFileMode)]
  {
    var dir := projectRoot + "/.vizrepo";
    var index := dir + "/index.json";
    var dirs := fs.dirs + {dir, dir + "/screenshots", dir + "/config"};
    assert dir + "/screenshots" == projectRoot + "/.vizrepo/screenshots";
    assert dir + "/config" == projectRoot + "/.vizrepo/config";
    assert index == projectRoot + "/.vizrepo/index.json";
    if Exists(fs, index) then Fs(fs.files, dirs)
    else Fs(fs.files[index := File(EmptyIndexJson(now), NewFileMode)], dirs)
  }

  // ---------------------------------------------------------------------
  // Properties

  /** Without `force`, installing never changes or removes an existing file. */
  lemma InstallNeverClobbers(env: Env, fs: Fs, backup: bool, nowMs: nat)
    ensures var fs' := Install(env, fs, false, backup, nowMs).1;
      forall p :: p in fs.files ==> p in fs'.files && fs'.files[p] == fs.files[p]
  {
    var fs' := Install(env, fs, false, backup, nowMs).1;
    if !IsRepository(env) || HookPath(env) in fs.files {
      assert fs'.files == fs.files;
    } else {
      assert BackedUp(env, fs, backup, nowMs) == fs.files;
      if env.templatePath in fs.files {
        assert fs'.files == fs.files[HookPath(env) := File(fs.files[env.templatePath].content, HookMode)];
        UpdateAbsentKeeps(fs.files, HookPath(env), File(fs.files[env.templatePath].content, HookMode));
      } else {
        assert fs'.files == fs.files;
      }
    }
  }

  /** Adding a new key keeps every existing entry. */
  lemma UpdateAbsentKeeps<K, V>(m: map<K, V>, k: K, v: V)
    requires k !in m
    ensures forall p :: p in m ==> p in m[k := v] && m[k := v][p] == m[p]
  {
  }

  /** Uninstalling removes nothing but the tool's own hook. */
  lemma UninstallOnlyRemovesOurs(env: Env, fs: Fs)
    ensures var fs' := Uninstall(env, fs).1;
      forall p :: p in fs.files ==>
        (p in fs'.files && fs'.files[p] == fs.files[p]) || (IsRepository(env) && p == HookPath(env) && IsOurs(fs.files[p]))
  {
  }

  /** A successful fresh install leaves an executable copy of the template, and reports the hook installed iff the template is ours. */
  lemma InstallResultsInTemplate(env: Env, fs: Fs, force: bool, backup: bool, nowMs: nat)
    requires IsRepository(env) && env.templatePath in fs.files
    requires force || HookPath(env) !in fs.files
    ensures var (r, fs') := Install(env, fs, force, backup, nowMs);
      && r.success
      && fs'.files[HookPath(env)] == File(fs.files[env.templatePath].content, HookMode)
      && IsExecutable(fs'.files[HookPath(env)])
      && (IsHookInstalled(env, fs') <==> IsOurs(fs.files[env.templatePath]))
  {
    var (r, fs') := Install(env, fs, force, backup, nowMs);
    assert HookMode & ExecuteBits == 0x49;
    assert fs'.files[HookPath(env)] == File(fs.files[env.templatePath].content, HookMode);
  }

  /** A backup made while forcing keeps the old hook's content and mode. */
  lemma ForcedInstallBacksUp(env: Env, fs: Fs, nowMs: nat)
    requires IsRepository(env) && HookPath(env) in fs.files
    requires BackupPath(HookPath(env), nowMs) != HookPath(env)
    ensures var (r, fs') := Install(env, fs, true, true, nowMs);
      && r.backupPath == (if env.templatePath in fs.files then Some(BackupPath(HookPath(env), nowMs)) else None)
      && fs'.files[BackupPath(HookPath(env), nowMs)] == fs.files[HookPath(env)]
  {
  }

  /** Installing a second time without `force` finds the hook already there and changes nothing. */
  lemma InstallIdempotent(env: Env, fs: Fs, backup: bool, nowMs: nat, later: nat)
    requires IsRepository(env) && env.templatePath in fs.files
    requires IsOurs(fs.files[env.templatePath]) && HookPath(env) !in fs.files
    ensures var (_, fs1) := Install(env, fs, false, backup, nowMs);
      var (r2, fs2) := Install(env, fs1, false, backup, later);
      r2.success && fs2 == fs1
  {
    var (_, fs1) := Install(env, fs, false, backup, nowMs);
    assert fs1.files[HookPath(env)].content == fs.files[env.templatePath].content;
  }

  /** Installing into a repository with no hook and then uninstalling gives the original files back. */
  lemma InstallUninstallRoundTrip(env: Env, fs: Fs, backup: bool, nowMs: nat)
    requires IsRepository(env) && env.templatePath in fs.files
    requires IsOurs(fs.files[env.templatePath]) && HookPath(env) !in fs.files
    ensures var (_, fs1) := Install(env, fs, false, backup, nowMs);
      Uninstall(env, fs1).1.files == fs.files
  {
    var (_, fs1) := Install(env, fs, false, backup, nowMs);
    var hook := File(fs.files[env.templatePath].content, HookMode);
    assert BackedUp(env, fs, backup, nowMs) == fs.files;
    assert fs1.files == fs.files[HookPath(env) := hook];
    assert IsOurs(fs1.files[HookPath(env)]);
    UpdateThenRemove(fs.files, HookPath(env), hook);
  }

  /** Adding a new key and removing it again gives the map back. */
  lemma UpdateThenRemove<K, V>(m: map<K, V>, k: K, v: V)
    requires k !in m
    ensures m[k := v] - {k} == m
  {
  }

  /** A fresh install of a marked template into an existing, writable hooks directory validates. */
  lemma InstalledHookValidates(env: Env, fs: Fs, nowMs: nat)
    requires IsRepository(env) && env.templatePath in fs.files
    requires IsOurs(fs.files[env.templatePath]) && HookPath(env) !in fs.files
    ensures var (_, fs1) := Install(env, fs, false, true, nowMs);
      Validate(env, fs1, true, true) == (true, [])
  {
    InstallResultsInTemplate(env, fs, false, true, nowMs);
  }

  /** Setting up `.vizrepo` twice is the same as once: an existing index is never rewritten. */
  lemma InitializeDirectoryIdempotent(projectRoot: string, fs: Fs, now: string, later: string)
    ensures InitializeVizRepoDirectory(projectRoot, InitializeVizRepoDirectory(projectRoot, fs, now), later)
         == InitializeVizRepoDirectory(projectRoot, fs, now)
  {
  }
}

=== FILE: hookstore.dfy ===
/**
 * The storage layer's view of the `.vizrepo` directory the hook installer
 * sets up: both modules describe the same files, and this module relates
 * the installer's file system to the `StorageManager`'s disk.
 */
module HookStore {
  import opened Wrappers
  import Hooks
  import Storage

  /** The clock reading of an empty index as the installer writes it, if `text` is one. */
  function ReadEmptyIndex(text: string): (r: Option<string>)
    ensures r.Some? ==> text == Hooks.EmptyIndexJson(r.value)
  {
    if |text| >= |Hooks.IndexHead| + |Hooks.IndexTail|
       && text[..|Hooks.IndexHead|] == Hooks.IndexHead && text[|text| - |Hooks.IndexTail|..] == Hooks.IndexTail
    then
      var now := text[|Hooks.IndexHead|..|text| - |Hooks.IndexTail|];
      assert text == text[..|Hooks.IndexHead|] + now + text[|text| - |Hooks.IndexTail|..];
      Some(now)
    else None
  }

  /** Reading back the installer's empty index recovers its clock reading. */
  lemma ReadEmptyIndexRoundTrip(now: string)
    ensures ReadEmptyIndex(Hooks.EmptyIndexJson(now)) == Some(now)
  {
    var text := Hooks.EmptyIndexJson(now);
    assert text[..|Hooks.IndexHead|] == Hooks.IndexHead;
    assert text[|text| - |Hooks.IndexTail|..] == Hooks.IndexTail;
    assert text[|Hooks.IndexHead|..|text| - |Hooks.IndexTail|] == now;
  }

  /**
   * How a `StorageManager` with the default options sees this file
   * system: the same directories, and an index that is missing unless
   * `index.json` is a regular file. The installer's empty index reads as
   * an empty stored index; what any other text reads as is `parse`.
   */
  function StoreView(projectRoot: string, fs: Hooks.Fs, parse: string -> Storage.IndexFile): (d: Storage.Disk)
    ensures d.dirs == fs.dirs
    ensures d.index.Missing? <== Hooks.IndexPath(projectRoot) !in fs.files
    ensures forall now :: Hooks.IndexPath(projectRoot) in fs.files && fs.files[Hooks.IndexPath(projectRoot)].content == Hooks.EmptyIndexJson(now) ==>
      d.index == Storage.Stored(Storage.Index([], now))
  {
    var p := Hooks.IndexPath(projectRoot);
    if p !in fs.files then Storage.Disk(fs.dirs, Storage.Missing)
    else
      var text := fs.files[p].content;
      match ReadEmptyIndex(text)
      case Some(now) => Storage.Disk(fs.dirs, Storage.Stored(Storage.Index([], now)))
      case None => Storage.Disk(fs.dirs, parse(text))
  }

  lemma DefaultLayout(projectRoot: string)
    ensures Storage.BaseDir(Storage.DefaultConfig(projectRoot)) == projectRoot + "/.vizrepo"
    ensures Storage.ScreenshotsDir(Storage.DefaultConfig(projectRoot)) == projectRoot + "/.vizrepo/screenshots"
    ensures Storage.MadeDirs(projectRoot, ".vizrepo") == {projectRoot + "/.vizrepo"}
  {
    assert forall k :: 0 <= k < |".vizrepo"| ==> ".vizrepo"[k] != '/';
  }

  /**
   * After `initializeVizRepoDirectory`, a `StorageManager` with the
   * default options finds its directories in place and keeps reading an
   * existing index as before. When there was no index, it loads the empty
   * index stamped with the installer's clock reading, and its own
   * `initialize` then changes nothing.
   */
  lemma InitializedStoreLoads(projectRoot: string, fs: Hooks.Fs, now: string, later: string, parse: string -> Storage.IndexFile)
    ensures var d := StoreView(projectRoot, Hooks.InitializeVizRepoDirectory(projectRoot, fs, now), parse);
      var c := Storage.DefaultConfig(projectRoot);
      && Storage.BaseDir(c) in d.dirs && Storage.ScreenshotsDir(c) in d.dirs
      && (Hooks.IndexPath(projectRoot) in fs.files ==> d.index == StoreView(projectRoot, fs, parse).index)
      && (!Hooks.Exists(fs, Hooks.IndexPath(projectRoot)) ==>
            && Storage.LoadMetadata(d, later) == Some(Storage.Index([], now))
            && Storage.Initialize(c, d, later) == d)
  {
    DefaultLayout(projectRoot);
    ReadEmptyIndexRoundTrip(now);
  }
}

=== FILE: orchestrator.dfy ===
/**
 * `VizRepoOrchestrator`: one capture run (`captureScreenshots`), the
 * session listing and the cleanup command.
 *
 * Everything the run observes from outside (git, the file tree, the dev
 * server, the clock, the browser) is fixed in advance in a `World`; the
 * run threads the screenshot store (`Storage.Disk`) and the browser
 * engine (`Capture.Engine`) through its steps and returns the report
 * together with both.
 */
module Orchestrator {
  import opened Wrappers
  import opened Text
  import Git
  import Discovery
  import Storage
  import opened Capture
  import Seqs

  /** `OrchestrationOptions`; absent fields are `None`, absent route lists are empty. */
  datatype Request = Request(
    baseUrl: Option<string>,
    includeRoutes: seq<string>,
    excludeRoutes: seq<string>,
    skipIfNoServer: Option<bool>,
    timeout: Option<int>)

  const DefaultBaseUrl: string := "http://localhost:3000"

  const DefaultRunTimeout: int := 30000

  /** The destructuring defaults: they replace only an absent field, never a falsy one. */
  function BaseUrl(r: Request): string {
    r.baseUrl.GetOr(DefaultBaseUrl)
  }

  predicate SkipIfNoServer(r: Request) {
    r.skipIfNoServer.GetOr(true)
  }

  function RunTimeout(r: Request): int {
    r.timeout.GetOr(DefaultRunTimeout)
  }

  /** What the run observes, fixed for the whole run. */
  datatype World = World(
    git: Git.Answers,
    existing: set<string>,                  // paths present on disk, for the operation markers
    serverUp: bool,                         // the HEAD request to the base URL came back `ok` in time
    tree: Discovery.Entry,                  // the project directory
    now: string,                            // ISO clock reading when the session is created
    cleanupAt: string,                      // ISO clock reading when old sessions are cleaned up
    token: string,                          // the random fallback commit token
    launch: Outcome,                        // launching the browser
    pages: nat -> (PageOracle, PageOracle), // the desktop and mobile pages of the i-th route
    cleanupFault: Outcome,                  // whether the store's cleanup throws
    close: Outcome,                         // closing the browser at the end of the run
    closeAgain: Outcome,                    // closing it again in the catch-all handler
    time: string -> int)                    // `new Date(timestamp).getTime()`

  // The messages of the run's report.
  const NotRepositoryMessage: string := "Not a git repository. Screenshots can only be captured in git repositories."
  const InOperationMessage: string := "Git operation in progress (merge, rebase, etc.). Skipping screenshot capture."
  const NoServerMessage: string := "Development server not available at "
  const NoServerHint: string := ". Start your server first or use --no-skip-server."
  const NoRoutesMessage: string := "No routes discovered. Ensure your Next.js app has pages in app/ or pages/ directory."
  const WithIssuesMessage: string := "Screenshot capture completed with issues: "
  const WithIssuesTail: string := " routes captured successfully."
  const SuccessfulMessage: string := "Screenshot capture successful: "
  const SuccessfulTail: string := " routes captured."
  const CleanupDoneMessage: string := "Cleanup completed successfully."
  const CleanupFailedPrefix: string := "Cleanup failed: "

  /** `OrchestrationResult`. */
  datatype Report = Report(
    success: bool,
    message: string,
    sessionId: Option<string>,
    capturedRoutes: Option<nat>,
    errors: Option<seq<string>>)

  // ---------------------------------------------------------------------
  // One route

  /** `viewport.name` as text. */
  function NameText(n: ViewportName): string {
    if n.Desktop? then "desktop" else "mobile"
  }

  /** The settings each capture of a run gets: only the timeout. */
  function ShotTuning(timeout: int): Tuning {
    Tuning(None, None, Some(timeout))
  }

  function DesktopPath(s: Storage.Session, r: Discovery.Route): string {
    Storage.ScreenshotPath(s, r.path, Desktop, DesktopViewport.width, DesktopViewport.height)
  }

  function MobilePath(s: Storage.Session, r: Discovery.Route): string {
    Storage.ScreenshotPath(s, r.path, Mobile, MobileViewport.width, MobileViewport.height)
  }

  /** Where session `s` puts a route's two screenshots: desktop first, then mobile. */
  function ShotPaths(s: Storage.Session): Discovery.Route -> (string, string) {
    r => (DesktopPath(s, r), MobilePath(s, r))
  }

  /** A result that did not capture its viewport. */
  predicate Unsuccessful(x: CaptureResult) {
    !x.success
  }

  /** The line `${route.path} (${result.viewport.name}): ${result.error}`; an absent error prints as `undefined`. */
  function FailureLine(path: string, x: CaptureResult): (line: string)
    ensures StartsWith(line, path + " (") && StartsWith(line, path)
  {
    var tail := NameText(x.viewport.name) + "): " + x.error.GetOr("undefined");
    StartsWithConcat(path + " (", tail);
    StartsWithConcat(path, " (" + tail);
    assert (path + " (") + tail == path + (" (" + tail);
    (path + " (") + tail
  }

  /** The inner loop over a route's results: one error line per failed result, in result order. */
  function FailureLines(path: string, results: seq<CaptureResult>): (lines: seq<string>)
    ensures |lines| == |Seqs.Filter(results, Unsuccessful)|
    ensures forall k :: 0 <= k < |lines| ==> lines[k] == FailureLine(path, Seqs.Filter(results, Unsuccessful)[k])
    ensures |lines| == 0 <==> forall k :: 0 <= k < |results| ==> results[k].success
    ensures forall k :: 0 <= k < |lines| ==> StartsWith(lines[k], path + " (") && StartsWith(lines[k], path)
  {
    var failed := Seqs.Filter(results, Unsuccessful);
    AllSucceededIff(results);
    seq(|failed|, k requires 0 <= k < |failed| => FailureLine(path, failed[k]))
  }

  /** No result failed exactly when the failed ones filter to nothing. */
  lemma AllSucceededIff(results: seq<CaptureResult>)
    ensures |Seqs.Filter(results, Unsuccessful)| == 0 <==> forall k :: 0 <= k < |results| ==> results[k].success
  {
    var failed := Seqs.Filter(results, Unsuccessful);
    if |failed| > 0 {
      assert failed[0] in results && Unsuccessful(failed[0]);
    }
  }

  /** What one route contributes: whether any viewport was captured, and its error lines. */
  datatype RouteOutcome = RouteOutcome(ok: bool, errors: seq<string>)

  /** The body of the route loop: capture both viewports; an exception becomes the line `path: error`. */
  function CaptureRoute(e: Engine, r: Discovery.Route, shots: (string, string), timeout: int, launch: Outcome,
                        pages: (PageOracle, PageOracle)): (res: (RouteOutcome, Engine))
    ensures 1 <= |res.0.errors| + (if res.0.ok then 1 else 0) <= 2
    ensures forall k :: 0 <= k < |res.0.errors| ==> StartsWith(res.0.errors[k], r.path)
    ensures res.1.pagesOpened - res.1.pageCloses == e.pagesOpened - e.pageCloses
    ensures e.running ==> res.1.running && res.1.launches == e.launches
  {
    var (out, e1) := CaptureMultiViewport(e, r.fullUrl, shots.0, shots.1, ShotTuning(timeout),
                                          launch, pages.0, pages.1);
    match out
    case Err(err) =>
      StartsWithConcat(r.path, ": " + Describe(err));
      (RouteOutcome(false, [r.path + (": " + Describe(err))]), e1)
    case Ok(results) =>
      TwoResultsFailures(results);
      (RouteOutcome(results[0].success || results[1].success, FailureLines(r.path, results)), e1)
  }

  /** Of a desktop and a mobile result, the failed ones are those not captured. */
  lemma TwoResultsFailures(results: seq<CaptureResult>)
    requires |results| == 2
    ensures |Seqs.Filter(results, Unsuccessful)| == (if results[0].success then 0 else 1) + (if results[1].success then 0 else 1)
  {
    assert results[1..][1..] == [];
  }

  /** A capture that throws out of `capture`: the page opened and its `close` threw. */
  predicate Throws(page: PageOracle) {
    page.newPage.Done? && page.close.Threw?
  }

  /** A capture that writes its screenshot. */
  predicate Shoots(o: CaptureOptions, page: PageOracle) {
    page.newPage.Done? && PageSteps(o, page).Done? && page.close.Done?
  }

  /**
   * The reference for a route counted as captured, read off the browser's
   * answers alone: neither capture throws, and at least one writes its
   * screenshot.
   */
  predicate RouteSucceeds(r: Discovery.Route, shots: (string, string), timeout: int, pages: (PageOracle, PageOracle)) {
    && !Throws(pages.0) && !Throws(pages.1)
    && (Shoots(MultiOptions(r.fullUrl, shots.0, Desktop, ShotTuning(timeout)), pages.0)
        || Shoots(MultiOptions(r.fullUrl, shots.1, Mobile, ShotTuning(timeout)), pages.1))
  }

  /** With a running browser, a route counts as captured exactly when the reference says so. */
  lemma CaptureRouteMatchesReference(e: Engine, r: Discovery.Route, shots: (string, string), timeout: int, launch: Outcome,
                                     pages: (PageOracle, PageOracle))
    requires e.running
    ensures CaptureRoute(e, r, shots, timeout, launch, pages).0.ok <==> RouteSucceeds(r, shots, timeout, pages)
  {
    var t := ShotTuning(timeout);
    var dOpts := MultiOptions(r.fullUrl, shots.0, Desktop, t);
    var mOpts := MultiOptions(r.fullUrl, shots.1, Mobile, t);
    var (d, e1) := CaptureShot(e, dOpts, launch, pages.0);
    var (m, e2) := CaptureShot(e1, mOpts, launch, pages.1);
    assert d.Ok? <==> !Throws(pages.0);
    assert e1.running;
    assert m.Ok? <==> !Throws(pages.1);
    assert d.Ok? ==> (d.value.success <==> Shoots(dOpts, pages.0));
    assert m.Ok? ==> (m.value.success <==> Shoots(mOpts, pages.1));
  }

  // ---------------------------------------------------------------------
  // All routes

  /** The route loop's running totals. */
  datatype Tally = Tally(captured: nat, errors: seq<string>, engine: Engine)

  /** The route loop as a fold over the routes, in order. */
  function RunRoutes(e: Engine, paths: Discovery.Route -> (string, string), routes: seq<Discovery.Route>, timeout: int, launch: Outcome,
                     pages: nat -> (PageOracle, PageOracle)): (t: Tally)
    ensures t.captured <= |routes| <= |t.errors| + t.captured <= 2 * |routes|
    ensures t.engine.pagesOpened - t.engine.pageCloses == e.pagesOpened - e.pageCloses
    ensures e.running ==> t.engine.running && t.engine.launches == e.launches
    decreases |routes|
  {
    if |routes| == 0 then Tally(0, [], e)
    else
      var n := |routes| - 1;
      var prev := RunRoutes(e, paths, routes[..n], timeout, launch, pages);
      var (o, e1) := CaptureRoute(prev.engine, routes[n], paths(routes[n]), timeout, launch, pages(n));
      Tally(prev.captured + (if o.ok then 1 else 0), prev.errors + o.errors, e1)
  }

  /** `for (const route of routes)`: the loop of `captureScreenshots`. */
  method CaptureRoutes(e: Engine, paths: Discovery.Route -> (string, string), routes: seq<Discovery.Route>, timeout: int, launch: Outcome,
                       pages: nat -> (PageOracle, PageOracle)) returns (successCount: nat, routeErrors: seq<string>, e': Engine)
    ensures Tally(successCount, routeErrors, e') == RunRoutes(e, paths, routes, timeout, launch, pages)
  {
    successCount, routeErrors, e' := 0, [], e;
    var i := 0;
    while i < |routes|
      invariant 0 <= i <= |routes|
      invariant Tally(successCount, routeErrors, e') == RunRoutes(e, paths, routes[..i], timeout, launch, pages)
    {
      assert routes[..i + 1][..i] == routes[..i];
      var (o, e1) := CaptureRoute(e', routes[i], paths(routes[i]), timeout, launch, pages(i));
      if o.ok {
        successCount := successCount + 1;
      }
      routeErrors := routeErrors + o.errors;
      e' := e1;
      i := i + 1;
    }
    assert routes[..i] == routes;
  }

  /** The reference count: how many routes `RouteSucceeds` accepts, each with its own pages. */
  function CountSucceeding(paths: Discovery.Route -> (string, string), routes: seq<Discovery.Route>, timeout: int,
                           pages: nat -> (PageOracle, PageOracle)): (n: nat)
    ensures n <= |routes|
    decreases |routes|
  {
    if |routes| == 0 then 0
    else
      var n := |routes| - 1;
      CountSucceeding(paths, routes[..n], timeout, pages)
      + (if RouteSucceeds(routes[n], paths(routes[n]), timeout, pages(n)) then 1 else 0)
  }

  /** The reference count is zero exactly when the reference accepts no route. */
  lemma {:induction false} CountSucceedingZero(paths: Discovery.Route -> (string, string), routes: seq<Discovery.Route>,
                                               timeout: int, pages: nat -> (PageOracle, PageOracle))
    ensures CountSucceeding(paths, routes, timeout, pages) == 0 <==>
      forall k :: 0 <= k < |routes| ==> !RouteSucceeds(routes[k], paths(routes[k]), timeout, pages(k))
    decreases |routes|
  {
    if |routes| > 0 {
      var n := |routes| - 1;
      CountSucceedingZero(paths, routes[..n], timeout, pages);
      assert forall k :: 0 <= k < n ==> routes[..n][k] == routes[k];
    }
  }

  /** With a running browser, the loop counts exactly the routes the reference accepts. */
  lemma {:induction false} CapturedMatchesReference(e: Engine, paths: Discovery.Route -> (string, string),
                                                    routes: seq<Discovery.Route>, timeout: int, launch: Outcome,
                                                    pages: nat -> (PageOracle, PageOracle))
    requires e.running
    ensures RunRoutes(e, paths, routes, timeout, launch, pages).captured == CountSucceeding(paths, routes, timeout, pages)
    decreases |routes|
  {
    if |routes| > 0 {
      var n := |routes| - 1;
      CapturedMatchesReference(e, paths, routes[..n], timeout, launch, pages);
      var prev := RunRoutes(e, paths, routes[..n], timeout, launch, pages);
      CaptureRouteMatchesReference(prev.engine, routes[n], paths(routes[n]), timeout, launch, pages(n));
    }
  }

  // ---------------------------------------------------------------------
  // The run

  /** The early exits before any session is created. */
  predicate Gated(projectRoot: string, req: Request, w: World) {
    || !Git.IsGitRepository(w.git)
    || Git.InGitOperation(projectRoot, w.git.gitDir, w.existing)
    || (SkipIfNoServer(req) && !w.serverUp)
  }

  function GateReport(projectRoot: string, req: Request, w: World): (r: Report)
    requires Gated(projectRoot, req, w)
    ensures !r.success && r.sessionId.None? && r.errors.None?
  {
    if !Git.IsGitRepository(w.git) then
      Report(false, NotRepositoryMessage, None, None, None)
    else if Git.InGitOperation(projectRoot, w.git.gitDir, w.existing) then
      Report(false, InOperationMessage, None, None, None)
    else
      Report(false, NoServerMessage + BaseUrl(req) + NoServerHint,
             None, None, None)
  }

  function StoreConfig(projectRoot: string): Storage.Config {
    Storage.DefaultConfig(projectRoot)
  }

  /** The routes the run captures. */
  function RunRoutesOf(projectRoot: string, req: Request, w: World): seq<Discovery.Route> {
    Discovery.DiscoverRoutes(w.tree, Discovery.Options(projectRoot, BaseUrl(req), req.includeRoutes, req.excludeRoutes))
  }

  /** The session record the run creates. */
  function RunSession(projectRoot: string, w: World): Storage.Session {
    Storage.NewSession(StoreConfig(projectRoot), w.now, w.git.shortHead, w.git.branch, w.token)
  }

  /**
   * The store after `initialize` and `createCaptureSession`, and the new
   * session, or the exception session creation threw.
   */
  function OpenSession(projectRoot: string, w: World, d: Storage.Disk): (res: (Result<Storage.Session, Thrown>, Storage.Disk))
    ensures d.index.WrongShape? ==> res.0 == Err(Storage.SessionsError("push")) && res.1.index == d.index
    ensures !d.index.WrongShape? ==>
      && res.0 == Ok(RunSession(projectRoot, w))
      && res.1.index.Stored?
      && |res.1.index.index.sessions| >= 1
      && res.1.index.index.sessions[|res.1.index.index.sessions| - 1] == RunSession(projectRoot, w)
  {
    var c := StoreConfig(projectRoot);
    Storage.CreateCaptureSession(c, Storage.Initialize(c, d, w.now), w.now, w.git.shortHead, w.git.branch, w.token)
  }

  /** The catch-all handler: close the browser, ignoring its failure, and report the exception. */
  function Abort(err: Thrown, e: Engine, closing: Outcome): (res: (Report, Engine))
    ensures !res.0.success && res.0.sessionId.None? && res.0.capturedRoutes.None?
    ensures res.0.errors == Some([Describe(err)])
    ensures res.1.pagesOpened == e.pagesOpened && res.1.pageCloses == e.pageCloses
    ensures !res.1.running <==> !e.running || closing.Done?
  {
    (Report(false, CaptureFailedPrefix + Describe(err), None, None, Some([Describe(err)])), Close(e, closing).1)
  }

  /** The report of a run that reached its end. */
  function Finish(t: Tally, total: nat, sessionId: string): (r: Report)
    ensures r.success <==> t.captured > 0
    ensures r.sessionId == Some(sessionId) && r.capturedRoutes == Some(t.captured)
    ensures r.errors.Some? <==> |t.errors| > 0
    ensures r.errors.Some? ==> r.errors.value == t.errors
  {
    var counts := NatToString(t.captured) + "/" + NatToString(total);
    if |t.errors| > 0 then
      Report(t.captured > 0, WithIssuesMessage + counts + WithIssuesTail,
             Some(sessionId), Some(t.captured), Some(t.errors))
    else
      Report(t.captured > 0, SuccessfulMessage + counts + SuccessfulTail,
             Some(sessionId), Some(t.captured), None)
  }

  /**
   * `captureScreenshots`. After the gates: create the session, discover
   * the routes (none is a failure that still names the session), launch
   * the browser, capture every route, clean old sessions up and close the
   * browser. An exception from the session creation, the launch, the
   * cleanup or the close ends in the catch-all handler.
   */
  function CaptureScreenshots(projectRoot: string, req: Request, w: World, d: Storage.Disk, e: Engine)
    : (res: (Report, Storage.Disk, Engine))
    ensures Gated(projectRoot, req, w) ==> !res.0.success && res.0.sessionId.None? && res.1 == d && res.2 == e
    ensures !Gated(projectRoot, req, w) && !d.index.WrongShape? ==> res.1.index.Stored?
    ensures d.index.WrongShape? ==> res.1.index == d.index && !res.0.success
    ensures res.2.pagesOpened - res.2.pageCloses == e.pagesOpened - e.pageCloses
    ensures res.0.capturedRoutes.Some? ==> res.0.capturedRoutes.value <= |RunRoutesOf(projectRoot, req, w)|
    ensures res.0.errors.Some? ==> |res.0.errors.value| >= 1
    ensures res.0.success ==> res.0.sessionId.Some? && res.0.capturedRoutes.Some? && res.0.capturedRoutes.value >= 1
  {
    if Gated(projectRoot, req, w) then (GateReport(projectRoot, req, w), d, e)
    else Proceed(projectRoot, req, w, d, e)
  }

  /**
   * Past the gates: open the session, discover the routes, and capture
   * them when there are any. A session that cannot be recorded ends in
   * the catch-all handler.
   */
  function Proceed(projectRoot: string, req: Request, w: World, d: Storage.Disk, e: Engine)
    : (res: (Report, Storage.Disk, Engine))
    ensures !d.index.WrongShape? ==> res.1.index.Stored?
    ensures d.index.WrongShape? ==>
      && res.1.index == d.index && res.2.pagesOpened == e.pagesOpened
      && !res.0.success && res.0.sessionId.None? && res.0.errors == Some([Describe(Storage.SessionsError("push"))])
    ensures res.2.pagesOpened - res.2.pageCloses == e.pagesOpened - e.pageCloses
    ensures res.0.capturedRoutes.Some? ==> res.0.capturedRoutes.value <= |RunRoutesOf(projectRoot, req, w)|
    ensures res.0.errors.Some? ==> |res.0.errors.value| >= 1
    ensures res.0.success ==> res.0.sessionId.Some? && res.0.capturedRoutes.Some? && res.0.capturedRoutes.value >= 1
  {
    var (created, d1) := OpenSession(projectRoot, w, d);
    match created
    case Err(err) =>
      var (r, e1) := Abort(err, e, w.closeAgain); (r, d1, e1)
    case Ok(s) =>
      var routes := RunRoutesOf(projectRoot, req, w);
      if |routes| == 0 then
        (Report(false, NoRoutesMessage,
                Some(s.sessionId), None, None), d1, e)
      else CaptureAll(projectRoot, req, w, s, routes, d1, e)
  }

  /** From the launch to the end of the run, once the session exists and routes were found. */
  function CaptureAll(projectRoot: string, req: Request, w: World, s: Storage.Session, routes: seq<Discovery.Route>,
                      d: Storage.Disk, e: Engine): (res: (Report, Storage.Disk, Engine))
    requires d.index.Stored?
    ensures res.1.index.Stored?
    ensures res.2.pagesOpened - res.2.pageCloses == e.pagesOpened - e.pageCloses
    ensures res.0.capturedRoutes.Some? ==> res.0.capturedRoutes.value <= |routes|
    ensures res.0.errors.Some? ==> |res.0.errors.value| >= 1
    ensures res.0.success ==> res.0.sessionId == Some(s.sessionId) && res.0.capturedRoutes.Some? && res.0.capturedRoutes.value >= 1
  {
    var (started, e1) := Init(e, w.launch);
    if started.Threw? then
      var (r, e2) := Abort(started.error, e1, w.closeAgain); (r, d, e2)
    else
      Conclude(projectRoot, w, s, d, RunRoutes(e1, ShotPaths(s), routes, RunTimeout(req), w.launch, w.pages), |routes|)
  }

  /** After the route loop: clean up old sessions, close the browser and report. */
  function Conclude(projectRoot: string, w: World, s: Storage.Session, d: Storage.Disk, t: Tally, total: nat)
    : (res: (Report, Storage.Disk, Engine))
    requires d.index.Stored? && t.captured <= total
    ensures res.1.index.Stored?
    ensures res.2.pagesOpened - res.2.pageCloses == t.engine.pagesOpened - t.engine.pageCloses
    ensures res.0.capturedRoutes.Some? ==> res.0.capturedRoutes.value <= total
    ensures res.0.errors.Some? ==> |res.0.errors.value| >= 1
    ensures res.0.success <==> w.cleanupFault.Done? && (!t.engine.running || w.close.Done?) && t.captured > 0
    ensures res.0.success ==> res.0.sessionId == Some(s.sessionId) && res.0.capturedRoutes == Some(t.captured)
  {
    if w.cleanupFault.Threw? then
      var (r, e2) := Abort(w.cleanupFault.error, t.engine, w.closeAgain); (r, d, e2)
    else
      var d2 := Storage.Cleanup(StoreConfig(projectRoot), d, w.cleanupAt, w.time).value;
      var (closed, e2) := Close(t.engine, w.close);
      if closed.Threw? then
        var (r, e3) := Abort(closed.error, e2, w.closeAgain); (r, d2, e3)
      else (Finish(t, total, s.sessionId), d2, e2)
  }

  /** With a running browser, the loop captures some route exactly when the reference accepts some route. */
  lemma SomeRouteCaptured(e: Engine, paths: Discovery.Route -> (string, string), routes: seq<Discovery.Route>,
                          timeout: int, launch: Outcome, pages: nat -> (PageOracle, PageOracle))
    requires e.running
    ensures RunRoutes(e, paths, routes, timeout, launch, pages).captured > 0 <==>
      exists k :: 0 <= k < |routes| && RouteSucceeds(routes[k], paths(routes[k]), timeout, pages(k))
  {
    CapturedMatchesReference(e, paths, routes, timeout, launch, pages);
    CountSucceedingZero(paths, routes, timeout, pages);
  }

  /** Once the session exists and routes were found, the run succeeds exactly under the reference reading. */
  lemma CaptureAllSucceedsIff(projectRoot: string, req: Request, w: World, s: Storage.Session,
                              routes: seq<Discovery.Route>, d: Storage.Disk, e: Engine)
    requires d.index.Stored?
    ensures CaptureAll(projectRoot, req, w, s, routes, d, e).0.success <==>
      && (e.running || w.launch.Done?)
      && w.cleanupFault.Done? && w.close.Done?
      && exists k :: 0 <= k < |routes| && RouteSucceeds(routes[k], ShotPaths(s)(routes[k]), RunTimeout(req), w.pages(k))
  {
    var (started, e1) := Init(e, w.launch);
    if started.Done? {
      SomeRouteCaptured(e1, ShotPaths(s), routes, RunTimeout(req), w.launch, w.pages);
    }
  }

  /**
   * A run succeeds exactly when it gets past the gates, finds routes,
   * has a browser, cleans up and closes without an exception, and at
   * least one route has a viewport captured by the reference reading.
   */
  lemma SuccessIffSomeRouteCaptured(projectRoot: string, req: Request, w: World, d: Storage.Disk, e: Engine)
    ensures var (r, _, _) := CaptureScreenshots(projectRoot, req, w, d, e);
      var routes := RunRoutesOf(projectRoot, req, w);
      var paths := ShotPaths(RunSession(projectRoot, w));
      r.success <==>
        && !Gated(projectRoot, req, w)
        && !d.index.WrongShape?
        && |routes| > 0
        && (e.running || w.launch.Done?)
        && w.cleanupFault.Done? && w.close.Done?
        && exists k :: 0 <= k < |routes| && RouteSucceeds(routes[k], paths(routes[k]), RunTimeout(req), w.pages(k))
  {
    if !Gated(projectRoot, req, w) && !d.index.WrongShape? {
      var d1 := OpenSession(projectRoot, w, d).1;
      var routes := RunRoutesOf(projectRoot, req, w);
      if |routes| > 0 {
        CaptureAllSucceedsIff(projectRoot, req, w, RunSession(projectRoot, w), routes, d1, e);
      }
    }
  }

  /** The session is recorded in the index before anything can fail, and it survives a run that finds no routes. */
  lemma SessionRecordedFirst(projectRoot: string, req: Request, w: World, d: Storage.Disk, e: Engine)
    requires !Gated(projectRoot, req, w) && !d.index.WrongShape? && |RunRoutesOf(projectRoot, req, w)| == 0
    ensures var res := CaptureScreenshots(projectRoot, req, w, d, e);
      var ss := res.1.index.index.sessions;
      && res.0.sessionId == Some(RunSession(projectRoot, w).sessionId)
      && |ss| >= 1 && ss[|ss| - 1].sessionId == res.0.sessionId.value
      && res.2 == e
  {
    PastTheGates(projectRoot, req, w, d, e);
    ProceedWithoutRoutes(projectRoot, req, w, d, e);
  }

  lemma PastTheGates(projectRoot: string, req: Request, w: World, d: Storage.Disk, e: Engine)
    requires !Gated(projectRoot, req, w)
    ensures CaptureScreenshots(projectRoot, req, w, d, e) == Proceed(projectRoot, req, w, d, e)
  {
  }

  /** With no routes, `Proceed` reports the session it recorded last in the index and leaves the browser alone. */
  lemma ProceedWithoutRoutes(projectRoot: string, req: Request, w: World, d: Storage.Disk, e: Engine)
    requires !d.index.WrongShape? && |RunRoutesOf(projectRoot, req, w)| == 0
    ensures var res := Proceed(projectRoot, req, w, d, e);
      var ss := res.1.index.index.sessions;
      && res.0.sessionId == Some(RunSession(projectRoot, w).sessionId)
      && |ss| >= 1 && ss[|ss| - 1].sessionId == res.0.sessionId.value
      && res.2 == e
  {
    var (created, d1) := OpenSession(projectRoot, w, d);
    assert created == Ok(RunSession(projectRoot, w));
    assert Proceed(projectRoot, req, w, d, e) == (Report(false, NoRoutesMessage, Some(RunSession(projectRoot, w).sessionId), None, None), d1, e);
  }

  /**
   * An index without `sessions` makes session creation throw: the run
   * reports that exception, names no session, leaves the index as it was
   * and never opens a page.
   */
  lemma WrongShapeIndexAborts(projectRoot: string, req: Request, w: World, d: Storage.Disk, e: Engine)
    requires !Gated(projectRoot, req, w) && d.index.WrongShape?
    ensures var (r, d', e') := CaptureScreenshots(projectRoot, req, w, d, e);
      && !r.success && r.sessionId.None? && r.capturedRoutes.None?
      && r.errors == Some([Describe(Storage.SessionsError("push"))])
      && d'.index == d.index
      && e'.pagesOpened == e.pagesOpened
  {
  }

  /** When the browser cannot be launched no route is attempted, and the error names the launch failure. */
  lemma LaunchFailureAborts(projectRoot: string, req: Request, w: World, d: Storage.Disk, e: Engine)
    requires !Gated(projectRoot, req, w) && !d.index.WrongShape? && |RunRoutesOf(projectRoot, req, w)| > 0
    requires !e.running && w.launch.Threw?
    ensures var (r, _, e') := CaptureScreenshots(projectRoot, req, w, d, e);
      && !r.success && r.sessionId.None?
      && r.errors == Some([Describe(NewError(LaunchFailedPrefix + Describe(w.launch.error)))])
      && e'.pagesOpened == e.pagesOpened
      && !e'.running
  {
  }

  // ---------------------------------------------------------------------
  // Listing and cleanup

  /** The end index of `slice(0, limit)` on a list of `len` items. */
  function SliceEnd(len: nat, limit: int): (n: nat)
    ensures n <= len
    ensures 0 <= limit <= len ==> n == limit
    ensures limit > len ==> n == len
    ensures limit < 0 ==> n == (if len + limit > 0 then len + limit else 0)
  {
    if limit < 0 then (if len + limit > 0 then len + limit else 0)
    else if limit < len then limit else len
  }

  const DefaultListLimit: int := 10

  /**
   * `listSessions`: the first `limit` sessions, newest first, with
   * `slice`'s reading of a negative limit; nothing when the listing
   * throws.
   */
  function ListSessions(d: Storage.Disk, time: string -> int, limit: Option<int>): (out: seq<Storage.Session>)
    ensures d.index.WrongShape? ==> out == []
    ensures !d.index.WrongShape? ==> var all := Storage.GetSessions(d, time).value;
      |out| == SliceEnd(|all|, limit.GetOr(DefaultListLimit)) && out == all[..|out|]
    ensures limit.None? ==> |out| <= DefaultListLimit
    ensures forall i, j :: 0 <= i < j < |out| ==> time(out[i].timestamp) >= time(out[j].timestamp)
    ensures multiset(out) <= multiset(Storage.SessionsOf(d))
  {
    match Storage.GetSessions(d, time)
    case Err(_) => []
    case Ok(all) =>
      var n := SliceEnd(|all|, limit.GetOr(DefaultListLimit));
      NewestFirstPrefix(all, n, time);
      all[..n]
  }

  /** A prefix of a newest-first listing is newest first and draws on the listing's sessions. */
  lemma NewestFirstPrefix(all: seq<Storage.Session>, n: nat, time: string -> int)
    requires n <= |all|
    requires forall i, j :: 0 <= i < j < |all| ==> time(all[i].timestamp) >= time(all[j].timestamp)
    ensures forall i, j :: 0 <= i < j < n ==> time(all[..n][i].timestamp) >= time(all[..n][j].timestamp)
    ensures multiset(all[..n]) <= multiset(all)
  {
    assert all == all[..n] + all[n..];
    assert multiset(all) == multiset(all[..n]) + multiset(all[n..]);
  }

  /** A limit at least the number of sessions lists every session. */
  lemma ListSessionsAll(d: Storage.Disk, time: string -> int, limit: int)
    requires !d.index.WrongShape? && limit >= |Storage.SessionsOf(d)|
    ensures multiset(ListSessions(d, time, Some(limit))) == multiset(Storage.SessionsOf(d))
  {
    var all := Storage.GetSessions(d, time).value;
    assert |all| == |Storage.SessionsOf(d)| by {
      assert |multiset(all)| == |multiset(Storage.SessionsOf(d))|;
    }
    assert all[..|all|] == all;
  }

  /**
   * The cleanup command: success unless the store's cleanup throws, from
   * an index without `sessions` or from the file system (`fault`); a
   * failure changes nothing.
   */
  function CleanupCommand(c: Storage.Config, d: Storage.Disk, now: string, time: string -> int, fault: Outcome)
    : (res: (bool, string, Storage.Disk))
    ensures res.0 <==> !d.index.WrongShape? && fault.Done?
    ensures res.0 ==> res.2 == Storage.Cleanup(c, d, now, time).value
    ensures !res.0 ==> res.2 == d && StartsWith(res.1, CleanupFailedPrefix)
    ensures d.index.WrongShape? ==> res.1 == CleanupFailedPrefix + Describe(Storage.SessionsError("length"))
  {
    match Storage.Cleanup(c, d, now, time)
    case Err(err) => CleanupFailed(err, d)
    case Ok(d') =>
      match fault
      case Done => (true, CleanupDoneMessage, d')
      case Threw(err) => CleanupFailed(err, d)
  }

  function CleanupFailed(err: Thrown, d: Storage.Disk): (res: (bool, string, Storage.Disk))
    ensures !res.0 && res.2 == d && res.1 == CleanupFailedPrefix + Describe(err) && StartsWith(res.1, CleanupFailedPrefix)
  {
    StartsWithConcat(CleanupFailedPrefix, Describe(err));
    (false, CleanupFailedPrefix + Describe(err), d)
  }

  /** Running the cleanup command a second time, successfully, changes nothing more. */
  lemma CleanupCommandIdempotent(c: Storage.Config, d: Storage.Disk, now: string, later: string, time: string -> int)
    requires c.maxCommits >= 0
    ensures var d1 := CleanupCommand(c, d, now, time, Done).2;
      CleanupCommand(c, d1, later, time, Done).2 == d1
  {
    Storage.CleanupIdempotent(c, d, now, later, time);
  }
}

=== FILE: seqs.dfy ===
/**
 * Sequence facts used across the model: order-preserving subsequences,
 * `Array.prototype.filter`, and how filtering interacts with
 * concatenation, length and multiplicity.
 */
module Seqs {

  /** `a` is an initial segment of `b`. */
  predicate IsPrefix<T(==)>(a: seq<T>, b: seq<T>) {
    |a| <= |b| && b[..|a|] == a
  }

  /** `a` can be obtained from `b` by deleting elements, keeping the order of the rest. */
  predicate Subseq<T(==)>(a: seq<T>, b: seq<T>)
    decreases |b|
  {
    |a| == 0 || (|b| > 0 && ((a[0] == b[0] && Subseq(a[1..], b[1..])) || Subseq(a, b[1..])))
  }

  lemma {:induction false} SubseqRefl<T>(a: seq<T>)
    ensures Subseq(a, a)
    decreases |a|
  {
    if |a| > 0 {
      SubseqRefl(a[1..]);
    }
  }

  lemma {:induction false} SubseqTrans<T>(a: seq<T>, b: seq<T>, c: seq<T>)
    requires Subseq(a, b) && Subseq(b, c)
    ensures Subseq(a, c)
    decreases |c|
  {
    if |a| > 0 {
      if b[0] == c[0] && Subseq(b[1..], c[1..]) {
        if a[0] == b[0] && Subseq(a[1..], b[1..]) {
          SubseqTrans(a[1..], b[1..], c[1..]);
        } else {
          SubseqTrans(a, b[1..], c[1..]);
        }
      } else {
        SubseqTrans(a, b, c[1..]);
      }
    }
  }

  /** Appending one element to the larger sequence, or to both, keeps the relation. */
  lemma {:induction false} SubseqSnoc<T>(a: seq<T>, b: seq<T>, x: T)
    requires Subseq(a, b)
    ensures Subseq(a, b + [x]) && Subseq(a + [x], b + [x])
    decreases |b|
  {
    if |b| == 0 {
      assert a + [x] == [x];
      assert [x][1..] == [];
    } else {
      assert (b + [x])[1..] == b[1..] + [x];
      if |a| == 0 {
        SubseqSnoc(a, b[1..], x);
      } else if a[0] == b[0] && Subseq(a[1..], b[1..]) {
        SubseqSnoc(a[1..], b[1..], x);
        assert (a + [x])[1..] == a[1..] + [x];
      } else {
        SubseqSnoc(a, b[1..], x);
      }
    }
  }

  /** `s.filter(f)`: the elements satisfying `f`, in their original order. */
  function Filter<T>(s: seq<T>, f: T -> bool): (r: seq<T>)
    ensures |r| <= |s|
    ensures forall k :: 0 <= k < |r| ==> f(r[k]) && r[k] in s
    ensures forall k :: 0 <= k < |s| && f(s[k]) ==> s[k] in r
  {
    if |s| == 0 then []
    else if f(s[0]) then [s[0]] + Filter(s[1..], f)
    else Filter(s[1..], f)
  }

  /** The kept elements are a subsequence of the input. */
  lemma {:induction false} FilterSubseq<T>(s: seq<T>, f: T -> bool)
    ensures Subseq(Filter(s, f), s)
    decreases |s|
  {
    if |s| > 0 {
      FilterSubseq(s[1..], f);
    }
  }

  lemma {:induction false} FilterConcat<T>(a: seq<T>, b: seq<T>, f: T -> bool)
    ensures Filter(a + b, f) == Filter(a, f) + Filter(b, f)
  {
    FilterIsSpine(a + b, f);
    FilterIsSpine(a, f);
    FilterIsSpine(b, f);
    SpineConcat(a, b, f);
  }

  /**
   * The recursion of `Filter` without its postconditions, so that proofs
   * about how filtered sequences compose do not drag those along.
   */
  function FilterSpine<T>(s: seq<T>, f: T -> bool): seq<T> {
    if |s| == 0 then [] else (if f(s[0]) then [s[0]] else []) + FilterSpine(s[1..], f)
  }

  lemma {:induction false} FilterIsSpine<T>(s: seq<T>, f: T -> bool)
    ensures Filter(s, f) == FilterSpine(s, f)
    decreases |s|
  {
    if |s| > 0 {
      FilterIsSpine(s[1..], f);
    }
  }

  lemma {:induction false} SpineConcat<T>(a: seq<T>, b: seq<T>, f: T -> bool)
    ensures FilterSpine(a + b, f) == FilterSpine(a, f) + FilterSpine(b, f)
    decreases |a|
  {
    if |a| == 0 {
      assert a + b == b;
    } else {
      SpineConcat(a[1..], b, f);
      assert (a + b)[0] == a[0] && (a + b)[1..] == a[1..] + b;
      AppendAssoc(if f(a[0]) then [a[0]] else [], FilterSpine(a[1..], f), FilterSpine(b, f));
    }
  }

  /** Concatenation is associative. */
  lemma AppendAssoc<T>(p: seq<T>, q: seq<T>, r: seq<T>)
    ensures p + (q + r) == (p + q) + r
  {
  }

  /** Filtering keeps every copy of an element satisfying `f` and no copy of the others. */
  lemma {:induction false} FilterMultiplicity<T>(s: seq<T>, f: T -> bool, x: T)
    ensures multiset(Filter(s, f))[x] == if f(x) then multiset(s)[x] else 0
    decreases |s|
  {
    if |s| > 0 {
      FilterMultiplicity(s[1..], f, x);
      assert s == [s[0]] + s[1..];
    }
  }

  /** A filter that rejects everything in `s` returns nothing. */
  lemma {:induction false} FilterNone<T>(s: seq<T>, f: T -> bool)
    requires forall k :: 0 <= k < |s| ==> !f(s[k])
    ensures Filter(s, f) == []
    decreases |s|
  {
    if |s| > 0 {
      FilterNone(s[1..], f);
    }
  }

  /** A filter that accepts everything in `s` returns `s`. */
  lemma {:induction false} FilterAll<T>(s: seq<T>, f: T -> bool)
    requires forall k :: 0 <= k < |s| ==> f(s[k])
    ensures Filter(s, f) == s
    decreases |s|
  {
    if |s| > 0 {
      FilterAll(s[1..], f);
      assert s == [s[0]] + s[1..];
    }
  }

  /** Filters depend only on the multiset of the input, up to order. */
  lemma FilterPermutation<T>(s: seq<T>, t: seq<T>, f: T -> bool)
    requires multiset(s) == multiset(t)
    ensures multiset(Filter(s, f)) == multiset(Filter(t, f))
  {
    forall x
      ensures multiset(Filter(s, f))[x] == multiset(Filter(t, f))[x]
    {
      FilterMultiplicity(s, f, x);
      FilterMultiplicity(t, f, x);
    }
  }

  /** Every element is kept by exactly one of a filter and its complement. */
  lemma {:induction false} FilterSplitsLength<T>(s: seq<T>, f: T -> bool, g: T -> bool)
    requires forall x :: g(x) == !f(x)
    ensures |Filter(s, f)| + |Filter(s, g)| == |s|
    decreases |s|
  {
    if |s| > 0 {
      FilterSplitsLength(s[1..], f, g);
    }
  }

  lemma MultisetSubsetSize<T>(a: multiset<T>, b: multiset<T>)
    requires a <= b
    ensures |a| <= |b|
  {
    assert b == a + (b - a);
  }
}

=== FILE: sorting.dfy ===
/**
 * A stable sort by an integer key, the model of `Array.prototype.sort`
 * with a numeric comparator `(a, b) => key(a) - key(b)`. ECMAScript
 * requires that sort to be stable, so elements with equal keys keep
 * their relative order.
 */
module Sorting {
  import opened Seqs

  /** Keys never decrease from left to right. */
  predicate SortedBy<T>(s: seq<T>, key: T -> int) {
    forall i, j :: 0 <= i < j < |s| ==> key(s[i]) <= key(s[j])
  }

  /** In a sorted sequence, every element of a prefix has a key at most that of any element outside it. */
  lemma PrefixBelowRest<T>(s: seq<T>, key: T -> int, cut: nat, y: T)
    requires SortedBy(s, key) && cut <= |s|
    requires y in s && y !in s[..cut]
    ensures forall k :: 0 <= k < cut ==> key(s[k]) <= key(y)
  {
    var j :| 0 <= j < |s| && s[j] == y;
    assert cut <= j;
  }

  /**
   * In a sorted sequence, every element of a prefix has a key at most that
   * of any element left over once the prefix is taken out, counting
   * repeated elements separately.
   */
  lemma PrefixBelowRemainder<T>(s: seq<T>, key: T -> int, cut: nat, y: T)
    requires SortedBy(s, key) && cut <= |s|
    requires y in multiset(s) - multiset(s[..cut])
    ensures forall k :: 0 <= k < cut ==> key(s[k]) <= key(y)
  {
    assert s == s[..cut] + s[cut..];
    assert multiset(s) == multiset(s[..cut]) + multiset(s[cut..]);
    assert y in multiset(s[cut..]);
    var j :| cut <= j < |s| && s[j] == y by {
      assert y in s[cut..];
      var i :| 0 <= i < |s[cut..]| && s[cut..][i] == y;
      assert s[cut + i] == y;
    }
  }

  /** The elements of `s` whose key is `v`, in their order in `s`. */
  function KeyClass<T>(s: seq<T>, key: T -> int, v: int): seq<T> {
    Filter(s, x => key(x) == v)
  }

  lemma KeyClassConcat<T>(a: seq<T>, b: seq<T>, key: T -> int, v: int)
    ensures KeyClass(a + b, key, v) == KeyClass(a, key, v) + KeyClass(b, key, v)
  {
    FilterConcat(a, b, x => key(x) == v);
  }

  /** Every key class of a prefix is a prefix of that key class of the whole. */
  lemma PrefixKeyClasses<T>(s: seq<T>, cut: nat, key: T -> int)
    requires cut <= |s|
    ensures forall v :: IsPrefix(KeyClass(s[..cut], key, v), KeyClass(s, key, v))
  {
    forall v
      ensures IsPrefix(KeyClass(s[..cut], key, v), KeyClass(s, key, v))
    {
      assert s == s[..cut] + s[cut..];
      KeyClassConcat(s[..cut], s[cut..], key, v);
    }
  }

  /**
   * `s` with `x` placed after every element whose key is at most
   * `key(x)` (and before the larger ones, when `s` is sorted).
   */
  function InsertByKey<T>(s: seq<T>, x: T, key: T -> int): (r: seq<T>)
    ensures multiset(r) == multiset(s) + multiset{x}
    ensures |r| == |s| + 1
  {
    if |s| == 0 then [x]
    else if key(s[|s| - 1]) <= key(x) then s + [x]
    else
      assert s == s[..|s| - 1] + [s[|s| - 1]];
      InsertByKey(s[..|s| - 1], x, key) + [s[|s| - 1]]
  }

  /** Appending an element whose key bounds every key keeps a sequence sorted. */
  lemma AppendSorted<T>(s: seq<T>, y: T, key: T -> int)
    requires SortedBy(s, key)
    requires forall k :: 0 <= k < |s| ==> key(s[k]) <= key(y)
    ensures SortedBy(s + [y], key)
  {
    var t := s + [y];
    forall i, j | 0 <= i < j < |t| ensures key(t[i]) <= key(t[j]) {
      if j < |s| {
        assert t[i] == s[i] && t[j] == s[j];
      } else {
        assert t[i] == s[i];
      }
    }
  }

  lemma {:induction false} InsertKeepsSorted<T>(s: seq<T>, x: T, key: T -> int)
    requires SortedBy(s, key)
    ensures SortedBy(InsertByKey(s, x, key), key)
    ensures forall k :: 0 <= k < |InsertByKey(s, x, key)| ==>
      key(InsertByKey(s, x, key)[k]) <= key(x) || (|s| > 0 && key(InsertByKey(s, x, key)[k]) <= key(s[|s| - 1]))
    decreases |s|
  {
    if |s| == 0 {
    } else if key(s[|s| - 1]) <= key(x) {
      assert forall k :: 0 <= k < |s| ==> key(s[k]) <= key(s[|s| - 1]);
      AppendSorted(s, x, key);
    } else {
      var init := s[..|s| - 1];
      var last := s[|s| - 1];
      InsertKeepsSorted(init, x, key);
      var mid := InsertByKey(init, x, key);
      assert forall k :: 0 <= k < |mid| ==> key(mid[k]) <= key(last) by {
        forall k | 0 <= k < |mid|
          ensures key(mid[k]) <= key(last)
        {
          if key(mid[k]) > key(x) {
            assert |init| > 0 && key(mid[k]) <= key(init[|init| - 1]);
          }
        }
      }
      AppendSorted(mid, last, key);
    }
  }

  /** Inserting `x` appends it to its own key class and leaves the other classes alone. */
  lemma {:induction false} InsertKeyClass<T>(s: seq<T>, x: T, key: T -> int, v: int)
    ensures KeyClass(InsertByKey(s, x, key), key, v) == KeyClass(s, key, v) + KeyClass([x], key, v)
    decreases |s|
  {
    var f := (y: T) => key(y) == v;
    if |s| == 0 {
    } else if key(s[|s| - 1]) <= key(x) {
      FilterConcat(s, [x], f);
    } else {
      var init := s[..|s| - 1];
      var last := s[|s| - 1];
      InsertKeyClass(init, x, key, v);
      FilterConcat(InsertByKey(init, x, key), [last], f);
      FilterConcat(init, [last], f);
      assert s == init + [last];
    }
  }

  /** Inserting into a sequence with the key classes of `init` gives the key classes of `init + [x]`. */
  lemma InsertKeyClasses<T>(init: seq<T>, sorted: seq<T>, x: T, key: T -> int)
    requires forall v :: KeyClass(sorted, key, v) == KeyClass(init, key, v)
    ensures forall v :: KeyClass(InsertByKey(sorted, x, key), key, v) == KeyClass(init + [x], key, v)
  {
    forall v
      ensures KeyClass(InsertByKey(sorted, x, key), key, v) == KeyClass(init + [x], key, v)
    {
      InsertKeyClass(sorted, x, key, v);
      FilterConcat(init, [x], y => key(y) == v);
    }
  }

  /**
   * Stable insertion sort by `key`. The result is sorted, is a
   * permutation of the input, and every key class keeps its order.
   */
  function SortByKey<T>(s: seq<T>, key: T -> int): (r: seq<T>)
    ensures SortedBy(r, key)
    ensures multiset(r) == multiset(s)
    ensures |r| == |s|
    ensures forall v :: KeyClass(r, key, v) == KeyClass(s, key, v)
  {
    if |s| == 0 then []
    else
      var init := s[..|s| - 1];
      var last := s[|s| - 1];
      var sorted := SortByKey(init, key);
      InsertKeepsSorted(sorted, last, key);
      assert s == init + [last];
      InsertKeyClasses(init, sorted, last, key);
      InsertByKey(sorted, last, key)
  }

  /** When every key is equal (all timestamps unparseable, say), sorting changes nothing. */
  lemma ConstantKeyKeepsOrder<T>(s: seq<T>, key: T -> int, c: int)
    requires forall k :: 0 <= k < |s| ==> key(s[k]) == c
    ensures SortByKey(s, key) == s
  {
    var r := SortByKey(s, key);
    assert forall k :: 0 <= k < |r| ==> key(r[k]) == c by {
      forall k | 0 <= k < |r|
        ensures key(r[k]) == c
      {
        assert r[k] in multiset(s);
      }
    }
    FilterAll(r, y => key(y) == c);
    FilterAll(s, y => key(y) == c);
    assert KeyClass(r, key, c) == KeyClass(s, key, c);
  }
}

=== FILE: storage.dfy ===
/**
 * The capture-session store under `<projectRoot>/<baseDirectory>`
 * (`.vizrepo` by default): one directory per capture session below
 * `screenshots/`, each with `desktop/` and `mobile/` subdirectories, and
 * the JSON index `index.json` listing the sessions in insertion order.
 *
 * The file system is abstracted to the set of existing directory paths
 * and the state of the index file. The clock, the random fallback token
 * and the output of `git rev-parse` are parameters, and so is the
 * instant `new Date(timestamp)` denotes, as an integer sort key.
 */
module Storage {
  import opened Wrappers
  import opened Text
  import opened Seqs
  import opened Sorting
  import Git
  import opened Capture

  datatype Session = Session(
    sessionId: string,
    timestamp: string,
    commitHash: string,
    branch: string,
    desktopPath: string,
    mobilePath: string)

  datatype Index = Index(sessions: seq<Session>, lastCleanup: string)

  /**
   * `index.json`: absent; present but not JSON, so `JSON.parse` throws;
   * JSON without a `sessions` array, such as `{}`; or a stored index.
   */
  datatype IndexFile = Missing | Unparsable | WrongShape | Stored(index: Index)

  datatype Disk = Disk(dirs: set<string>, index: IndexFile)

  datatype Config = Config(projectRoot: string, maxCommits: int, baseDirectory: string)

  const DefaultMaxCommits: int := 50

  /** The options a `StorageManager` built from a bare project root ends up with. */
  function DefaultConfig(projectRoot: string): Config {
    Config(projectRoot, DefaultMaxCommits, ".vizrepo")
  }

  function BaseDir(c: Config): string {
    c.projectRoot + "/" + c.baseDirectory
  }

  function ScreenshotsDir(c: Config): string {
    BaseDir(c) + "/screenshots"
  }

  function SessionDir(c: Config, id: string): string {
    ScreenshotsDir(c) + "/" + id
  }

  /**
   * The directories `fs.mkdirSync(parent + "/" + rel, { recursive: true })`
   * creates below an existing `parent`: the target itself and, for every
   * `/` inside `rel`, the directory named by the text before it.
   */
  function MadeDirs(parent: string, rel: string): set<string> {
    {parent + "/" + rel} + set k | 0 <= k < |rel| && rel[k] == '/' :: parent + "/" + rel[..k]
  }

  /** `dir` is `root` or lies below it. */
  predicate Below(dir: string, root: string) {
    dir == root || StartsWith(dir, root + "/")
  }

  /**
   * The TypeError a reader of an index without `sessions` throws when it
   * touches `sessions.<property>`, in V8's wording.
   */
  function SessionsError(property: string): Thrown {
    ErrorValue("TypeError", "Cannot read properties of undefined (reading '" + property + "')")
  }

  /**
   * `initialize`: make sure the base and screenshots directories exist,
   * and write an empty index stamped `now` only when no index file exists.
   */
  function Initialize(c: Config, d: Disk, now: string): (d': Disk)
    ensures BaseDir(c) in d'.dirs && ScreenshotsDir(c) in d'.dirs
    ensures MadeDirs(c.projectRoot, c.baseDirectory) <= d'.dirs
    ensures d.dirs <= d'.dirs && d'.dirs - d.dirs <= MadeDirs(c.projectRoot, c.baseDirectory) + {ScreenshotsDir(c)}
    ensures d.index.Missing? ==> d'.index == Stored(Index([], now))
    ensures !d.index.Missing? ==> d'.index == d.index
  {
    Disk(d.dirs + MadeDirs(c.projectRoot, c.baseDirectory) + {ScreenshotsDir(c)},
         if d.index.Missing? then Stored(Index([], now)) else d.index)
  }

  /** Initializing twice is the same as initializing once: an existing index is never rewritten. */
  lemma InitializeIdempotent(c: Config, d: Disk, now: string, later: string)
    ensures Initialize(c, Initialize(c, d, now), later) == Initialize(c, d, now)
  {
  }

  /** The sessions of an index every reader can use: those stored, or none when the file is missing or unparsable. */
  function SessionsOf(d: Disk): seq<Session> {
    if d.index.Stored? then d.index.index.sessions else []
  }

  /**
   * `loadMetadata`: the stored index, or an empty one stamped `now` when
   * the file is missing or does not parse. JSON of the wrong shape comes
   * back as parsed; it is `None` here, since every reader then fails on
   * the missing `sessions`.
   */
  function LoadMetadata(d: Disk, now: string): (m: Option<Index>)
    ensures m.None? <==> d.index.WrongShape?
    ensures d.index.Stored? ==> m == Some(d.index.index)
    ensures m.Some? ==> m.value.sessions == SessionsOf(d)
    ensures m.Some? && !d.index.Stored? ==> m.value.lastCleanup == now
  {
    match d.index
    case Stored(ix) => Some(ix)
    case WrongShape => None
    case _ => Some(Index([], now))
  }

  /** The ISO clock reading with every `:` and `.` replaced by `-`. */
  function Timestamp(iso: string): (ts: string)
    ensures |ts| == |iso|
    ensures ':' !in ts && '.' !in ts
    ensures forall k :: 0 <= k < |iso| && (iso[k] == ':' || iso[k] == '.') ==> ts[k] == '-'
    ensures forall k :: 0 <= k < |iso| && iso[k] != ':' && iso[k] != '.' ==> ts[k] == iso[k]
  {
    ReplaceEach(iso, {':', '.'}, '-')
  }

  /**
   * The record `createCaptureSession` builds from the clock reading `now`,
   * the outcomes of the two git calls and the random fallback `token`.
   * The private git getters of the store behave as the safe getters of
   * `GitManager`, so those are used.
   */
  function NewSession(c: Config, now: string, hashOut: Result<string, Thrown>,
                      branchOut: Result<string, Thrown>, token: string): (s: Session)
    ensures s.timestamp == Timestamp(now)
    ensures s.sessionId == s.commitHash + "_" + s.timestamp + "_" + s.branch
    ensures s.desktopPath == SessionDir(c, s.sessionId) + "/desktop"
    ensures s.mobilePath == SessionDir(c, s.sessionId) + "/mobile"
    ensures branchOut.Err? ==> s.branch == "unknown"
    ensures branchOut.Ok? ==> s.branch == Trim(branchOut.value)
    ensures hashOut.Err? ==> s.commitHash == token
    ensures hashOut.Ok? ==> s.commitHash == Trim(hashOut.value)
  {
    var ts := Timestamp(now);
    var hash := Git.SafeGetCommitHash(hashOut, token);
    var branch := Git.SafeGetBranch(branchOut);
    var id := hash + "_" + ts + "_" + branch;
    var dir := SessionDir(c, id);
    Session(id, ts, hash, branch, dir + "/desktop", dir + "/mobile")
  }

  /**
   * `createCaptureSession`: initialize, create the session directory with
   * `mkdir -p` and its viewport subdirectories, and append the session to
   * the index (`addSessionToMetadata`). On an index without `sessions`
   * the `push` throws after the directories were made.
   */
  function CreateCaptureSession(c: Config, d: Disk, now: string, hashOut: Result<string, Thrown>,
                                branchOut: Result<string, Thrown>, token: string): (res: (Result<Session, Thrown>, Disk))
    ensures var s := NewSession(c, now, hashOut, branchOut, token);
      res.1.dirs == d.dirs + MadeDirs(c.projectRoot, c.baseDirectory) + {ScreenshotsDir(c)}
                    + MadeDirs(ScreenshotsDir(c), s.sessionId) + {s.desktopPath, s.mobilePath}
    ensures d.index.WrongShape? ==> res.0 == Err(SessionsError("push")) && res.1.index == d.index
    ensures !d.index.WrongShape? ==> var s := NewSession(c, now, hashOut, branchOut, token);
      && res.0 == Ok(s)
      && res.1.index.Stored?
      && (d.index.Stored? ==> res.1.index.index == Index(d.index.index.sessions + [s], d.index.index.lastCleanup))
      && (!d.index.Stored? ==> res.1.index.index == Index([s], now))
  {
    var d1 := Initialize(c, d, now);
    assert d1.dirs == d.dirs + MadeDirs(c.projectRoot, c.baseDirectory) + {ScreenshotsDir(c)};
    var s := NewSession(c, now, hashOut, branchOut, token);
    var dirs := d1.dirs + MadeDirs(ScreenshotsDir(c), s.sessionId) + {s.desktopPath, s.mobilePath};
    if d1.index.WrongShape? then (Err(SessionsError("push")), Disk(dirs, d1.index))
    else
      var md := LoadMetadata(d1, now).value;
      assert md == (if d.index.Stored? then d.index.index else Index([], now));
      (Ok(s), Disk(dirs, Stored(Index(md.sessions + [s], md.lastCleanup))))
  }

  /** Creating a session adds exactly one entry, at the end, and keeps every earlier entry where it was. */
  lemma CreateAppendsOnly(c: Config, d: Disk, now: string, hashOut: Result<string, Thrown>,
                          branchOut: Result<string, Thrown>, token: string)
    requires !d.index.WrongShape?
    ensures var (r, d') := CreateCaptureSession(c, d, now, hashOut, branchOut, token);
      var before := SessionsOf(d);
      var after := SessionsOf(d');
      |after| == |before| + 1 && after[..|before|] == before && after[|before|] == r.value
  {
    var (r, d') := CreateCaptureSession(c, d, now, hashOut, branchOut, token);
    assert (SessionsOf(d) + [r.value])[..|SessionsOf(d)|] == SessionsOf(d);
  }

  /**
   * A branch name with a `/`, such as `feature/login`, makes the session
   * id a nested path: `mkdir -p` also creates the directory named by the
   * id up to that `/`, a directory other than the session's own.
   */
  lemma SlashedBranchMakesParent(c: Config, d: Disk, now: string, hashOut: Result<string, Thrown>,
                                 branchOut: Result<string, Thrown>, token: string, j: nat)
    requires branchOut.Ok? && j < |Trim(branchOut.value)| && Trim(branchOut.value)[j] == '/'
    ensures var id := NewSession(c, now, hashOut, branchOut, token).sessionId;
      var k := |id| - |Trim(branchOut.value)| + j;
      && 0 <= k < |id| && id[k] == '/'
      && SessionDir(c, id[..k]) in CreateCaptureSession(c, d, now, hashOut, branchOut, token).1.dirs
      && SessionDir(c, id[..k]) != SessionDir(c, id)
  {
    var s := NewSession(c, now, hashOut, branchOut, token);
    assert s.branch == Trim(branchOut.value);
    var dirs := CreateCaptureSession(c, d, now, hashOut, branchOut, token).1.dirs;
    SessionPathsMade(c, d, now, hashOut, branchOut, token);
    SlashedSessionParent(c, s, dirs, j);
  }

  /** The parent directory a `/` in a session's branch gives, once `mkdir -p` made the session's path. */
  lemma SlashedSessionParent(c: Config, s: Session, dirs: set<string>, j: nat)
    requires s.sessionId == s.commitHash + "_" + s.timestamp + "_" + s.branch
    requires j < |s.branch| && s.branch[j] == '/'
    requires MadeDirs(ScreenshotsDir(c), s.sessionId) <= dirs
    ensures var k := |s.sessionId| - |s.branch| + j;
      && 0 <= k < |s.sessionId| && s.sessionId[k] == '/'
      && SessionDir(c, s.sessionId[..k]) in dirs
      && SessionDir(c, s.sessionId[..k]) != SessionDir(c, s.sessionId)
  {
    SlashInSessionId(s, j);
    var k := |s.sessionId| - |s.branch| + j;
    MadeDirsHasParent(ScreenshotsDir(c), s.sessionId, k);
  }

  /** Every directory `mkdir -p` makes for the session's path is on the disk afterwards. */
  lemma SessionPathsMade(c: Config, d: Disk, now: string, hashOut: Result<string, Thrown>,
                         branchOut: Result<string, Thrown>, token: string)
    ensures MadeDirs(ScreenshotsDir(c), NewSession(c, now, hashOut, branchOut, token).sessionId)
         <= CreateCaptureSession(c, d, now, hashOut, branchOut, token).1.dirs
  {
  }

  /** A `/` in the branch is a `/` in the id, the same distance from the id's end. */
  lemma SlashInSessionId(s: Session, j: nat)
    requires s.sessionId == s.commitHash + "_" + s.timestamp + "_" + s.branch
    requires j < |s.branch| && s.branch[j] == '/'
    ensures |s.branch| <= |s.sessionId| && s.sessionId[|s.sessionId| - |s.branch| + j] == '/'
  {
    var pre := s.commitHash + "_" + s.timestamp + "_";
    assert s.sessionId == pre + s.branch;
    assert s.sessionId[|pre| + j] == s.branch[j];
  }

  /** `mkdir -p` makes the directory named by the path up to each `/`, and that is not the target. */
  lemma MadeDirsHasParent(parent: string, rel: string, k: nat)
    requires k < |rel| && rel[k] == '/'
    ensures parent + "/" + rel[..k] in MadeDirs(parent, rel)
    ensures parent + "/" + rel[..k] != parent + "/" + rel
  {
    assert |parent + "/" + rel[..k]| < |parent + "/" + rel|;
  }

  /** The characters `routeToFileName` keeps: `[a-zA-Z0-9_-]`. */
  predicate IsSafeChar(ch: char) {
    'a' <= ch <= 'z' || 'A' <= ch <= 'Z' || '0' <= ch <= '9' || ch == '_' || ch == '-'
  }

  /**
   * `routeToFileName`: drop one leading and one trailing `/`, turn the
   * remaining `/` into `_`, delete every other unsafe character, and use
   * `home` when nothing is left.
   */
  function RouteToFileName(route: string): (name: string)
    ensures |name| > 0
    ensures forall k :: 0 <= k < |name| ==> IsSafeChar(name[k])
  {
    var s1 := if StartsWith(route, "/") then route[1..] else route;
    var s2 := if EndsWith(s1, "/") then s1[..|s1| - 1] else s1;
    var s3 := ReplaceEach(s2, {'/'}, '_');
    var s4 := Filter(s3, IsSafeChar);
    if s4 == "" then "home" else s4
  }

  lemma {:induction false} ReplaceEachAbsent(s: string, from: set<char>, to: char)
    requires forall k :: 0 <= k < |s| ==> s[k] !in from
    ensures ReplaceEach(s, from, to) == s
  {
  }

  /** Sanitising leaves a string of safe characters alone apart from the empty one. */
  lemma SafeNameUnchanged(name: string)
    requires |name| > 0
    requires forall k :: 0 <= k < |name| ==> IsSafeChar(name[k])
    ensures RouteToFileName(name) == name
  {
    assert name[..1] != "/" by {
      assert IsSafeChar(name[..1][0]);
    }
    assert name[|name| - 1..] != "/" by {
      assert IsSafeChar(name[|name| - 1..][0]);
    }
    ReplaceEachAbsent(name, {'/'}, '_');
    FilterAll(name, IsSafeChar);
  }

  /** Sanitising twice changes nothing. */
  lemma RouteToFileNameIdempotent(route: string)
    ensures RouteToFileName(RouteToFileName(route)) == RouteToFileName(route)
  {
    SafeNameUnchanged(RouteToFileName(route));
  }

  /**
   * A route written as `/` followed by safe characters and inner `/`
   * separators maps to that text with each `/` turned into `_`, or to
   * `home` for the root.
   */
  lemma SafeRouteFileName(w: string)
    requires forall k :: 0 <= k < |w| ==> IsSafeChar(w[k]) || w[k] == '/'
    requires !EndsWith(w, "/")
    ensures RouteToFileName("/" + w) == if w == "" then "home" else ReplaceEach(w, {'/'}, '_')
  {
    var route := "/" + w;
    assert StartsWith(route, "/");
    assert route[1..] == w;
    var s3 := ReplaceEach(w, {'/'}, '_');
    FilterAll(s3, IsSafeChar);
  }

  lemma RootRouteFileName()
    ensures RouteToFileName("/") == "home"
  {
    assert StartsWith("/", "/");
    assert "/"[1..] == "";
  }

  /** A one-segment route such as `/about` maps to its segment, `about`. */
  lemma PlainSegmentFileName(w: string)
    requires |w| > 0
    requires forall k :: 0 <= k < |w| ==> IsSafeChar(w[k])
    ensures RouteToFileName("/" + w) == w
  {
    assert !EndsWith(w, "/") by {
      assert IsSafeChar(w[|w| - 1..][0]);
    }
    SafeRouteFileName(w);
    ReplaceEachAbsent(w, {'/'}, '_');
  }

  /**
   * A dynamic segment between two plain segments, as in
   * `/products/[id]/reviews`: the brackets are dropped and both
   * separators become `_`, giving `products_id_reviews`.
   */
  lemma DynamicSegmentFileName(a: string, id: string, b: string)
    requires forall k :: 0 <= k < |a| ==> IsSafeChar(a[k])
    requires forall k :: 0 <= k < |id| ==> IsSafeChar(id[k])
    requires forall k :: 0 <= k < |b| ==> IsSafeChar(b[k])
    requires |b| > 0
    ensures RouteToFileName("/" + a + "/[" + id + "]/" + b) == a + "_" + id + "_" + b
  {
    var route := "/" + a + "/[" + id + "]/" + b;
    var s1 := a + "/[" + id + "]/" + b;
    assert StartsWith(route, "/") && route[1..] == s1 by {
      assert route == "/" + s1;
    }
    assert !EndsWith(s1, "/") by {
      assert s1[|s1| - 1] == b[|b| - 1];
    }
    DynamicSegmentReplace(a, id, b);
    DynamicSegmentFilter(a, id, b);
    FileNameFromParts(route, s1, a + "_[" + id + "]_" + b);
  }

  lemma FileNameFromParts(route: string, s1: string, s3: string)
    requires StartsWith(route, "/") && route[1..] == s1 && !EndsWith(s1, "/")
    requires ReplaceEach(s1, {'/'}, '_') == s3
    requires Filter(s3, IsSafeChar) != ""
    ensures RouteToFileName(route) == Filter(s3, IsSafeChar)
  {
  }

  /** The `/` separators around a dynamic segment become `_`. */
  lemma DynamicSegmentReplace(a: string, id: string, b: string)
    requires forall k :: 0 <= k < |a| ==> IsSafeChar(a[k])
    requires forall k :: 0 <= k < |id| ==> IsSafeChar(id[k])
    requires forall k :: 0 <= k < |b| ==> IsSafeChar(b[k])
    ensures ReplaceEach(a + "/[" + id + "]/" + b, {'/'}, '_') == a + "_[" + id + "]_" + b
  {
    ReplaceEachAbsent(a, {'/'}, '_');
    ReplaceEachAbsent(id, {'/'}, '_');
    ReplaceEachAbsent(b, {'/'}, '_');
    assert ReplaceEach("/[", {'/'}, '_') == "_[";
    assert ReplaceEach("]/", {'/'}, '_') == "]_";
    ReplaceEachConcat(a, "/[", {'/'}, '_');
    ReplaceEachConcat(a + "/[", id, {'/'}, '_');
    ReplaceEachConcat(a + "/[" + id, "]/", {'/'}, '_');
    ReplaceEachConcat(a + "/[" + id + "]/", b, {'/'}, '_');
  }

  /** Sanitising deletes the brackets of a dynamic segment and keeps the rest. */
  lemma DynamicSegmentFilter(a: string, id: string, b: string)
    requires forall k :: 0 <= k < |a| ==> IsSafeChar(a[k])
    requires forall k :: 0 <= k < |id| ==> IsSafeChar(id[k])
    requires forall k :: 0 <= k < |b| ==> IsSafeChar(b[k])
    ensures Filter(a + "_[" + id + "]_" + b, IsSafeChar) == a + "_" + id + "_" + b
  {
    var p1 := a + "_";
    var p2 := p1 + "[";
    var p3 := p2 + id;
    var p4 := p3 + "]";
    var p5 := p4 + "_";
    assert a + "_[" + id + "]_" + b == p5 + b;
    SafeFilterFixed(a);
    FilterKeepsSafe(a, "_");
    FilterDropsUnsafe(p1, '[');
    FilterKeepsSafe(p2, id);
    FilterDropsUnsafe(p3, ']');
    FilterKeepsSafe(p4, "_");
    FilterKeepsSafe(p5, b);
  }

  /** Appending safe characters appends them to the sanitised text. */
  lemma FilterKeepsSafe(p: string, t: string)
    requires forall k :: 0 <= k < |t| ==> IsSafeChar(t[k])
    ensures Filter(p + t, IsSafeChar) == Filter(p, IsSafeChar) + t
  {
    SafeFilterFixed(t);
    FilterConcat(p, t, IsSafeChar);
  }

  /** Appending an unsafe character leaves the sanitised text as it was. */
  lemma FilterDropsUnsafe(p: string, ch: char)
    requires !IsSafeChar(ch)
    ensures Filter(p + [ch], IsSafeChar) == Filter(p, IsSafeChar)
  {
    FilterConcat(p, [ch], IsSafeChar);
  }

  lemma {:induction false} SafeFilterFixed(s: string)
    requires forall k :: 0 <= k < |s| ==> IsSafeChar(s[k])
    ensures Filter(s, IsSafeChar) == s
  {
    FilterAll(s, IsSafeChar);
  }

  /** Sanitising is not injective: `/a/b` and `/a_b` share a file name, for any plain segments `a` and `b`. */
  lemma NestedRouteCollision(a: string, b: string)
    requires |a| > 0 && forall k :: 0 <= k < |a| ==> IsSafeChar(a[k])
    requires |b| > 0 && forall k :: 0 <= k < |b| ==> IsSafeChar(b[k])
    ensures RouteToFileName("/" + a + "/" + b) == RouteToFileName("/" + a + "_" + b) == a + "_" + b
  {
    assert "/" + a + "/" + b == "/" + (a + "/" + b);
    assert "/" + a + "_" + b == "/" + (a + "_" + b);
    SlashJoinFileName(a, b);
    UnderscoreJoinFileName(a, b);
  }

  lemma SlashJoinFileName(a: string, b: string)
    requires forall k :: 0 <= k < |a| ==> IsSafeChar(a[k])
    requires |b| > 0 && forall k :: 0 <= k < |b| ==> IsSafeChar(b[k])
    ensures RouteToFileName("/" + (a + "/" + b)) == a + "_" + b
  {
    var w := a + "/" + b;
    assert forall k :: 0 <= k < |w| ==> IsSafeChar(w[k]) || w[k] == '/' by {
      forall k | 0 <= k < |w| ensures IsSafeChar(w[k]) || w[k] == '/' {
        if k > |a| { assert w[k] == b[k - |a| - 1]; }
      }
    }
    assert !EndsWith(w, "/") by {
      assert w[|w| - 1] == b[|b| - 1];
    }
    SafeRouteFileName(w);
    ReplaceSlashJoin(a, b);
  }

  lemma ReplaceSlashJoin(a: string, b: string)
    requires forall k :: 0 <= k < |a| ==> IsSafeChar(a[k])
    requires forall k :: 0 <= k < |b| ==> IsSafeChar(b[k])
    ensures ReplaceEach(a + "/" + b, {'/'}, '_') == a + "_" + b
  {
    ReplaceEachAbsent(a, {'/'}, '_');
    ReplaceEachAbsent(b, {'/'}, '_');
    assert ReplaceEach("/", {'/'}, '_') == "_";
    ReplaceEachConcat(a, "/", {'/'}, '_');
    ReplaceEachConcat(a + "/", b, {'/'}, '_');
  }

  lemma UnderscoreJoinFileName(a: string, b: string)
    requires forall k :: 0 <= k < |a| ==> IsSafeChar(a[k])
    requires forall k :: 0 <= k < |b| ==> IsSafeChar(b[k])
    ensures RouteToFileName("/" + (a + "_" + b)) == a + "_" + b
  {
    var v := a + "_" + b;
    assert forall k :: 0 <= k < |v| ==> IsSafeChar(v[k]) by {
      forall k | 0 <= k < |v| ensures IsSafeChar(v[k]) {
        if k > |a| { assert v[k] == b[k - |a| - 1]; }
      }
    }
    PlainSegmentFileName(v);
  }

  /** Sanitising is not injective: the root and `/home` share a file name. */
  lemma HomeRouteCollision()
    ensures RouteToFileName("/") == RouteToFileName("/home")
  {
    RootRouteFileName();
    assert StartsWith("/home", "/");
    assert "/home"[1..] == "home";
    assert !EndsWith("home", "/");
    assert ReplaceEach("home", {'/'}, '_') == "home";
    assert Filter("home", IsSafeChar) == "home";
  }

  /** The file name of one screenshot: sanitised route, `_`, `<width>x<height>`, `.jpg`. */
  function ScreenshotFileName(route: string, width: nat, height: nat): string {
    RouteToFileName(route) + "_" + NatToString(width) + "x" + NatToString(height) + ".jpg"
  }

  /** `generateScreenshotPath`: the viewport's directory of the session, then the screenshot file name. */
  function ScreenshotPath(s: Session, route: string, kind: ViewportName, width: nat, height: nat): (p: string)
    ensures var dir := if kind == Desktop then s.desktopPath else s.mobilePath;
      StartsWith(p, dir + "/") && p[|dir| + 1..] == ScreenshotFileName(route, width, height)
  {
    var dir := if kind == Desktop then s.desktopPath else s.mobilePath;
    var p := dir + "/" + ScreenshotFileName(route, width, height);
    assert p[..|dir| + 1] == dir + "/";
    p
  }

  datatype ShotName = ShotName(name: string, width: nat, height: nat)

  /** Reads `<width>x<height>` back. */
  function ParseDimensions(dims: string): Option<(nat, nat)> {
    match IndexOf(dims, 'x')
    case None => None
    case Some(j) =>
      match (ParseNat(dims[..j]), ParseNat(dims[j + 1..]))
      case (Some(w), Some(h)) => Some((w, h))
      case _ => None
  }

  /** Reads a screenshot file name back: the text before the last `_`, then `<width>x<height>.jpg`. */
  function ParseScreenshotFileName(f: string): Option<ShotName> {
    if !EndsWith(f, ".jpg") then None
    else
      var core := f[..|f| - 4];
      match LastIndexOf(core, '_')
      case None => None
      case Some(i) =>
        match ParseDimensions(core[i + 1..])
        case None => None
        case Some(wh) => Some(ShotName(core[..i], wh.0, wh.1))
  }

  lemma DimensionsRoundTrip(width: nat, height: nat)
    ensures ParseDimensions(NatToString(width) + ['x'] + NatToString(height)) == Some((width, height))
  {
    var ws := NatToString(width);
    var hs := NatToString(height);
    var dims := ws + ['x'] + hs;
    IndexOfMarked(ws, 'x', hs);
    assert dims[..|ws|] == ws && dims[|ws| + 1..] == hs;
    ParseNatToString(width);
    ParseNatToString(height);
  }

  /** Any name followed by `_<width>x<height>.jpg` reads back as that name and size. */
  lemma ShotNameRoundTrip(name: string, width: nat, height: nat)
    ensures ParseScreenshotFileName(name + "_" + NatToString(width) + "x" + NatToString(height) + ".jpg")
         == Some(ShotName(name, width, height))
  {
    var dims := NatToString(width) + ['x'] + NatToString(height);
    var core := name + ['_'] + dims;
    var f := name + "_" + NatToString(width) + "x" + NatToString(height) + ".jpg";
    ShotNameParts(name, NatToString(width), NatToString(height));
    EndsWithConcat(core, ".jpg");
    assert LastIndexOf(core, '_') == Some(|name|) by {
      assert '_' !in dims;
      LastIndexOfMarked(name, '_', dims);
    }
    assert core[..|name|] == name && core[|name| + 1..] == dims;
    DimensionsRoundTrip(width, height);
    ParseFromParts(f, core, |name|, dims, width, height);
  }

  lemma ShotNameParts(name: string, ws: string, hs: string)
    ensures name + "_" + ws + "x" + hs + ".jpg" == (name + ['_'] + (ws + ['x'] + hs)) + ".jpg"
  {
  }

  lemma ParseFromParts(f: string, core: string, i: nat, dims: string, width: nat, height: nat)
    requires EndsWith(f, ".jpg") && f[..|f| - 4] == core
    requires LastIndexOf(core, '_') == Some(i) && core[i + 1..] == dims
    requires ParseDimensions(dims) == Some((width, height))
    ensures ParseScreenshotFileName(f) == Some(ShotName(core[..i], width, height))
  {
  }

  /** The screenshot file name determines the sanitised route and the viewport size it was made from. */
  lemma ScreenshotFileNameRoundTrip(route: string, width: nat, height: nat)
    ensures ParseScreenshotFileName(ScreenshotFileName(route, width, height))
         == Some(ShotName(RouteToFileName(route), width, height))
  {
    ShotNameRoundTrip(RouteToFileName(route), width, height);
  }

  /** The sort key of a session: the instant its timestamp denotes. */
  function ByTime(time: string -> int): Session -> int {
    (s: Session) => time(s.timestamp)
  }

  /** The sort key that puts later sessions first. */
  function NewestFirst(time: string -> int): Session -> int {
    (s: Session) => -time(s.timestamp)
  }

  function IdsOf(ss: seq<Session>): set<string> {
    set s | s in ss :: s.sessionId
  }

  /** Keeps the sessions whose id is not among `ids`. */
  function Kept(ids: set<string>): Session -> bool {
    (s: Session) => s.sessionId !in ids
  }

  predicate UniqueIds(ss: seq<Session>) {
    forall i, j :: 0 <= i < j < |ss| ==> ss[i].sessionId != ss[j].sessionId
  }

  /** How many sessions `slice(0, n - max)` selects once `n > max`: `n - max`, clamped to `n`. */
  function EvictionCount(n: nat, max: int): (cut: nat)
    requires n > max
    ensures cut <= n
    ensures max >= 0 ==> cut == n - max
    ensures max < 0 ==> cut == n
  {
    if n - max < n then n - max else n
  }

  /**
   * The sessions `cleanup` evicts: the leading `n - max` of the stable
   * sort by time, oldest first. Among sessions with the same time the
   * earliest in the index go first.
   */
  function Evicted(ss: seq<Session>, max: int, time: string -> int): (out: seq<Session>)
    requires |ss| > max
    ensures |out| == EvictionCount(|ss|, max)
    ensures multiset(out) <= multiset(ss)
    ensures SortedBy(out, ByTime(time))
    ensures forall k, y :: 0 <= k < |out| && y in ss && y.sessionId !in IdsOf(out) ==>
      time(out[k].timestamp) <= time(y.timestamp)
    ensures forall k, y :: 0 <= k < |out| && y in multiset(ss) - multiset(out) ==>
      time(out[k].timestamp) <= time(y.timestamp)
    ensures forall v :: IsPrefix(KeyClass(out, ByTime(time), v), KeyClass(ss, ByTime(time), v))
  {
    var sorted := SortByKey(ss, ByTime(time));
    var cut := EvictionCount(|ss|, max);
    var out := sorted[..cut];
    assert sorted == out + sorted[cut..];
    EvictedBelowRest(ss, sorted, cut, time);
    EvictedBelowRemainder(ss, sorted, cut, time);
    PrefixKeyClasses(sorted, cut, ByTime(time));
    out
  }

  /** No session whose id was not taken from a sorted copy is earlier than a taken one. */
  lemma EvictedBelowRest(ss: seq<Session>, sorted: seq<Session>, cut: nat, time: string -> int)
    requires SortedBy(sorted, ByTime(time)) && multiset(sorted) == multiset(ss) && cut <= |sorted|
    ensures forall k, y :: 0 <= k < cut && y in ss && y.sessionId !in IdsOf(sorted[..cut]) ==>
      time(sorted[..cut][k].timestamp) <= time(y.timestamp)
  {
    forall k, y | 0 <= k < cut && y in ss && y.sessionId !in IdsOf(sorted[..cut])
      ensures time(sorted[..cut][k].timestamp) <= time(y.timestamp)
    {
      assert y in multiset(sorted);
      PrefixBelowRest(sorted, ByTime(time), cut, y);
      assert sorted[..cut][k] == sorted[k];
    }
  }

  /**
   * Taking a sorted copy's first `cut` sessions leaves no remaining
   * session earlier than a taken one, even among sessions that are equal
   * (as two sessions with the same id made in the same millisecond are).
   */
  lemma EvictedBelowRemainder(ss: seq<Session>, sorted: seq<Session>, cut: nat, time: string -> int)
    requires SortedBy(sorted, ByTime(time)) && multiset(sorted) == multiset(ss) && cut <= |sorted|
    ensures forall k, y :: 0 <= k < cut && y in multiset(ss) - multiset(sorted[..cut]) ==>
      time(sorted[..cut][k].timestamp) <= time(y.timestamp)
  {
    forall k, y | 0 <= k < cut && y in multiset(ss) - multiset(sorted[..cut])
      ensures time(sorted[..cut][k].timestamp) <= time(y.timestamp)
    {
      PrefixBelowRemainder(sorted, ByTime(time), cut, y);
      assert sorted[..cut][k] == sorted[k];
    }
  }

  /**
   * When every timestamp denotes the same instant (in particular when
   * none parses, so every comparison is `NaN` and counts as equal),
   * `cleanup` evicts the sessions at the front of the index.
   */
  lemma UniformTimesEvictFirst(ss: seq<Session>, max: int, time: string -> int, t: int)
    requires |ss| > max
    requires forall k :: 0 <= k < |ss| ==> time(ss[k].timestamp) == t
    ensures Evicted(ss, max, time) == ss[..EvictionCount(|ss|, max)]
  {
    ConstantKeyKeepsOrder(ss, ByTime(time), t);
  }

  /** The directories under any of `roots`, the roots included. */
  predicate UnderAny(p: string, roots: set<string>) {
    exists r :: r in roots && Below(p, r)
  }

  /** `fs.rm(dir, { recursive: true, force: true })` for every root: the roots and everything below them go. */
  function RemoveTrees(dirs: set<string>, roots: set<string>): (out: set<string>)
    ensures out <= dirs
    ensures forall r :: r in roots ==> r !in out
    ensures forall p :: p in dirs && !UnderAny(p, roots) ==> p in out
  {
    assert forall r :: r in roots ==> UnderAny(r, roots) by {
      forall r | r in roots ensures UnderAny(r, roots) {
        assert Below(r, r);
      }
    }
    set p | p in dirs && !UnderAny(p, roots)
  }

  /** The index entries left once the sessions whose id is in `ids` go, in index order. */
  function Prune(ss: seq<Session>, ids: set<string>): (out: seq<Session>)
    ensures Subseq(out, ss)
    ensures forall k :: 0 <= k < |out| ==> out[k].sessionId !in ids
    ensures forall k :: 0 <= k < |ss| && ss[k].sessionId !in ids ==> ss[k] in out
  {
    FilterSubseq(ss, Kept(ids));
    Filter(ss, Kept(ids))
  }

  /** The session directories of the sessions whose id is in `ids`. */
  function SessionRoots(c: Config, ids: set<string>): set<string> {
    set id | id in ids :: SessionDir(c, id)
  }

  /**
   * `cleanup`: a no-op while the index holds at most `maxCommits`
   * sessions. Otherwise evict the oldest, remove their directory trees,
   * keep the other sessions in index order and stamp `lastCleanup`.
   * An index without `sessions` makes the length test throw.
   */
  function Cleanup(c: Config, d: Disk, now: string, time: string -> int): (r: Result<Disk, Thrown>)
    ensures d.index.WrongShape? ==> r == Err(SessionsError("length"))
    ensures !d.index.WrongShape? && |SessionsOf(d)| <= c.maxCommits ==> r == Ok(d)
    ensures !d.index.WrongShape? && |SessionsOf(d)| > c.maxCommits ==>
      var ss := SessionsOf(d);
      var ids := IdsOf(Evicted(ss, c.maxCommits, time));
      && r.Ok?
      && r.value.index.Stored?
      && r.value.index.index.lastCleanup == now
      && Subseq(r.value.index.index.sessions, ss)
      && (forall k :: 0 <= k < |r.value.index.index.sessions| ==> r.value.index.index.sessions[k].sessionId !in ids)
      && (forall k :: 0 <= k < |ss| && ss[k].sessionId !in ids ==> ss[k] in r.value.index.index.sessions)
      && r.value.dirs <= d.dirs
      && (forall id :: id in ids ==> SessionDir(c, id) !in r.value.dirs)
      && (forall p :: p in d.dirs && !UnderAny(p, SessionRoots(c, ids)) ==> p in r.value.dirs)
  {
    match LoadMetadata(d, now)
    case None => Err(SessionsError("length"))
    case Some(md) =>
      if |md.sessions| <= c.maxCommits then Ok(d)
      else
        var ids := IdsOf(Evicted(md.sessions, c.maxCommits, time));
        var roots := SessionRoots(c, ids);
        Ok(Disk(RemoveTrees(d.dirs, roots), Stored(Index(Prune(md.sessions, ids), now))))
  }

  /**
   * As written, `cleanup` removes only the evicted session's own
   * directory. When the id holds a `/` (a branch such as `feature/login`),
   * the directory `mkdir -p` made for the id up to that `/` survives,
   * unless it lies below another evicted session's directory.
   */
  lemma CleanupLeavesBranchParent(c: Config, d: Disk, now: string, time: string -> int, id: string, k: nat)
    requires !d.index.WrongShape? && |SessionsOf(d)| > c.maxCommits
    requires id in IdsOf(Evicted(SessionsOf(d), c.maxCommits, time))
    requires k < |id| && id[k] == '/' && SessionDir(c, id[..k]) in d.dirs
    requires forall other :: other in IdsOf(Evicted(SessionsOf(d), c.maxCommits, time)) ==> !Below(id[..k], other)
    ensures SessionDir(c, id) !in Cleanup(c, d, now, time).value.dirs
    ensures SessionDir(c, id[..k]) in Cleanup(c, d, now, time).value.dirs
  {
    var ids := IdsOf(Evicted(SessionsOf(d), c.maxCommits, time));
    var p := SessionDir(c, id[..k]);
    forall r | r in SessionRoots(c, ids) ensures !Below(p, r) {
      var other :| other in ids && r == SessionDir(c, other);
      NotBelowUnderPrefix(ScreenshotsDir(c) + "/", id[..k], other);
    }
  }

  /** Prefixing both sides with the same text keeps one path out from under the other. */
  lemma NotBelowUnderPrefix(pre: string, a: string, b: string)
    requires !Below(a, b)
    ensures !Below(pre + a, pre + b)
  {
    assert (pre + a)[|pre|..] == a;
    assert pre + b + "/" == pre + (b + "/");
    assert forall n :: |pre| <= n <= |pre + a| ==> (pre + a)[..n][|pre|..] == a[..n - |pre|];
  }

  lemma {:induction false} UniqueIdsAtMostOnce(ss: seq<Session>, x: Session)
    requires UniqueIds(ss)
    ensures multiset(ss)[x] <= 1
    decreases |ss|
  {
    if |ss| > 0 {
      UniqueIdsAtMostOnce(ss[1..], x);
      assert ss == [ss[0]] + ss[1..];
    }
  }

  /**
   * Removing the sessions whose id belongs to `removed` drops at least
   * `|removed|` of them, and exactly that many when ids are unique.
   */
  lemma KeptCount(ss: seq<Session>, removed: seq<Session>)
    requires multiset(removed) <= multiset(ss)
    ensures |Prune(ss, IdsOf(removed))| <= |ss| - |removed|
    ensures UniqueIds(ss) ==> |Prune(ss, IdsOf(removed))| == |ss| - |removed|
  {
    var ids := IdsOf(removed);
    var f := Kept(ids);
    var g := (x: Session) => !f(x);
    FilterSplitsLength(ss, f, g);
    var dropped := Filter(ss, g);
    assert multiset(removed) <= multiset(dropped) by {
      forall x ensures multiset(removed)[x] <= multiset(dropped)[x] {
        FilterMultiplicity(ss, g, x);
        if x in removed {
          assert x.sessionId in ids;
        }
      }
    }
    MultisetSubsetSize(multiset(removed), multiset(dropped));
    if UniqueIds(ss) {
      assert multiset(dropped) <= multiset(removed) by {
        forall x ensures multiset(dropped)[x] <= multiset(removed)[x] {
          FilterMultiplicity(ss, g, x);
          UniqueIdsAtMostOnce(ss, x);
          if g(x) && x in ss {
            var r :| r in removed && r.sessionId == x.sessionId;
            assert r in multiset(ss);
            var i :| 0 <= i < |ss| && ss[i] == r;
            var j :| 0 <= j < |ss| && ss[j] == x;
            assert i == j;
          }
        }
      }
      MultisetSubsetSize(multiset(dropped), multiset(removed));
    }
  }

  /** After `cleanup`, at most `maxCommits` sessions remain in the index. */
  lemma CleanupBound(c: Config, d: Disk, now: string, time: string -> int)
    requires c.maxCommits >= 0
    ensures Cleanup(c, d, now, time).Ok? ==> |SessionsOf(Cleanup(c, d, now, time).value)| <= c.maxCommits
  {
    var ss := SessionsOf(d);
    if !d.index.WrongShape? && |ss| > c.maxCommits {
      KeptCount(ss, Evicted(ss, c.maxCommits, time));
    }
  }

  /** With unique session ids, an evicting `cleanup` leaves exactly `maxCommits` sessions. */
  lemma CleanupKeepsExactlyMax(c: Config, d: Disk, now: string, time: string -> int)
    requires c.maxCommits >= 0 && !d.index.WrongShape?
    requires UniqueIds(SessionsOf(d))
    requires |SessionsOf(d)| > c.maxCommits
    ensures |SessionsOf(Cleanup(c, d, now, time).value)| == c.maxCommits
  {
    var ss := SessionsOf(d);
    KeptCount(ss, Evicted(ss, c.maxCommits, time));
  }

  /**
   * With unique ids and every timestamp denoting the same instant,
   * `cleanup` keeps exactly the newest `maxCommits` entries of the index,
   * in index order.
   */
  lemma CleanupUniformTimesKeepsTail(c: Config, d: Disk, now: string, time: string -> int, t: int)
    requires c.maxCommits >= 0 && !d.index.WrongShape?
    requires UniqueIds(SessionsOf(d)) && |SessionsOf(d)| > c.maxCommits
    requires forall k :: 0 <= k < |SessionsOf(d)| ==> time(SessionsOf(d)[k].timestamp) == t
    ensures SessionsOf(Cleanup(c, d, now, time).value) == SessionsOf(d)[|SessionsOf(d)| - c.maxCommits..]
  {
    var ss := SessionsOf(d);
    var cut := EvictionCount(|ss|, c.maxCommits);
    UniformTimesEvictFirst(ss, c.maxCommits, time, t);
    PruneFront(ss, cut);
  }

  /** With unique ids, pruning the ids of the first `cut` entries leaves the rest. */
  lemma PruneFront(ss: seq<Session>, cut: nat)
    requires UniqueIds(ss) && cut <= |ss|
    ensures Prune(ss, IdsOf(ss[..cut])) == ss[cut..]
  {
    var ids := IdsOf(ss[..cut]);
    assert ss == ss[..cut] + ss[cut..];
    FilterConcat(ss[..cut], ss[cut..], Kept(ids));
    forall k | 0 <= k < |ss[..cut]| ensures !Kept(ids)(ss[..cut][k]) {
      assert ss[..cut][k] in ss[..cut];
    }
    FilterNone(ss[..cut], Kept(ids));
    TailIdsFresh(ss, cut);
    FilterAll(ss[cut..], Kept(ids));
  }

  /** With unique ids, no session after `cut` shares an id with one before it. */
  lemma TailIdsFresh(ss: seq<Session>, cut: nat)
    requires UniqueIds(ss) && cut <= |ss|
    ensures forall k :: 0 <= k < |ss[cut..]| ==> Kept(IdsOf(ss[..cut]))(ss[cut..][k])
  {
    forall k | 0 <= k < |ss[cut..]| ensures ss[cut..][k].sessionId !in IdsOf(ss[..cut]) {
      forall x | x in ss[..cut] ensures x.sessionId != ss[cut + k].sessionId {
        var i :| 0 <= i < cut && ss[..cut][i] == x;
        assert ss[i] == x;
      }
    }
  }

  /** A second `cleanup` right after a first finds nothing to do. */
  lemma CleanupIdempotent(c: Config, d: Disk, now: string, later: string, time: string -> int)
    requires c.maxCommits >= 0
    ensures Cleanup(c, d, now, time).Ok? ==>
      Cleanup(c, Cleanup(c, d, now, time).value, later, time) == Cleanup(c, d, now, time)
  {
    CleanupBound(c, d, now, time);
  }

  /**
   * `getSessions`: every session of the index, newest first, equal times
   * in index order. An index without `sessions` makes the sort throw.
   */
  function GetSessions(d: Disk, time: string -> int): (r: Result<seq<Session>, Thrown>)
    ensures d.index.WrongShape? ==> r == Err(SessionsError("sort"))
    ensures !d.index.WrongShape? ==> r.Ok?
    ensures r.Ok? ==> multiset(r.value) == multiset(SessionsOf(d))
    ensures r.Ok? ==> forall i, j :: 0 <= i < j < |r.value| ==> time(r.value[i].timestamp) >= time(r.value[j].timestamp)
    ensures r.Ok? ==> forall v :: KeyClass(r.value, NewestFirst(time), v) == KeyClass(SessionsOf(d), NewestFirst(time), v)
  {
    if d.index.WrongShape? then Err(SessionsError("sort"))
    else
      var out := SortByKey(SessionsOf(d), NewestFirst(time));
      assert forall i, j :: 0 <= i < j < |out| ==> NewestFirst(time)(out[i]) <= NewestFirst(time)(out[j]);
      Ok(out)
  }

  /**
   * When every timestamp denotes the same instant (in particular when
   * none parses, so every comparison is `NaN` and counts as equal),
   * `getSessions` returns the index order unchanged.
   */
  lemma UniformTimesKeepIndexOrder(d: Disk, time: string -> int, t: int)
    requires forall k :: 0 <= k < |SessionsOf(d)| ==> time(SessionsOf(d)[k].timestamp) == t
    ensures !d.index.WrongShape? ==> GetSessions(d, time) == Ok(SessionsOf(d))
  {
    ConstantKeyKeepsOrder(SessionsOf(d), NewestFirst(time), -t);
  }
}

=== FILE: text.dfy ===
/**
 * String operations of the JavaScript runtime that the original program
 * relies on, written out over `seq<char>`: prefix and suffix tests,
 * substring search, `trim` / `trimEnd`, `split` on one character,
 * single-character replacement, and decimal rendering of numbers.
 */
module Text {
  import opened Wrappers

  predicate StartsWith(s: string, p: string) {
    |p| <= |s| && s[..|p|] == p
  }

  lemma EndsWithConcat(s: string, p: string)
    ensures EndsWith(s + p, p) && (s + p)[..|s|] == s
  {
    assert (s + p)[|s|..] == p;
  }

  lemma StartsWithConcat(p: string, rest: string)
    ensures StartsWith(p + rest, p)
  {
    assert (p + rest)[..|p|] == p;
  }

  predicate EndsWith(s: string, p: string) {
    |p| <= |s| && s[|s| - |p|..] == p
  }

  /** `sub` occurs in `s` starting at index `i`. */
  predicate OccursAt(s: string, sub: string, i: int) {
    0 <= i <= |s| - |sub| && s[i..i + |sub|] == sub
  }

  /** `s.includes(sub)`: `sub` occurs somewhere in `s`. */
  predicate Contains(s: string, sub: string) {
    exists i :: 0 <= i <= |s| - |sub| && OccursAt(s, sub, i)
  }

  /**
   * The characters JavaScript's `trim` family removes: the ECMAScript
   * WhiteSpace and LineTerminator productions.
   */
  predicate IsJsWhitespace(c: char) {
    c == ' ' || c == '\t' || c == '\n' || c == '\r' || c == '\U{000B}' || c == '\U{000C}'
    || c == '\U{00A0}' || c == '\U{1680}' || ('\U{2000}' <= c <= '\U{200A}')
    || c == '\U{2028}' || c == '\U{2029}' || c == '\U{202F}' || c == '\U{205F}'
    || c == '\U{3000}' || c == '\U{FEFF}'
  }

  /** `s.trimEnd()`: the longest prefix of `s` not ending in whitespace. */
  function TrimEnd(s: string): (r: string)
    ensures |r| <= |s| && r == s[..|r|]
    ensures forall k :: |r| <= k < |s| ==> IsJsWhitespace(s[k])
    ensures |r| == 0 || !IsJsWhitespace(r[|r| - 1])
  {
    if |s| > 0 && IsJsWhitespace(s[|s| - 1]) then TrimEnd(s[..|s| - 1]) else s
  }

  /** `s.trimStart()`: the longest suffix of `s` not starting with whitespace. */
  function TrimStart(s: string): (r: string)
    ensures |r| <= |s| && r == s[|s| - |r|..]
    ensures forall k :: 0 <= k < |s| - |r| ==> IsJsWhitespace(s[k])
    ensures |r| == 0 || !IsJsWhitespace(r[0])
  {
    if |s| > 0 && IsJsWhitespace(s[0]) then TrimStart(s[1..]) else s
  }

  /** `s.trim()`: whitespace removed from both ends. */
  function Trim(s: string): (r: string)
    ensures |r| == 0 || (!IsJsWhitespace(r[0]) && !IsJsWhitespace(r[|r| - 1]))
    ensures Contains(s, r)
  {
    var t := TrimEnd(s);
    var r := TrimStart(t);
    assert OccursAt(s, r, |t| - |r|);
    r
  }

  /** A string that is entirely whitespace trims to the empty string. */
  lemma TrimOfBlank(s: string)
    requires forall k :: 0 <= k < |s| ==> IsJsWhitespace(s[k])
    ensures Trim(s) == ""
  {
  }

  /** A string with no whitespace at either end trims to itself. */
  lemma TrimClean(s: string)
    requires |s| == 0 || (!IsJsWhitespace(s[0]) && !IsJsWhitespace(s[|s| - 1]))
    ensures Trim(s) == s
  {
    assert TrimEnd(s) == s;
  }

  /** A trailing line feed is trimmed away. */
  lemma TrimEndNewline(s: string)
    ensures TrimEnd(s + "\n") == TrimEnd(s)
  {
    assert (s + "\n")[..|s|] == s;
  }

  /** The text before the first `c` in `s` (all of `s` when there is none). */
  function Before(s: string, c: char): (r: string)
    ensures c !in r && StartsWith(s, r)
    ensures |r| < |s| ==> s[|r|] == c
  {
    if |s| == 0 then "" else if s[0] == c then "" else [s[0]] + Before(s[1..], c)
  }

  /**
   * `s.split(c)`: the maximal `c`-free pieces of `s`, in order. Like the
   * JavaScript method it always yields at least one piece, so the empty
   * string splits into `[""]`.
   */
  function Split(s: string, c: char): (pieces: seq<string>)
    ensures |pieces| >= 1
    ensures forall k :: 0 <= k < |pieces| ==> c !in pieces[k]
    ensures pieces[0] == Before(s, c)
    decreases |s|
  {
    var head := Before(s, c);
    if |head| == |s| then [s] else [head] + Split(s[|head| + 1..], c)
  }

  /** `pieces.join(sep)`, the partner of `Split`. */
  function Join(pieces: seq<string>, c: char): string
  {
    if |pieces| == 0 then ""
    else if |pieces| == 1 then pieces[0]
    else pieces[0] + [c] + Join(pieces[1..], c)
  }

  /** Splitting and re-joining on the same character gives back the input. */
  lemma {:induction false} JoinSplit(s: string, c: char)
    ensures Join(Split(s, c), c) == s
    decreases |s|
  {
    var head := Before(s, c);
    if |head| < |s| {
      var rest := s[|head| + 1..];
      var tail := Split(rest, c);
      JoinSplit(rest, c);
      var pieces := [head] + tail;
      assert Split(s, c) == pieces;
      assert pieces[0] == head && pieces[1..] == tail;
      assert Join(pieces, c) == head + [c] + Join(tail, c);
      assert s == head + [c] + rest;
    }
  }

  /** The text before the first `c` of `a + [c] + b` is `a` when `a` holds none. */
  lemma {:induction false} BeforeMarked(a: string, c: char, b: string)
    requires c !in a
    ensures Before(a + [c] + b, c) == a
    decreases |a|
  {
    if |a| > 0 {
      BeforeMarked(a[1..], c, b);
      assert (a + [c] + b)[1..] == a[1..] + [c] + b;
    }
  }

  /** A string without `c` comes back whole from `Before`. */
  lemma {:induction false} BeforeAbsent(s: string, c: char)
    requires c !in s
    ensures Before(s, c) == s
    decreases |s|
  {
    if |s| > 0 {
      BeforeAbsent(s[1..], c);
    }
  }

  /** Joining `c`-free pieces and splitting again gives the pieces back. */
  lemma {:induction false} SplitJoin(pieces: seq<string>, c: char)
    requires |pieces| >= 1
    requires forall k :: 0 <= k < |pieces| ==> c !in pieces[k]
    ensures Split(Join(pieces, c), c) == pieces
    decreases |pieces|
  {
    var s := Join(pieces, c);
    if |pieces| == 1 {
      BeforeAbsent(pieces[0], c);
    } else {
      var rest := Join(pieces[1..], c);
      assert s == pieces[0] + [c] + rest;
      BeforeMarked(pieces[0], c, rest);
      assert s[|pieces[0]| + 1..] == rest;
      SplitJoin(pieces[1..], c);
      assert pieces == [pieces[0]] + pieces[1..];
    }
  }

  /** Every character of `s` found in `from` replaced by `to`, the rest kept. */
  function ReplaceEach(s: string, from: set<char>, to: char): (r: string)
    ensures |r| == |s|
    ensures forall k :: 0 <= k < |s| ==> r[k] == (if s[k] in from then to else s[k])
  {
    if |s| == 0 then "" else [if s[0] in from then to else s[0]] + ReplaceEach(s[1..], from, to)
  }

  /** Replacing distributes over concatenation. */
  lemma ReplaceEachConcat(s: string, t: string, from: set<char>, to: char)
    ensures ReplaceEach(s + t, from, to) == ReplaceEach(s, from, to) + ReplaceEach(t, from, to)
  {
    var l := ReplaceEach(s + t, from, to);
    var r := ReplaceEach(s, from, to) + ReplaceEach(t, from, to);
    forall k | 0 <= k < |l| ensures l[k] == r[k] {
      if k < |s| {
        assert (s + t)[k] == s[k];
        assert r[k] == ReplaceEach(s, from, to)[k];
      } else {
        assert (s + t)[k] == t[k - |s|];
        assert r[k] == ReplaceEach(t, from, to)[k - |s|];
      }
    }
  }

  /** `s.indexOf(c)`: the first position of `c`, if any. */
  function IndexOf(s: string, c: char): (r: Option<nat>)
    ensures r.Some? ==> r.value < |s| && s[r.value] == c && c !in s[..r.value]
    ensures r.Some? ==> forall j :: 0 <= j < r.value ==> s[j] != c
    ensures r.None? ==> c !in s
  {
    if |s| == 0 then None
    else if s[0] == c then Some(0)
    else match IndexOf(s[1..], c)
      case None => None
      case Some(i) => assert s[..i + 1] == [s[0]] + s[1..][..i]; Some(i + 1)
  }

  /** `s.lastIndexOf(c)`: the last position of `c`, if any. */
  function LastIndexOf(s: string, c: char): (r: Option<nat>)
    ensures r.Some? ==> r.value < |s| && s[r.value] == c && c !in s[r.value + 1..]
    ensures r.Some? ==> forall j :: r.value < j < |s| ==> s[j] != c
    ensures r.None? ==> c !in s
  {
    if |s| == 0 then None
    else if s[|s| - 1] == c then Some(|s| - 1)
    else
      assert s == s[..|s| - 1] + [s[|s| - 1]];
      match LastIndexOf(s[..|s| - 1], c)
      case None => None
      case Some(i) => assert s[i + 1..] == s[..|s| - 1][i + 1..] + [s[|s| - 1]]; Some(i)
  }

  /** The first `c` of `a + [c] + b` is the marked one when `a` holds none. */
  lemma IndexOfMarked(a: string, c: char, b: string)
    requires c !in a
    ensures IndexOf(a + [c] + b, c) == Some(|a|)
  {
    var s := a + [c] + b;
    assert s[|a|] == c;
    assert forall j :: 0 <= j < |a| ==> s[j] == a[j];
  }

  /** The last `c` of `a + [c] + b` is the marked one when `b` holds none. */
  lemma LastIndexOfMarked(a: string, c: char, b: string)
    requires c !in b
    ensures LastIndexOf(a + [c] + b, c) == Some(|a|)
  {
    var s := a + [c] + b;
    assert s[|a|] == c;
  }

  predicate IsDigit(c: char) {
    '0' <= c <= '9'
  }

  function DigitChar(d: nat): (c: char)
    requires d < 10
    ensures IsDigit(c) && c as int - '0' as int == d
  {
    ('0' as int + d) as char
  }

  function DigitValue(c: char): (d: nat)
    requires IsDigit(c)
    ensures d < 10 && DigitChar(d) == c
  {
    (c as int - '0' as int) as nat
  }

  /** `String(n)` for a non-negative integer: its decimal digits, no leading zero. */
  function NatToString(n: nat): (r: string)
    ensures |r| >= 1
    ensures forall k :: 0 <= k < |r| ==> IsDigit(r[k])
    ensures forall ch :: ch in r ==> IsDigit(ch)
  {
    if n < 10 then [DigitChar(n)] else NatToString(n / 10) + [DigitChar(n % 10)]
  }

  /** The value of a run of decimal digits. */
  function DigitsValue(s: string): nat
    requires forall k :: 0 <= k < |s| ==> IsDigit(s[k])
  {
    if |s| == 0 then 0 else DigitsValue(s[..|s| - 1]) * 10 + DigitValue(s[|s| - 1])
  }

  /** Reads a non-empty run of decimal digits back as a number. */
  function ParseNat(s: string): Option<nat>
  {
    if |s| > 0 && forall k :: 0 <= k < |s| ==> IsDigit(s[k]) then Some(DigitsValue(s)) else None
  }

  lemma {:induction false} ParseNatToString(n: nat)
    ensures ParseNat(NatToString(n)) == Some(n)
  {
    var s := NatToString(n);
    if n < 10 {
      assert s[..|s| - 1] == [];
    } else {
      ParseNatToString(n / 10);
      assert s[..|s| - 1] == NatToString(n / 10);
      assert DigitsValue(s) == DigitsValue(NatToString(n / 10)) * 10 + n % 10;
    }
  }
}

=== FILE: wrappers.dfy ===
/**
 * Failure-carrying values shared by every module of the model.
 *
 * The original program signals failure in two ways: a nullable or
 * `undefined` result, and a thrown exception. `Option` models the first
 * and `Result` the second, so an exception becomes an `Err` value that a
 * caller must inspect, as the JavaScript `catch` blocks do.
 */
module Wrappers {

  /** A possibly-absent value (`null` / `undefined` in the original). */
  datatype Option<+T> = None | Some(value: T) {

    /** The held value, or `default` when absent. */
    function GetOr(default: T): T {
      match this
      case Some(v) => v
      case None => default
    }
  }

  /** A computation that either returned `value` or threw `error`. */
  datatype Result<+T, +E> = Ok(value: T) | Err(error: E)

  /**
   * A value a JavaScript `throw` carries: an `Error` object, seen through
   * its `name` and `message`, or any other value, seen through the text
   * `String(value)` gives.
   */
  datatype Thrown = ErrorValue(name: string, message: string) | OtherValue(text: string)

  /** `new Error(message)`. */
  function NewError(message: string): Thrown {
    ErrorValue("Error", message)
  }

  /**
   * `String(error)`, also what `${error}` interpolates. For an `Error`
   * this is `Error.prototype.toString` (section 20.5.3.4 of ECMA-262):
   * the name alone when the message is empty, the message alone when the
   * name is empty, and `name: message` otherwise.
   */
  function Describe(t: Thrown): (s: string)
    ensures t.ErrorValue? && t.message == "" ==> s == t.name
    ensures t.ErrorValue? && t.name == "" ==> s == t.message
    ensures t.ErrorValue? && t.name != "" && t.message != "" ==> s == t.name + ": " + t.message
  {
    match t
    case ErrorValue(name, message) =>
      if name == "" then message else if message == "" then name else name + ": " + message
    case OtherValue(text) => text
  }

  /** `error instanceof Error ? error.message : 'Unknown error'`. */
  function MessageOf(t: Thrown): string {
    match t
    case ErrorValue(_, message) => message
    case OtherValue(_) => "Unknown error"
  }

  /** One effect performed by the environment: it completed, or it threw. */
  datatype Outcome = Done | Threw(error: Thrown)
}
